=== FILE: README.md ===
# A Dafny model of the Roam publisher's core

The publisher turns a Roam Research page dump into CommonMark. A JavaScript dumper (`PageDump.js`)
queries Roam for a page and everything linked below it. It reshapes each node into a flat JSON
record: vertex type, media type, children uids sorted by their `order`, and reference uids. The
Python side (`roampub`) then works in four steps:

1. It turns each decoded record into a typed vertex and keys the vertices by uid in an ordered
   `VertexMap`.
2. It checks ten graph invariants over that map.
3. It normalises Roam's Markdown dialect, meaning code fences, block quotes and `__italics__`.
4. It walks the tree depth-first, either into one Markdown string or into a stream of markdown-it
   tokens.

This project models that pure, in-memory core as immutable datatypes and total functions:

| file | module | what it models |
|---|---|---|
| `wrappers.dfy` | `Wrappers` | `Option` and `Result` |
| `text.dfy` | `Text` | the Python string operations the core relies on (`strip`, `startswith`, `in`, `join`, `'#' * n`, `str(int)`) |
| `ordered_maps.dfy` | `OrderedMaps` | insertion-ordered maps, which stand for Python `dict`s and JavaScript objects (whose order is insertion order for names that are not integer-like, as every Roam attribute name is) |
| `roam_model.dfy` | `RoamModel` | the vertex classes, the two string enums and `all_linked_uids` |
| `validation.dfy` | `Validation` | the ten validation rules and `validate` |
| `normalize.dfy` | `Normalize` | the two regular expressions as explicit scanners with `re.sub` semantics, the three normalisation rules, the rule chain as written, and the chain with the intended break class |
| `walk.dfy` | `Walk` | a reference pre-order walk that both walkers are proved against |
| `export.dfy` | `Export` | the Markdown export walker |
| `tokenize.dfy` | `Tokenize` | the token walker |
| `page_dump.dfy` | `PageDump` | record-to-vertex construction and `create_vertex_map` |
| `page_dump_js.dfy` | `PageDumpJs` | the dumper's record-reshaping helpers and its Datalog rule and query builders |
| `collect.dfy` | `Collect` | the first/last accessors |

Modelling conventions:

- A Python or JavaScript exception becomes the error half of a `Result`. The first exception in
  evaluation order is the one reported.
- A value that may be `None` is an `Option`.
- The walkers recurse without a bound in the source. In the model they carry a `fuel: nat` depth
  bound and report `DepthExceeded` when a node with children is reached with no fuel left.
- Every walker lemma holds for every fuel value. The fuel-monotonicity lemmas show that any fuel
  large enough to avoid `DepthExceeded` gives the same answer.

## Model

| member | source | states |
|---|---|---|
| RoamModel.VertexTypeRoundTrip | publisher/roampub/roam_model.py:58-62 | decoding the JSON literal of a vertex type gives that vertex type back |
| RoamModel.VertexTypeOfValue | publisher/roampub/roam_model.py:58-62 | a string decodes to a vertex type exactly when it is that type's literal; any other string has no vertex type |
| RoamModel.MediaTypeRoundTrip | publisher/roampub/roam_model.py:70-73 | decoding the JSON literal of a media type gives that media type back |
| RoamModel.MediaTypeOfValue | publisher/roampub/roam_model.py:70-73 | an unknown media-type literal has no `MediaType`, which is the case where `MediaType(...)` raises |
| RoamModel.NewPage | publisher/roampub/roam_model.py:159-176 | a page built with constructor defaults has empty (not missing) children and references |
| RoamModel.NewBlockContent | publisher/roampub/roam_model.py:203-217 | a content block built with constructor defaults has empty children and references |
| RoamModel.AccumulateLinkedUids | publisher/roampub/roam_model.py:259-274 | one fold step appends the vertex's named link list; a file, or a missing list, adds nothing |
| RoamModel.FoldIsConcat | publisher/roampub/roam_model.py:243-256 | folding the accumulator over the vertices equals the concatenation of their link lists in graph order, duplicates kept |
| RoamModel.AllLinkedUids | publisher/roampub/roam_model.py:243-274 | the result is the link lists concatenated in graph order; a uid is in it iff some vertex links to it; it is empty iff no vertex has a link (so empty for an empty graph) |
| RoamModel.ConcatLinksMembership | publisher/roampub/roam_model.py:259-274 | membership in the concatenated links is membership in some vertex's list |
| Validation.ValidateRootPage | publisher/roampub/roam_model.py:298-306 | crashes with `IndexError` exactly on an empty graph; passes iff the first vertex is a page; otherwise reports that vertex |
| Validation.ValidateLinksExist | publisher/roampub/roam_model.py:316-351 | the children-exist and references-exist rules never crash; they pass iff every linked uid is a key of the graph; a failure lists exactly the dangling uids, and the list is the filter of all linked uids in graph order, repeats kept |
| Validation.MissingAppend | publisher/roampub/roam_model.py:316-351 | the dangling-uid filter of a concatenation is the concatenation of the filters, so kept uids stay in list order with repeats |
| Validation.OverParentedEmpty | publisher/roampub/roam_model.py:360-384 | no block is flagged iff every block occurs at most once among all children lists, so a block with zero parents is not flagged |
| Validation.ValidateBlockParentsExist | publisher/roampub/roam_model.py:360-384 | passes iff no block uid occurs more than once across all children lists; each reported count is a block's occurrence count and exceeds 1, and every block occurring more than once is reported with its count; the reported uids are distinct and listed in the order the `Counter` first sees them among the children |
| Validation.Dedup | publisher/roampub/roam_model.py:374 | the `Counter`'s keys: each child uid once, in order of first occurrence |
| Validation.OverParentedInOrder | publisher/roampub/roam_model.py:376 | the dict comprehension keeps the `Counter`'s key order |
| Validation.ScreenedVertices | publisher/roampub/roam_model.py:399-405 | the looked-up vertices of the flagged children are pages or files, and every page or file child is among them |
| Validation.Screen | publisher/roampub/roam_model.py:399-405 | looking up every child raises `KeyError` for the first dangling uid; otherwise keeps exactly the flagged children |
| Validation.ValidateChildrenVertexTypes | publisher/roampub/roam_model.py:394-417 | crashes iff some child uid is missing from the graph; passes iff every child is neither a page nor a file; the reported vertices are pages or files of the graph, and every page or file among the children is reported |
| Validation.ValidateNodeChildren | publisher/roampub/roam_model.py:426-476 | for the page and heading rules: crashes iff a child of a vertex of that type is missing; passes iff every such child has an allowed type; every reported child has a disallowed type, and every child with a disallowed type is reported |
| Validation.ValidateAttributeAppearance | publisher/roampub/roam_model.py:487-529 | never crashes; passes iff every vertex carrying the attribute (present and not `None`, an empty list counts) has an allowed type; reports exactly the offending carriers |
| Validation.ChildrenAttributeNeverFails | publisher/roampub/roam_model.py:509-516 | the children-attribute rule passes on every graph, since files have no children attribute and every node type is allowed |
| Validation.DefaultPageFlagged | publisher/roampub/roam_model.py:526-529 | a page built with constructor defaults carries `references=[]` and so fails the references-attribute rule and `validate` |
| Validation.ReferenceFormsFound | publisher/roampub/roam_model.py:539-549 | content mentioning `[[r]]`, `((r))` or `<<r>>` anywhere contains the reference `r` |
| Validation.NoBracketNoReference | publisher/roampub/roam_model.py:539-549 | content with no opening bracket of any of the three forms contains no reference |
| Validation.MissingFromContent | publisher/roampub/roam_model.py:552-564 | keeps exactly the references that the content does not mention |
| Validation.MissingFromContentAppend | publisher/roampub/roam_model.py:552-564 | the filter of a concatenation of references is the concatenation of the filters, so unmentioned references stay in order with repeats |
| Validation.DanglingReferences | publisher/roampub/roam_model.py:552-564 | crashes for a file or for a page or heading carrying references (no `content`); gives `None` iff there are no references or all of them appear; otherwise gives the non-empty list of unmentioned ones, which is the filter of the references in their order |
| Validation.ReferencesOnNonContentCrash | publisher/roampub/roam_model.py:567-588 | a page or heading with non-empty references makes `validate` crash |
| Validation.ValidateReferencesAppearInContent | publisher/roampub/roam_model.py:567-588 | crashes iff some vertex would read a missing `content`; passes iff every reference carrier mentions all its references; reports exactly the uids of the carriers that do not, each mapped to the unmentioned references of a carrier with that uid |
| Validation.DanglersOfKeyedGraph | publisher/roampub/roam_model.py:567-588 | in a graph whose vertices sit under their own uids, each reported uid maps to exactly that vertex's unmentioned references |
| Validation.Collect | publisher/roampub/roam_model.py:640-654 | the first crash aborts; otherwise the failures are exactly the rules' reported failures |
| Validation.Validate | publisher/roampub/roam_model.py:598-656 | crashes iff some rule crashes; gives `None` iff every rule in `ALL_RULES` passes; otherwise gives a non-empty list holding exactly the rules' failures |
| Validation.ValidateFailureOrder | publisher/roampub/roam_model.py:598-656 | the failures come out in `ALL_RULES` order, at most one per rule |
| Validation.EmptyGraphCrashes | publisher/roampub/roam_model.py:298-306 | `validate` on an empty graph crashes with `IndexError` |
| Validation.PageWithOneBlockValidates | publisher/roampub/roam_model.py:598-656 | a page whose one child is a content block, with no references, passes all ten rules |
| Normalize.ParaBreakMatch | publisher/roampub/commonmark_normalize.py:54 | finds the longest match of `[...]{2,}(?=\S)` at the start of the text (greedy with backtracking), or reports that none exists |
| Normalize.BackOff | publisher/roampub/commonmark_normalize.py:54 | backtracking the greedy run finds the longest prefix that is followed by a non-space |
| Normalize.SubParaBreaksRun | publisher/roampub/commonmark_normalize.py:54-64 | a run of two or more breaks before a visible character becomes one `"\n>\n>"` |
| Normalize.TrailingBreaksKept | publisher/tests/commonmark_normalize_test.py:238-239 | breaks at the end of the text are not followed by a visible character and stay as they are |
| Normalize.SingleBreakKept | publisher/tests/commonmark_normalize_test.py:237 | a single line break between two lines is not a paragraph break and stays |
| Normalize.SubParaBreaksNoBreakChar | publisher/tests/commonmark_normalize_test.py:263 | text without break characters is unchanged |
| Normalize.SeparatorsBetweenLines | publisher/tests/commonmark_normalize_test.py:231-233 | two break runs between three lines become two separators |
| Normalize.ItalicMatch | publisher/roampub/commonmark_normalize.py:55 | finds the unique match of `__([^_\r\n]+)__` at the start of the text, or reports that none exists |
| Normalize.ItalicAtUnique | publisher/roampub/commonmark_normalize.py:55 | the italics pattern has at most one match at a position |
| Normalize.ItalicSpan | publisher/roampub/commonmark_normalize.py:94-96 | the first `__x__` after underscore-free text becomes `*x*` and the rest is rewritten on |
| Normalize.ItalicWordBetween | publisher/tests/commonmark_normalize_test.py:113-132 | `p__x__q`, with no underscores in `p` or `q`, becomes `p*x*q`; with `p` empty this is `"__hello cruel __world"` to `"*hello cruel *world"` |
| Normalize.SubItalicsUnchangedIff | publisher/roampub/commonmark_normalize.py:94-96 | substitution leaves the text unchanged iff the pattern matches nowhere, and otherwise shortens it |
| Normalize.SubItalicsNoDoubleUnderscore | publisher/tests/commonmark_normalize_test.py:168-169 | text without two adjacent underscores (`"_hello_"`, `"**hello**"`) is unchanged |
| Normalize.ItalicRejectedAcrossBreak | publisher/tests/commonmark_normalize_test.py:170-176 | `"____"`, and `__w__` with a CR or LF inside `w`, contain no italics match |
| Normalize.ItalicsNotIdempotent | publisher/roampub/commonmark_normalize.py:94-96 | normalising italics twice can differ from once: `"____x____"` becomes `"__*x*__"`, and normalising that again gives `"**x**"` |
| Normalize.NormalizeCodeBlock | publisher/roampub/commonmark_normalize.py:78-81 | the content is returned unchanged, consumed iff the stripped content starts with three backticks |
| Normalize.CodeBlockAfterIndent | publisher/tests/commonmark_normalize_test.py:37-97 | after leading whitespace, the rule consumes iff the text starts with a fence, so `__` before the fence or plain text is not consumed |
| Normalize.BlockQuoteWith | publisher/roampub/commonmark_normalize.py:58-66 | never consumes; text not starting with `>` is unchanged; quoted text is stripped and every paragraph break rewritten |
| Normalize.NormalizeBlockQuoteAsWritten | publisher/roampub/commonmark_normalize.py:54-66 | the rule as written, whose break class is CR, `?` and LF: never consumes; text not starting with `>` is unchanged; quoted text with none of those three characters is only stripped |
| Normalize.QuestionMarksBreakQuote | publisher/roampub/commonmark_normalize.py:54 | with the class as written, `"??"` before a visible character is taken for a paragraph break; with the intended class it is kept |
| Normalize.NormalizeBlockQuote | publisher/roampub/commonmark_normalize.py:58-66 | the block-quote rule with the intended class (CR, LF): never consumes; quoted text without line breaks is only stripped |
| Normalize.QuoteParagraphBreak | publisher/roampub/commonmark_normalize.py:58-66 | a quoted line, a break run and a visible line become the two lines joined by `"\n>\n>"` |
| Normalize.NormalizeItalics | publisher/roampub/commonmark_normalize.py:94-96 | never consumes; text without a double underscore is unchanged |
| Normalize.ApplyNormalization | publisher/roampub/commonmark_normalize.py:46-51 | only the code-block rule ever consumes; the block-quote rule applied is the one as written |
| Normalize.NormalizeBlockContent | publisher/roampub/commonmark_normalize.py:118-128 | a code block comes back byte-identical; any other content goes through the block-quote rule as written (break class CR, `?`, LF) and then the italics rule |
| Normalize.NormalizeBlockContentCorrected | publisher/roampub/commonmark_normalize.py:118-128 | the pipeline with the intended break class: a code block comes back byte-identical, and content without a question mark normalises exactly as the pipeline as written does |
| Normalize.SubParaBreaksSameClass | publisher/roampub/commonmark_normalize.py:54 | the paragraph-break substitution depends on the break class only through the characters of the text |
| Normalize.QuestionFreeQuoteAgrees | publisher/roampub/commonmark_normalize.py:54-66 | on text without a question mark, the block-quote rule as written and the intended one give the same result |
| Normalize.QuoteWithItalics | publisher/tests/commonmark_normalize_test.py:32-34 | with the intended break class, `">a" + breaks + "__x__" + breaks + "u"` normalises to `">a\n>\n>*x*\n>\n>u"` |
| Normalize.QuoteWithItalicsAsWritten | publisher/tests/commonmark_normalize_test.py:32-34 | the pipeline as written gives the same `">a\n>\n>*x*\n>\n>u"` when neither the lines nor the italic text hold a question mark |
| Normalize.QuestionMarksBreakContent | publisher/roampub/commonmark_normalize.py:118-128 | quoted content `a + "??" + u` is split into two paragraphs by the pipeline as written and left unchanged by the corrected pipeline |
| Export.HeadingMarkup | publisher/roampub/page_dump_export.py:56 | `'#' * level`: `level` hashes, none when the level is not positive |
| Export.ExportPageNode | publisher/roampub/page_dump_export.py:28-47 | `TypeError` for a non-page; a childless page exports exactly `"# " + strip(title)`; with children the export starts with that heading and a blank line and ends in a newline |
| Export.ExportBlockHeadingNode | publisher/roampub/page_dump_export.py:50-66 | `TypeError` for a non-heading; a childless heading exports `'#'*level + " " + strip(heading)`; with children it starts with that and a blank line |
| Export.ExportBlockContentNode | publisher/roampub/page_dump_export.py:69-85 | `TypeError` for a non-content vertex; a childless block exports exactly its stripped content; with children it starts with that and a blank line |
| Export.ExportNode | publisher/roampub/page_dump_export.py:88-104 | a file is a `TypeError`; a childless node exports its own text |
| Export.ExportChildrenFirstFailure | publisher/roampub/page_dump_export.py:39-41 | children are exported in list order; the list fails with the first child's failure and gives no partial result |
| Export.ExportIsJoinedPreorder | publisher/roampub/page_dump_export.py:28-104 | export fails exactly when the pre-order walk fails and with the same error; with no page below the root, the export is the walk's own texts joined by blank lines, plus a final newline for a page with children |
| Export.ExportPageIsJoinedPreorder | publisher/roampub/page_dump_export.py:28-47 | a page export is its pre-order texts joined by blank lines, plus a newline iff the page has children |
| Export.ValidPageExport | publisher/roampub/page_dump_export.py:28-47 | in a graph that passes the children-vertex-types rule, every page exports as its pre-order texts joined by blank lines |
| Export.ExportNodeFuelMonotone | publisher/roampub/page_dump_export.py:88-97 | more depth never changes an export that did not run out of depth |
| Tokenize.HeadingTokens | publisher/roampub/page_dump_tokenize.py:27-49 | a heading is the triple `heading_open` (nesting 1, level 0), `inline` (nesting 0, level 1, one `text` child holding the content), `heading_close` (nesting -1, level 0): all block tokens with empty content, open and close sharing tag and markup |
| Tokenize.HeadingTripleNested | publisher/roampub/page_dump_tokenize.py:28-32 | the nestings 1, 0, -1 that every heading triple carries make it well nested: open after the first and second token, closed at the end |
| Tokenize.TokenizePageNode | publisher/roampub/page_dump_tokenize.py:23-34 | a page gives the full heading triple (types, nesting, levels, block flags) with tag `h1` and markup `#` around `strip(title)` |
| Tokenize.TokenizeBlockHeadingNode | publisher/roampub/page_dump_tokenize.py:37-52 | a heading gives the full heading triple (types, nesting, levels, block flags) with tag `h<level>` and markup `'#'*level` around `strip(heading)` |
| Tokenize.TokenizeBlockContentNode | publisher/roampub/page_dump_tokenize.py:55-59 | a content block gives whatever the CommonMark parser gives for its content |
| Tokenize.TokenizeNode | publisher/roampub/page_dump_tokenize.py:62-89 | a file is a `TypeError`; a childless node gives its own tokens; a successful result starts with the node's own tokens |
| Tokenize.ReduceIsConcat | publisher/roampub/page_dump_tokenize.py:87 | the `reduce` of the child token lists is their concatenation |
| Tokenize.TokenizeIsPreorderTokens | publisher/roampub/page_dump_tokenize.py:62-89 | tokenizing fails exactly when the pre-order walk fails and with the same error; otherwise the result is the own tokens of every visited node, concatenated in pre-order |
| Tokenize.TokenizeAndExportAgreeOnErrors | publisher/roampub/page_dump_tokenize.py:62-89 | the token walker and the export walker fail on the same inputs with the same error |
| Tokenize.HeadingTokensCarryExportText | publisher/roampub/page_dump_tokenize.py:23-52 | a heading triple's markup and text are exactly the heading line the export walker writes |
| PageDump.ValidateCreateSource | publisher/roampub/page_dump.py:234-242 | an empty record is a missing argument; the check passes iff the record's `vertex-type` is the expected literal and its `media-type` a known one; a different vertex type is rejected |
| PageDump.IterateTitle | publisher/roampub/roam_model.py:163-164 | iterating the title: a string passes; a list passes iff it holds no `None`, else `ValueError`; `None`, a boolean or a number is not iterable and raises `TypeError` |
| PageDump.PageChecksInOrder | publisher/roampub/roam_model.py:161-168 | the page checks run in the constructor's order: a non-iterable title raises `TypeError`, a list title with `None` raises `ValueError`, and only then is the uid checked |
| PageDump.CreatePageNode | publisher/roampub/page_dump.py:245-254 | a created page has the record's uid, media type and `text` as title, and `children`/`refs` as children/references (`None` when absent); a record of another vertex type is rejected |
| PageDump.CreateBlockHeadingNode | publisher/roampub/page_dump.py:257-267 | a created heading takes its heading from `text` and its level from `heading`; a record of another vertex type is rejected |
| PageDump.CreateBlockContentNode | publisher/roampub/page_dump.py:270-279 | a created content block takes its content from `text`; a record of another vertex type is rejected |
| PageDump.CreateFileVertex | publisher/roampub/page_dump.py:282-290 | a created file takes its name from `file-name` and its source from `source`; a record of another vertex type is rejected |
| PageDump.CreateRoamVertex | publisher/roampub/page_dump.py:217-231 | a record without `vertex-type` is a `KeyError`; an unknown literal is rejected; a created vertex's type is the record's literal and comes from that type's constructor |
| PageDump.UnknownMediaTypeRejected | publisher/roampub/page_dump.py:242 | a record whose `media-type` is not a known literal is rejected whatever its vertex type |
| PageDump.CreateOfVertexRecord | publisher/roampub/page_dump.py:217-290 | the record written for any vertex is read back as that same vertex |
| PageDump.CreateAll | publisher/roampub/page_dump.py:203 | every record is converted in order; the first failing record's error is the one reported |
| PageDump.CreateVertexMap | publisher/roampub/page_dump.py:198-204 | a `None` record is a missing argument; every vertex is keyed by its own uid and every record's uid is a key; the map is the `OrderedDict` of the built `(uid, vertex)` pairs: keys in order of first occurrence, each bound to the vertex of its last pair |
| PageDump.LastRecordWins | publisher/roampub/page_dump.py:203-204 | when several records build vertices with one uid, the map binds that uid to the vertex of the last of them |
| PageDump.CreateVertexMapKeepsOrder | publisher/roampub/page_dump.py:203-204 | with distinct uids, the map's keys are the uids in record order and its values the vertices in record order |
| PageDump.CreateVertexMapOfGraphRecords | publisher/roampub/page_dump.py:198-204 | the records written for a uid-keyed graph read back as that graph |
| PageDump.HeadingFixtureRejected | publisher/tests/page_dump_test.py:172-189 | a heading record shaped like the test fixture (`heading`/`level`, no `text`) fails with `KeyError('text')` |
| PageDumpJs.Pick | page-dump/PageDump.js:408-412 | keeps exactly the listed properties whose values are not null, with their values and in the object's order |
| PageDumpJs.PickIdempotent | page-dump/PageDump.js:408-412 | picking the same properties twice is picking them once |
| PageDumpJs.AddVertexType | page-dump/PageDump.js:261-283 | the assertion fails unless exactly one of `title`/`string` is present; the copy gets `roam/page` for a title and `roam/block` for a string, and every other property is kept in order |
| PageDumpJs.AddMediaType | page-dump/PageDump.js:238-252 | succeeds iff the vertex type is `roam/page` or `roam/block`, then adds `text/plain` and keeps every other property in order |
| PageDumpJs.VertexTypeThenMediaType | page-dump/PageDump.js:238-283 | a node that gets a vertex type always gets the `text/plain` media type after it |
| PageDumpJs.GetAddPropertyFunction | page-dump/PageDump.js:220-229 | only `vertex-type` and `media-type` name adders; any other name throws |
| PageDumpJs.AddProperties | page-dump/PageDump.js:196-212 | no list or an empty list returns the nodes unchanged; a successful result keeps the number of nodes; an unknown first name throws |
| PageDumpJs.MapAdder | page-dump/PageDump.js:206-211 | an adder applied to every node succeeds iff it succeeds on each, with the results in node order |
| PageDumpJs.UnknownNameThrows | page-dump/PageDump.js:196-229 | an unknown name anywhere in the list makes `addProperties` throw |
| PageDumpJs.DumperAddProperties | page-dump/PageDump.js:196-283 | adding `vertex-type` then `media-type` to pages and blocks succeeds and types each node |
| PageDumpJs.Resolve | page-dump/PageDump.js:360 | reading a child's `id` throws on null; a resolved child is the uid and order registered for that id |
| PageDumpJs.CompareOrder | page-dump/PageDump.js:386-397 | throws on a null side or on a non-integer order; otherwise negative, zero or positive as the left order is below, equal to or above the right |
| PageDumpJs.CompareOrderAntisymmetric | page-dump/PageDump.js:386-397 | swapping the arguments negates the comparison and keeps the error |
| PageDumpJs.SortByOrder | page-dump/PageDump.js:362 | the result is sorted by ascending order and is a permutation of its input |
| PageDumpJs.NormalizeChildren | page-dump/PageDump.js:358-366 | a non-array or a null child is a `TypeError`; with two or more resolved children, a resolved child without an integer order throws from the comparison; otherwise any child that resolves to nothing (`undefined`) is a `TypeError` when its uid is read; one child comes back as its own uid, two or more as their uids sorted ascending by `order` |
| PageDumpJs.SortChildren | page-dump/PageDump.js:362-365 | `sort` leaves `undefined` out of the comparisons: it throws the order error iff two or more children resolved and one of them has no integer order; it succeeds iff every child resolved and, with two or more, every order is an integer; one child gives its uid; two or more give a sorted permutation of the resolved uids |
| PageDumpJs.SortResolved | page-dump/PageDump.js:362 | sorting the resolved children fails iff there are two or more and one has no integer order; fewer than two are returned as they are; otherwise the result is sorted by order and a permutation of the input |
| PageDumpJs.DefinedAtLeastTwo | page-dump/PageDump.js:362 | there are two or more resolved children, which is when `sort` calls the comparator, iff two positions of the list resolved |
| PageDumpJs.NormalizeRefs | page-dump/PageDump.js:372-374 | succeeds iff every reference resolves, and gives their uids in the original order |
| PageDumpJs.NormalizeProperty | page-dump/PageDump.js:315-333 | `string` goes through `normalizeString`, `children` through `normalizeChildren`, `refs` through `normalizeRefs`, and every other property passes through unchanged |
| PageDumpJs.NormalizeNode | page-dump/PageDump.js:292-306 | drops exactly `order` and `id`, keeps the other properties in order, and normalises each value |
| PageDumpJs.NormalizePlainNode | page-dump/PageDump.js:292-306 | a node without `string`, `children` or `refs` keeps every other property's value |
| PageDumpJs.ProximateRule | page-dump/PageDump.js:518-523 | a proximate clause is present iff its directive follows links |
| PageDumpJs.InductiveRule | page-dump/PageDump.js:524-529 | an inductive clause is present iff its directive is `DEEP` |
| PageDumpJs.BuildRules | page-dump/PageDump.js:511-551 | the rules are `"[]"` iff both directives are `DONT_FOLLOW`; each proximate clause appears when its directive follows, and the inductive clauses and linker appear for `DEEP` |
| PageDumpJs.BuildQuery | page-dump/PageDump.js:558-580 | with both directives `DONT_FOLLOW` the query pulls `?page` and has no linker clause; otherwise it pulls `?node` and has the linker clause |
| PageDumpJs.QueryText | page-dump/PageDump.js:569-578 | the query holds the pull clause and the linker clause, and adds no `k` of its own |
| Collect.GetFirst | publisher/common/collect.py:24-40 | raises iff the sequence holds `None`; gives `None` iff it is empty; otherwise gives its first element |
| Collect.GetLast | publisher/common/collect.py:59-77 | raises iff the sequence holds `None`; gives `None` iff it is empty; otherwise gives its last element |
| Collect.GetLastIsFirstOfReverse | publisher/common/collect.py:24-65 | the last element of a sequence is the first element of its reverse |
| Collect.GetFirstKey | publisher/common/collect.py:43-48 | on a mapping: raises iff a key is `None`; gives `None` iff empty; otherwise its first key |
| Collect.GetFirstValue | publisher/common/collect.py:51-56 | on a mapping: raises iff a key is `None`; gives `None` iff empty; otherwise the first key's value |
| Collect.GetFirstItem | publisher/common/collect.py:32-40 | on a mapping: gives the first `(key, value)` pair |
| Collect.GetLastKey | publisher/common/collect.py:80-86 | on a mapping: gives the last key |
| Collect.GetLastValue | publisher/common/collect.py:89-95 | on a mapping: gives the last key's value |
| Collect.GetLastItem | publisher/common/collect.py:68-77 | on a mapping: gives the last `(key, value)` pair |
| Collect.ItemIsKeyAndValue | publisher/common/collect.py:32-95 | the first (last) item of a mapping is its first (last) key paired with that key's value |
| OrderedMaps.Put | publisher/roampub/page_dump.py:204 | assigning a key stores the value; a new key goes to the end and an existing key keeps its place |
| OrderedMaps.FromPairs | publisher/roampub/page_dump.py:204 | building a dict from pairs keeps each key at its first position, with the value of its last pair |
| OrderedMaps.LastPairWins | publisher/roampub/page_dump.py:204 | the last pair with a given key supplies that key's value |
| OrderedMaps.FromItemsIsIdentity | publisher/roampub/page_dump.py:204 | rebuilding an ordered map from its own items gives the same map |
| OrderedMaps.FromPairsOfDistinct | publisher/roampub/page_dump.py:204 | with distinct keys the map's keys are the pairs' keys in order, each with its own value |
| Text.Strip | publisher/roampub/page_dump_export.py:34 | `str.strip()` removes exactly the leading and trailing whitespace |
| Text.IntToString | publisher/roampub/page_dump_tokenize.py:40 | the decimal rendering of an integer: an optional `-`, then digits only with no leading zero (a negative number's first digit is not `0`), reading back as that integer |

## Left out

- Zip and JSON reading (the `PageDump` class, `read_page_dump_json`, `load_json_dump`) is file and archive plumbing. The model starts from the decoded records.
- The MarkdownIt parse in `tokenize_block_content_node` is an external CommonMark library. It is the `parse` function parameter of `Tokenize`.
- `normalizeString` in `PageDump.js` depends on JavaScript regular-expression and `Map` semantics. It is a function parameter of `PageDumpJs.NormalizeProperty`.
- `normalizeNodes` (`PageDump.js:165-187`) builds the id-to-uid and title-to-uid maps from a live query result. The model takes the id-to-uid map as the parameter `ids`.
- Roam querying (`pullPageNodesFromRoam`, `window.roamAlphaAPI`), file writes and `checkEnvironment` are host calls in the browser or in Node.
- Logging, `__repr__` and the reflection helpers of `introspect.py` are left out. Only their "present and not `None`" meaning of an attribute is modelled, by `RoamModel.HasLink`.
- `ValueError("missing required arg")` for a `None` node or graph in the walkers cannot happen in the model. A `Vertex` and a `Graph` are never `None`.
- Tokenize.TokenizeNode: the `case _` branch that raises `ValueError` is unreachable. Every `RoamNode` has one of the three node types, and a file is rejected earlier with `TypeError`.
- Export.ExportIsJoinedPreorder: the fuel bound stands in for Python's unbounded recursion. On a cyclic graph Python raises `RecursionError`, while the model reports `DepthExceeded`.
- Tokenize.TokenizeIsPreorderTokens: the same fuel bound applies. A cycle gives `DepthExceeded` where Python raises `RecursionError`.
- PageDump.CreateRoamVertex: Python stores some values the typed vertex cannot hold, such as a page title that is a list without `None`, or `children` that are not a list of strings. The model reports these as `IllTyped(key)` after all of the source's own checks, where Python would fail later or not at all. The title's own check is modelled: `PageNode` iterates the title itself, so a `None` title raises `TypeError` and a list holding `None` raises `ValueError`, both before the uid is checked.
- PageDumpJs.Resolve: JavaScript turns a property key into a string, so an `id` of `"5"` would also find the entry of node 5. The model resolves integer ids only, and any other id reads as `undefined`.
- Validation.ValidateReferencesAppearInContent: when two carriers under different keys share a uid, the contract says the uid maps to the unmentioned references of one of them, not that it is the last one. `Validation.DanglersOfKeyedGraph` pins the value for graphs whose vertices sit under their own uids, which is what `create_vertex_map` builds.
- PageDumpJs.SortByOrder: JavaScript's `Array.prototype.sort` is modelled by an insertion sort. The contract states sortedness and permutation only, not which of several equal-order children comes first.
- PageDumpJs.BuildRules states the presence of each clause for the directives that need it. It does not state that a clause is absent for the others, apart from the `"[]"` case.
- PageDumpJs.BuildQuery, like `PageDumpJs.BuildRules`, models the query text's structure (which clauses appear), not Datalog evaluation against Roam.
- Normalize.NormalizeItalics states the unchanged case in its own contract. The rewriting of each match is stated by the lemmas `ItalicSpan`, `ItalicWordBetween` and `SubItalicsUnchangedIff`.
- The tokenize tests call `tokenize_node` with three arguments, including a normaliser (`publisher/tests/page_dump_tokenize_test.py:21`). The code takes two arguments and never normalises. The model follows the code.
- The export tests call `export_node_str` (`publisher/tests/page_dump_export_test.py:22`). `publisher/roampub/page_dump_export.py` does not define it. The model follows the exporters that file does define.
- `create_block_heading_node` reads the heading from `text` and the level from `heading`, while the test fixture uses `heading`/`level`. The model follows the code; `PageDump.HeadingFixtureRejected` shows the fixture is rejected.
- `PageDump.js` emits the vertex type `roam/block`, which `create_roam_vertex` does not recognise. The two halves are modelled as written, so `PageDumpJs.AddVertexType` and `PageDump.CreateRoamVertex` disagree on that literal.
- The code's own behaviour differs from its docstrings in several places, and the model follows the code:
  - `validate` on an empty graph crashes with `IndexError` instead of passing.
  - The block-parents rule flags only counts above one, not zero.
  - An empty list counts as a present attribute.
  - Normalising italics is not idempotent.
- The mdformat rendering and the other library-exploration tests are not part of the core.

## Findings

| source | as written | input that shows it | evidently intended | confidence | as-written member | corrected member |
|---|---|---|---|---|---|---|
| publisher/roampub/commonmark_normalize.py:54 | the character class `[\r?\n]` holds a literal `?`, so two or more question marks before a visible character count as a paragraph break | `">Really??Yes"` is rewritten to `">Really\n>\n>Yes"` | a class of CR and LF only, so the text is left as it is | not executed | Normalize.NormalizeBlockContent (shown by Normalize.QuestionMarksBreakContent) | Normalize.NormalizeBlockContentCorrected |

=== FILE: collect.dfy ===
/**
 * First/last accessors over Python sequences and ordered mappings. A Python collection may hold
 * `None` elements (for a mapping: `None` keys); that is modelled by `Option` element (key) types.
 * Every accessor first iterates the collection itself and raises `ValueError` if any element
 * (key) is `None`; an empty collection gives `None`.
 */
module Collect {
  import opened Wrappers
  import opened OrderedMaps

  /** `ValueError("missing required arg")` */
  datatype CollectError = MissingRequiredArg

  predicate HoldsNone<T>(s: seq<Option<T>>)
  {
    exists i | 0 <= i < |s| :: s[i].None?
  }

  /** `get_first(seq)`, and `get_first_item(seq)`, which takes the same path for a non-mapping. */
  function GetFirst<T>(c: seq<Option<T>>): (r: Result<Option<T>, CollectError>)
    ensures r.Err? <==> HoldsNone(c)
    ensures r == Ok(None) <==> c == []
    ensures r.Ok? && r.value.Some? ==> c[0] == Some(r.value.value)
  {
    if HoldsNone(c) then Err(MissingRequiredArg)
    else if c == [] then Ok(None)
    else Ok(Some(c[0].value))
  }

  /** `get_last(seq)`, and `get_last_item(seq)`. */
  function GetLast<T>(c: seq<Option<T>>): (r: Result<Option<T>, CollectError>)
    ensures r.Err? <==> HoldsNone(c)
    ensures r == Ok(None) <==> c == []
    ensures r.Ok? && r.value.Some? ==> c[|c| - 1] == Some(r.value.value)
  {
    if HoldsNone(c) then Err(MissingRequiredArg)
    else if c == [] then Ok(None)
    else Ok(Some(c[|c| - 1].value))
  }

  function Reverse<T>(s: seq<T>): (r: seq<T>)
    ensures |r| == |s| && forall i :: 0 <= i < |s| ==> r[i] == s[|s| - 1 - i]
  {
    if s == [] then [] else Reverse(s[1..]) + [s[0]]
  }

  /** The last element is the first of the reversed collection, with the same `None` guard. */
  lemma GetLastIsFirstOfReverse<T>(c: seq<Option<T>>)
    ensures GetLast(c) == GetFirst(Reverse(c))
  {
    var rc := Reverse(c);
    if HoldsNone(c) {
      var i :| 0 <= i < |c| && c[i].None?;
      assert rc[|c| - 1 - i].None?;
    }
  }

  /** The `None` guard of a mapping iterates its keys. */
  predicate HasNoneKey<K(==,!new), V>(m: OMap<Option<K>, V>)
  {
    HoldsNone(m.keys)
  }

  /** `get_first_key(m)`, and `get_first(m)`, which iterates the mapping, hence its keys. */
  function GetFirstKey<K(==,!new), V>(m: OMap<Option<K>, V>): (r: Result<Option<K>, CollectError>)
    ensures r.Err? <==> HasNoneKey(m)
    ensures r == Ok(None) <==> |m.keys| == 0
    ensures r.Ok? && r.value.Some? ==> m.keys[0] == Some(r.value.value)
  {
    GetFirst(m.keys)
  }

  /** `get_first_value(m)` */
  function GetFirstValue<K(==,!new), V>(m: OMap<Option<K>, V>): (r: Result<Option<V>, CollectError>)
    ensures r.Err? <==> HasNoneKey(m)
    ensures r == Ok(None) <==> |m.keys| == 0
    ensures r.Ok? && r.value.Some? ==> r.value.value == m.entries[m.keys[0]]
  {
    if HasNoneKey(m) then Err(MissingRequiredArg)
    else if |m.keys| == 0 then Ok(None)
    else Ok(Some(m.entries[m.keys[0]]))
  }

  /** `get_first_item(m)` for a mapping: the first `(key, value)` pair. */
  function GetFirstItem<K(==,!new), V>(m: OMap<Option<K>, V>): (r: Result<Option<(K, V)>, CollectError>)
    ensures r.Err? <==> HasNoneKey(m)
    ensures r == Ok(None) <==> |m.keys| == 0
    ensures r.Ok? && r.value.Some? ==>
      m.keys[0] == Some(r.value.value.0) && r.value.value.1 == m.entries[m.keys[0]]
  {
    if HasNoneKey(m) then Err(MissingRequiredArg)
    else if |m.keys| == 0 then Ok(None)
    else Ok(Some((m.keys[0].value, m.entries[m.keys[0]])))
  }

  /** `get_last_key(m)`, and `get_last(m)`. */
  function GetLastKey<K(==,!new), V>(m: OMap<Option<K>, V>): (r: Result<Option<K>, CollectError>)
    ensures r.Err? <==> HasNoneKey(m)
    ensures r == Ok(None) <==> |m.keys| == 0
    ensures r.Ok? && r.value.Some? ==> m.keys[|m.keys| - 1] == Some(r.value.value)
  {
    GetLast(m.keys)
  }

  /** `get_last_value(m)` */
  function GetLastValue<K(==,!new), V>(m: OMap<Option<K>, V>): (r: Result<Option<V>, CollectError>)
    ensures r.Err? <==> HasNoneKey(m)
    ensures r == Ok(None) <==> |m.keys| == 0
    ensures r.Ok? && r.value.Some? ==> r.value.value == m.entries[m.keys[|m.keys| - 1]]
  {
    if HasNoneKey(m) then Err(MissingRequiredArg)
    else if |m.keys| == 0 then Ok(None)
    else Ok(Some(m.entries[m.keys[|m.keys| - 1]]))
  }

  /** `get_last_item(m)` for a mapping: the last `(key, value)` pair. */
  function GetLastItem<K(==,!new), V>(m: OMap<Option<K>, V>): (r: Result<Option<(K, V)>, CollectError>)
    ensures r.Err? <==> HasNoneKey(m)
    ensures r == Ok(None) <==> |m.keys| == 0
    ensures r.Ok? && r.value.Some? ==>
      m.keys[|m.keys| - 1] == Some(r.value.value.0) && r.value.value.1 == m.entries[m.keys[|m.keys| - 1]]
  {
    if HasNoneKey(m) then Err(MissingRequiredArg)
    else if |m.keys| == 0 then Ok(None)
    else Ok(Some((m.keys[|m.keys| - 1].value, m.entries[m.keys[|m.keys| - 1]])))
  }

  /** The item accessors pair up exactly what the key and value accessors return. */
  lemma ItemIsKeyAndValue<K(!new), V>(m: OMap<Option<K>, V>)
    ensures GetFirstItem(m).Ok? && GetFirstItem(m).value.Some? ==>
      GetFirstKey(m) == Ok(Some(GetFirstItem(m).value.value.0))
      && GetFirstValue(m) == Ok(Some(GetFirstItem(m).value.value.1))
    ensures GetLastItem(m).Ok? && GetLastItem(m).value.Some? ==>
      GetLastKey(m) == Ok(Some(GetLastItem(m).value.value.0))
      && GetLastValue(m) == Ok(Some(GetLastItem(m).value.value.1))
  {
  }

  /** For a one-entry mapping the first and last accessors agree. */
  lemma SingletonFirstIsLast<K(!new), V>(m: OMap<Option<K>, V>)
    requires |m.keys| == 1
    ensures GetFirstItem(m) == GetLastItem(m)
  {
  }
}

=== FILE: export.dfy ===
/**
 * The export walker: a depth-first flattening of a page and its descendants into one CommonMark
 * string, each node's text separated from the next by a blank line.
 *
 * The three per-class exporters of the publisher share one shape (own text; if there are children,
 * the own text and the children's exports joined on blank lines; a page adds a final newline).
 * The model writes that shape once, in `ExportNode`, and keeps the per-class functions as the
 * class-checking entry points they are.
 */
module Export {
  import opened Wrappers
  import opened Text
  import opened RoamModel
  import opened Walk
  import Validation

  const BlankLine: string := "\n\n"

  /** The Markdown prefix of a heading block, `'#' * level`: no hashes at all when `level <= 0`. */
  function HeadingMarkup(level: int): (r: string)
    ensures |r| == (if level <= 0 then 0 else level)
    ensures forall i :: 0 <= i < |r| ==> r[i] == '#'
  {
    Repeat('#', level)
  }

  /** The text a node contributes by itself: the page heading, the heading line or the content. */
  function OwnText(v: Vertex): string
  {
    match v
    case Page(_, _, title, _, _) => "# " + Strip(title)
    case BlockHeading(_, _, heading, level, _, _) => HeadingMarkup(level) + " " + Strip(heading)
    case BlockContent(_, _, content, _, _) => Strip(content)
    case File(_, _, _, _) => ""
  }

  /** What a node with exported children exports: its own text and theirs on blank lines. */
  function Assemble(v: Vertex, exports: seq<string>): string
  {
    Join(BlankLine, [OwnText(v)] + exports) + (if v.Page? then "\n" else "")
  }

  // ---------------------------------------------------------------------------------------------
  // The walker

  /**
   * `export_node(node, graph)` followed by the exporter `EXPORTATION_MAP` picks for the node's
   * type. A `File` is not a `RoamNode` and raises `TypeError`.
   */
  function ExportNode(v: Vertex, g: Graph, fuel: nat): (r: Result<string, WalkError>)
    ensures v.File? ==> r == Err(TypeError(v.uid))
    ensures !v.File? && ChildUids(v) == [] ==> r == Ok(OwnText(v))
    ensures !v.File? && ChildUids(v) != [] && fuel == 0 ==> r == Err(DepthExceeded)
    decreases fuel, 1
  {
    if v.File? then Err(TypeError(v.uid))
    else if ChildUids(v) == [] then Ok(OwnText(v))
    else if fuel == 0 then Err(DepthExceeded)
    else
      match ExportChildren(ChildUids(v), g, fuel - 1)
      case Err(e) => Err(e)
      case Ok(exports) => Ok(Assemble(v, exports))
  }

  /** `export_node(graph[c], graph)` for one child uid: `KeyError` when `c` is not in the graph. */
  function ExportChild(c: Uid, g: Graph, fuel: nat): Result<string, WalkError>
    decreases fuel, 2, 0
  {
    if c !in g.entries then Err(KeyError(c)) else ExportNode(g.entries[c], g, fuel)
  }

  /** `cs[i]` is the first child whose export raises. */
  predicate FirstFailure(cs: seq<Uid>, g: Graph, fuel: nat, i: int)
    decreases fuel, 2, |cs|
  {
    0 <= i < |cs| && ExportChild(cs[i], g, fuel).Err? &&
    forall j :: 0 <= j < i ==> ExportChild(cs[j], g, fuel).Ok?
  }

  /**
   * `[export_node(graph[c], graph) for c in children]`: one export per child in list order, or the
   * exception of the first child that is missing or fails, with no partial result.
   */
  function ExportChildren(cs: seq<Uid>, g: Graph, fuel: nat): (r: Result<seq<string>, WalkError>)
    ensures r.Ok? ==> |r.value| == |cs|
    decreases fuel, 2, |cs| + 1
  {
    if cs == [] then Ok([])
    else
      match ExportChild(cs[0], g, fuel)
      case Err(e) => Err(e)
      case Ok(s) =>
        match ExportChildren(cs[1..], g, fuel)
        case Err(e) => Err(e)
        case Ok(rest) => Ok([s] + rest)
  }

  /**
   * The children's exports succeed exactly when every child exports, give each child's export at
   * its position, and otherwise raise what the first failing child raises.
   */
  lemma {:induction false} ExportChildrenFirstFailure(cs: seq<Uid>, g: Graph, fuel: nat)
    ensures var r := ExportChildren(cs, g, fuel);
      && (r.Ok? <==> forall i :: 0 <= i < |cs| ==> ExportChild(cs[i], g, fuel).Ok?)
      && (r.Ok? ==> forall i :: 0 <= i < |cs| ==> r.value[i] == ExportChild(cs[i], g, fuel).value)
      && (r.Err? ==> exists i :: FirstFailure(cs, g, fuel, i) && r.error == ExportChild(cs[i], g, fuel).error)
  {
    if cs != [] {
      ExportChildrenFirstFailure(cs[1..], g, fuel);
      var r := ExportChildren(cs, g, fuel);
      var h := ExportChild(cs[0], g, fuel);
      assert forall j :: 1 <= j < |cs| ==> cs[j] == cs[1..][j - 1];
      if h.Err? {
        assert FirstFailure(cs, g, fuel, 0);
      } else if r.Err? {
        var i :| FirstFailure(cs[1..], g, fuel, i) && r.error == ExportChild(cs[1..][i], g, fuel).error;
        assert FirstFailure(cs, g, fuel, i + 1);
      }
    }
  }

  // ---------------------------------------------------------------------------------------------
  // The per-class exporters

  /** `export_page_node(node, graph)` */
  function ExportPageNode(v: Vertex, g: Graph, fuel: nat): (r: Result<string, WalkError>)
    ensures !v.Page? ==> r == Err(TypeError(v.uid))
    ensures v.Page? && ChildUids(v) == [] ==> r == Ok("# " + Strip(v.title))
    ensures v.Page? && ChildUids(v) != [] && r.Ok? ==>
      StartsWith(r.value, "# " + Strip(v.title) + BlankLine) && r.value[|r.value| - 1] == '\n'
  {
    if !v.Page? then Err(TypeError(v.uid))
    else
      var r := ExportNode(v, g, fuel);
      assert ChildUids(v) != [] && r.Ok? ==>
        StartsWith(r.value, OwnText(v) + BlankLine) && r.value[|r.value| - 1] == '\n'
      by {
        if ChildUids(v) != [] && r.Ok? { ExportLeadsWithOwnText(v, g, fuel); }
      }
      r
  }

  /** `export_block_heading_node(node, graph)` */
  function ExportBlockHeadingNode(v: Vertex, g: Graph, fuel: nat): (r: Result<string, WalkError>)
    ensures !v.BlockHeading? ==> r == Err(TypeError(v.uid))
    ensures v.BlockHeading? && ChildUids(v) == [] ==>
      r == Ok(HeadingMarkup(v.level) + " " + Strip(v.heading))
    ensures v.BlockHeading? && ChildUids(v) != [] && r.Ok? ==>
      StartsWith(r.value, HeadingMarkup(v.level) + " " + Strip(v.heading) + BlankLine)
  {
    if !v.BlockHeading? then Err(TypeError(v.uid))
    else
      var r := ExportNode(v, g, fuel);
      assert ChildUids(v) != [] && r.Ok? ==> StartsWith(r.value, OwnText(v) + BlankLine) by {
        if ChildUids(v) != [] && r.Ok? { ExportLeadsWithOwnText(v, g, fuel); }
      }
      r
  }

  /** `export_block_content_node(node, graph)` */
  function ExportBlockContentNode(v: Vertex, g: Graph, fuel: nat): (r: Result<string, WalkError>)
    ensures !v.BlockContent? ==> r == Err(TypeError(v.uid))
    ensures v.BlockContent? && ChildUids(v) == [] ==> r == Ok(Strip(v.content))
    ensures v.BlockContent? && ChildUids(v) != [] && r.Ok? ==>
      StartsWith(r.value, Strip(v.content) + BlankLine)
  {
    if !v.BlockContent? then Err(TypeError(v.uid))
    else
      var r := ExportNode(v, g, fuel);
      assert ChildUids(v) != [] && r.Ok? ==> StartsWith(r.value, OwnText(v) + BlankLine) by {
        if ChildUids(v) != [] && r.Ok? { ExportLeadsWithOwnText(v, g, fuel); }
      }
      r
  }

  /** A join of a head and a non-empty tail starts with the head and a separator. */
  lemma JoinLeads(head: string, rest: seq<string>)
    requires rest != []
    ensures StartsWith(Join(BlankLine, [head] + rest), head + BlankLine)
  {
    var parts := [head] + rest;
    assert parts[0] == head && parts[1..] == rest;
    var j := Join(BlankLine, parts);
    assert j == head + BlankLine + Join(BlankLine, rest);
    assert j[..|head + BlankLine|] == head + BlankLine;
  }

  /**
   * A node with children exports its own text, a blank line, then its children; a page's export
   * then ends with a newline.
   */
  lemma ExportLeadsWithOwnText(v: Vertex, g: Graph, fuel: nat)
    requires !v.File? && ChildUids(v) != [] && ExportNode(v, g, fuel).Ok?
    ensures StartsWith(ExportNode(v, g, fuel).value, OwnText(v) + BlankLine)
    ensures v.Page? ==> var r := ExportNode(v, g, fuel).value; r[|r| - 1] == '\n'
  {
    var e := ExportChildren(ChildUids(v), g, fuel - 1).value;
    JoinLeads(OwnText(v), e);
    if v.Page? {
      StartsWithAppend(Join(BlankLine, [OwnText(v)] + e), "\n", OwnText(v) + BlankLine);
    }
  }

  // ---------------------------------------------------------------------------------------------
  // The export is the pre-order of the tree, each node's own text joined on blank lines

  /** The own texts of a list of nodes. */
  function Texts(vs: seq<Vertex>): (r: seq<string>)
    ensures |r| == |vs| && forall i :: 0 <= i < |vs| ==> r[i] == OwnText(vs[i])
  {
    seq(|vs|, i requires 0 <= i < |vs| => OwnText(vs[i]))
  }

  lemma TextsAppend(xs: seq<Vertex>, ys: seq<Vertex>)
    ensures Texts(xs + ys) == Texts(xs) + Texts(ys)
  {
    assert forall i :: 0 <= i < |xs| ==> (xs + ys)[i] == xs[i];
    assert forall i :: |xs| <= i < |xs + ys| ==> (xs + ys)[i] == ys[i - |xs|];
  }

  /** None of the listed uids names a page in the graph. */
  predicate NoPageAmong(cs: seq<Uid>, g: Graph)
  {
    forall i :: 0 <= i < |cs| && cs[i] in g.entries ==> !g.entries[cs[i]].Page?
  }

  /** No vertex of the graph lists a page among its children. */
  predicate NoPageChildren(g: Graph)
  {
    forall u :: u in g.entries ==> NoPageAmong(ChildUids(g.entries[u]), g)
  }

  /** What a page with children adds after its joined texts. */
  function Trailer(v: Vertex): string
  {
    if v.Page? && ChildUids(v) != [] then "\n" else ""
  }

  /**
   * The export fails exactly where the pre-order walk fails, with the same exception; and when no
   * page sits below a node, its export is its nodes' own texts in pre-order, joined on blank lines,
   * followed by the newline a page with children ends with.
   */
  lemma {:induction false} ExportIsJoinedPreorder(v: Vertex, g: Graph, fuel: nat)
    ensures SameOutcome(ExportNode(v, g, fuel), Preorder(v, g, fuel))
    ensures NoPageAmong(ChildUids(v), g) && NoPageChildren(g) && ExportNode(v, g, fuel).Ok? ==>
      ExportNode(v, g, fuel).value == Join(BlankLine, Texts(Preorder(v, g, fuel).value)) + Trailer(v)
    decreases fuel, 1
  {
    var cs := ChildUids(v);
    if !v.File? && cs != [] && fuel > 0 {
      ExportChildrenIsJoinedPreorder(cs, g, fuel - 1);
      var e, p := ExportChildren(cs, g, fuel - 1), PreorderChildren(cs, g, fuel - 1);
      assert ExportNode(v, g, fuel) == if e.Err? then Err(e.error) else Ok(Assemble(v, e.value));
      assert Preorder(v, g, fuel) == if p.Err? then Err(p.error) else Ok([v] + p.value);
      if e.Ok? && NoPageAmong(cs, g) && NoPageChildren(g) {
        AssembleIsJoinedTexts(v, e.value, p.value);
      }
    }
  }

  /** The assembled export of a node with children, given that its children's joins agree. */
  lemma AssembleIsJoinedTexts(v: Vertex, exports: seq<string>, below: seq<Vertex>)
    requires ChildUids(v) != [] && exports != [] && below != []
    requires Join(BlankLine, exports) == Join(BlankLine, Texts(below))
    ensures Assemble(v, exports) == Join(BlankLine, Texts([v] + below)) + Trailer(v)
  {
    TextsAppend([v], below);
    JoinHead(OwnText(v), exports, Texts(below));
  }

  /** The same for a list of children: the exports, joined, are the children's pre-orders' texts, joined. */
  lemma {:induction false} ExportChildrenIsJoinedPreorder(cs: seq<Uid>, g: Graph, fuel: nat)
    ensures SameOutcome(ExportChildren(cs, g, fuel), PreorderChildren(cs, g, fuel))
    ensures NoPageAmong(cs, g) && NoPageChildren(g) && ExportChildren(cs, g, fuel).Ok? && cs != [] ==>
      Join(BlankLine, ExportChildren(cs, g, fuel).value) ==
      Join(BlankLine, Texts(PreorderChildren(cs, g, fuel).value))
    decreases fuel, 2, |cs|
  {
    if cs != [] && cs[0] in g.entries {
      var v := g.entries[cs[0]];
      ExportIsJoinedPreorder(v, g, fuel);
      ExportChildrenIsJoinedPreorder(cs[1..], g, fuel);
      var h, t := ExportNode(v, g, fuel), ExportChildren(cs[1..], g, fuel);
      var ph, pt := Preorder(v, g, fuel), PreorderChildren(cs[1..], g, fuel);
      assert ExportChildren(cs, g, fuel) ==
        if h.Err? then Err(h.error) else if t.Err? then Err(t.error) else Ok([h.value] + t.value);
      assert PreorderChildren(cs, g, fuel) ==
        if ph.Err? then Err(ph.error) else if pt.Err? then Err(pt.error) else Ok(ph.value + pt.value);
      if h.Ok? && t.Ok? && NoPageAmong(cs, g) && NoPageChildren(g) {
        assert !v.Page? && NoPageAmong(ChildUids(v), g);
        assert Trailer(v) == "" && h.value + "" == h.value;
        assert NoPageAmong(cs[1..], g) by {
          assert forall i :: 0 <= i < |cs[1..]| ==> cs[1..][i] == cs[i + 1];
        }
        TextsAppend(ph.value, pt.value);
        JoinNested(h.value, t.value, Texts(ph.value), Texts(pt.value));
      }
    }
  }

  /** Joining a head's parts and its siblings' parts is joining the joins. */
  lemma JoinNested(head: string, rest: seq<string>, xs: seq<string>, ys: seq<string>)
    requires xs != [] && head == Join(BlankLine, xs)
    requires rest == [] <==> ys == []
    requires rest != [] ==> Join(BlankLine, rest) == Join(BlankLine, ys)
    ensures Join(BlankLine, [head] + rest) == Join(BlankLine, xs + ys)
  {
    if rest == [] {
      assert [head] + rest == [head] && xs + ys == xs;
    } else {
      assert ([head] + rest)[1..] == rest;
      JoinAppend(BlankLine, xs, ys);
    }
  }

  /** Joining the same head onto lists whose joins agree. */
  lemma JoinHead(head: string, rest: seq<string>, ys: seq<string>)
    requires rest != [] && ys != [] && Join(BlankLine, rest) == Join(BlankLine, ys)
    ensures Join(BlankLine, [head] + rest) == Join(BlankLine, [head] + ys)
  {
    assert ([head] + rest)[1..] == rest && ([head] + ys)[1..] == ys;
  }

  /**
   * A page with no page below it exports as its pre-order's texts joined on blank lines, plus one
   * newline when it has children.
   */
  lemma ExportPageIsJoinedPreorder(v: Vertex, g: Graph, fuel: nat)
    requires v.Page? && NoPageAmong(ChildUids(v), g) && NoPageChildren(g)
    ensures SameOutcome(ExportPageNode(v, g, fuel), Preorder(v, g, fuel))
    ensures ExportPageNode(v, g, fuel).Ok? ==>
      ExportPageNode(v, g, fuel).value ==
        Join(BlankLine, Texts(Preorder(v, g, fuel).value)) + (if ChildUids(v) == [] then "" else "\n")
  {
    ExportIsJoinedPreorder(v, g, fuel);
    assert ExportPageNode(v, g, fuel) == ExportNode(v, g, fuel);
  }

  /** A graph that passes the children-vertex-types rule has no page below any vertex. */
  lemma ValidChildTypesNoPageChildren(g: Graph)
    requires Validation.ValidateChildrenVertexTypes(g) == Ok(None)
    ensures NoPageChildren(g)
  {
    forall u | u in g.entries
      ensures NoPageAmong(ChildUids(g.entries[u]), g)
    {
      Validation.KeyValueIn(g, u);
      var v := g.entries[u];
      forall i | 0 <= i < |ChildUids(v)| && ChildUids(v)[i] in g.entries
        ensures !g.entries[ChildUids(v)[i]].Page?
      {
        assert ChildUids(v)[i] in AllLinkedUids(Children, g);
      }
    }
  }

  /**
   * In a graph that passes the children-vertex-types rule, a page exports as the texts of its
   * pre-order joined on blank lines, with a final newline when it has children.
   */
  lemma ValidPageExport(g: Graph, u: Uid, fuel: nat)
    requires u in g.entries && g.entries[u].Page?
    requires Validation.ValidateChildrenVertexTypes(g) == Ok(None)
    ensures var v := g.entries[u];
      && SameOutcome(ExportPageNode(v, g, fuel), Preorder(v, g, fuel))
      && (ExportPageNode(v, g, fuel).Ok? ==>
        ExportPageNode(v, g, fuel).value ==
          Join(BlankLine, Texts(Preorder(v, g, fuel).value)) + (if ChildUids(v) == [] then "" else "\n"))
  {
    ValidChildTypesNoPageChildren(g);
    ExportPageIsJoinedPreorder(g.entries[u], g, fuel);
  }

  // ---------------------------------------------------------------------------------------------
  // The depth bound only ever cuts a walk short

  /** With more fuel, a walk that did not hit the bound returns the same result. */
  lemma {:induction false} ExportNodeFuelMonotone(v: Vertex, g: Graph, fuel: nat, more: nat)
    requires fuel <= more && ExportNode(v, g, fuel) != Err(DepthExceeded)
    ensures ExportNode(v, g, more) == ExportNode(v, g, fuel)
    decreases fuel, 1
  {
    if !v.File? && ChildUids(v) != [] {
      var cs, f, m := ChildUids(v), fuel - 1, more - 1;
      ExportChildrenFuelMonotone(cs, g, f, m);
      SameChildrenSameExport(v, cs, g, f, m);
    }
  }

  /** Two fuel bounds under which the children export alike export the node alike. */
  lemma SameChildrenSameExport(v: Vertex, cs: seq<Uid>, g: Graph, f: nat, m: nat)
    requires !v.File? && cs == ChildUids(v) && cs != []
    requires ExportChildren(cs, g, m) == ExportChildren(cs, g, f)
    ensures ExportNode(v, g, m + 1) == ExportNode(v, g, f + 1)
  {
    ExportNodeUnfold(v, g, f + 1);
    ExportNodeUnfold(v, g, m + 1);
  }

  /** A node with children exports what its children's exports assemble into. */
  lemma ExportNodeUnfold(v: Vertex, g: Graph, fuel: nat)
    requires !v.File? && ChildUids(v) != [] && fuel > 0
    ensures ExportNode(v, g, fuel) == AssembleResult(v, ExportChildren(ChildUids(v), g, fuel - 1))
  {
  }

  function AssembleResult(v: Vertex, exports: Result<seq<string>, WalkError>): Result<string, WalkError>
  {
    match exports
    case Err(e) => Err(e)
    case Ok(es) => Ok(Assemble(v, es))
  }

  lemma {:induction false} ExportChildrenFuelMonotone(cs: seq<Uid>, g: Graph, fuel: nat, more: nat)
    requires fuel <= more && ExportChildren(cs, g, fuel) != Err(DepthExceeded)
    ensures ExportChildren(cs, g, more) == ExportChildren(cs, g, fuel)
    decreases fuel, 2, |cs|
  {
    if cs != [] && cs[0] in g.entries {
      var v := g.entries[cs[0]];
      ExportNodeFuelMonotone(v, g, fuel, more);
      if ExportNode(v, g, fuel).Ok? {
        ExportChildrenFuelMonotone(cs[1..], g, fuel, more);
      }
    }
  }
}

=== FILE: normalize.dfy ===
/**
 * The rewriting of Roam-flavoured block text into CommonMark: the code-block, block-quote and
 * italics rules, their two regular expressions as explicit left-to-right scanners with Python's
 * `re.sub` semantics (leftmost match, greedy with backtracking, non-overlapping), and the rule
 * chain `normalize_block_content`.
 */
module Normalize {
  import opened Wrappers
  import opened Text

  datatype NormalizationResult = NormalizationResult(normalizedContent: string, didConsume: bool)

  datatype NormalizationRule = CodeBlockRule | BlockQuoteRule | ItalicsRule

  const AllRules: seq<NormalizationRule> := [CodeBlockRule, BlockQuoteRule, ItalicsRule]

  /** The length of the run of `cls` characters that `s` starts with. */
  function RunLength(s: string, cls: char -> bool): (n: nat)
    ensures n <= |s|
    ensures forall k :: 0 <= k < n ==> cls(s[k])
    ensures n == |s| || !cls(s[n])
  {
    if s == [] || !cls(s[0]) then 0 else 1 + RunLength(s[1..], cls)
  }

  // ---------------------------------------------------------------------------------------------
  // Paragraph breaks: `[\r?\n]{2,}(?=\S)`

  /** The character class of the pattern as written: CR, `?` and LF (`?` is literal inside `[...]`). */
  predicate IsBreakCharAsWritten(c: char)
  {
    c == '\r' || c == '?' || c == '\n'
  }

  /** The class the pattern is meant to have: line-break characters only. */
  predicate IsLineBreak(c: char)
  {
    c == '\r' || c == '\n'
  }

  /**
   * The paragraph-break pattern over class `cls` matches `s[..e]` at the start of `s`: at least two
   * `cls` characters, followed by a character that is not whitespace (a lookahead, not consumed).
   */
  predicate ParaBreakAt(s: string, e: int, cls: char -> bool)
  {
    2 <= e < |s| && (forall k :: 0 <= k < e ==> cls(s[k])) && !IsSpace(s[e])
  }

  /** Backtracking of the greedy `{2,}` from `e` down to 2 until the lookahead succeeds. */
  function BackOff(s: string, e: nat, cls: char -> bool): (r: Option<nat>)
    requires e <= |s| && forall k :: 0 <= k < e ==> cls(s[k])
    ensures r.Some? ==> r.value <= e && ParaBreakAt(s, r.value, cls)
    ensures r.Some? ==> forall m :: r.value < m <= e ==> !ParaBreakAt(s, m, cls)
    ensures r.None? ==> forall m :: m <= e ==> !ParaBreakAt(s, m, cls)
  {
    if e < 2 then None
    else if e < |s| && !IsSpace(s[e]) then Some(e)
    else BackOff(s, e - 1, cls)
  }

  /** The match of the paragraph-break pattern at the start of `s`, if any: the end of the longest one. */
  function ParaBreakMatch(s: string, cls: char -> bool): (r: Option<nat>)
    ensures r.Some? ==> ParaBreakAt(s, r.value, cls) && forall m :: r.value < m ==> !ParaBreakAt(s, m, cls)
    ensures r.None? ==> forall m :: !ParaBreakAt(s, m, cls)
  {
    var n := RunLength(s, cls);
    assert forall m :: n < m ==> !ParaBreakAt(s, m, cls) by {
      forall m | n < m ensures !ParaBreakAt(s, m, cls) {
        if m < |s| { assert !cls(s[n]); }
      }
    }
    BackOff(s, n, cls)
  }

  /** `re.sub(pattern, "\n>\n>", s)` for the paragraph-break pattern over class `cls`. */
  function SubParaBreaks(s: string, cls: char -> bool): string
    decreases |s|
  {
    if s == [] then []
    else
      match ParaBreakMatch(s, cls)
      case Some(e) => "\n>\n>" + SubParaBreaks(s[e..], cls)
      case None => [s[0]] + SubParaBreaks(s[1..], cls)
  }

  /** Two strings with the same matches at their start have the same longest match. */
  lemma ParaBreakMatchDetermined(s: string, t: string, cls: char -> bool)
    requires forall m :: ParaBreakAt(s, m, cls) <==> ParaBreakAt(t, m, cls)
    ensures ParaBreakMatch(s, cls) == ParaBreakMatch(t, cls)
  {
    var a, b := ParaBreakMatch(s, cls), ParaBreakMatch(t, cls);
    if a.Some? && b.Some? {
      assert !(a.value < b.value) && !(b.value < a.value);
    }
  }

  /** A match at the start of `a + t` cannot run past the end of `a` when `a` ends outside the class. */
  lemma ParaBreakMatchPrefix(a: string, t: string, cls: char -> bool)
    requires a != [] && !cls(a[|a| - 1])
    ensures ParaBreakMatch(a + t, cls) == ParaBreakMatch(a, cls)
    ensures ParaBreakMatch(a, cls).Some? ==> ParaBreakMatch(a, cls).value < |a|
  {
    forall m ensures ParaBreakAt(a + t, m, cls) <==> ParaBreakAt(a, m, cls) {
      if ParaBreakAt(a + t, m, cls) {
        assert (a + t)[|a| - 1] == a[|a| - 1];
        assert m < |a|;
        assert forall k :: 0 <= k <= m ==> (a + t)[k] == a[k];
      }
      if ParaBreakAt(a, m, cls) {
        assert forall k :: 0 <= k <= m ==> (a + t)[k] == a[k];
      }
    }
    ParaBreakMatchDetermined(a + t, a, cls);
  }

  /**
   * Text that ends with a character outside the class cannot start a match that runs past its end,
   * so substitution distributes over the concatenation.
   */
  lemma {:induction false} SubParaBreaksAppend(a: string, t: string, cls: char -> bool)
    requires a == [] || !cls(a[|a| - 1])
    ensures SubParaBreaks(a + t, cls) == SubParaBreaks(a, cls) + SubParaBreaks(t, cls)
    decreases |a|
  {
    if a == [] {
      assert a + t == t;
    } else {
      ParaBreakMatchPrefix(a, t, cls);
      match ParaBreakMatch(a, cls)
      case Some(e) =>
        assert (a + t)[e..] == a[e..] + t;
        SubParaBreaksAppend(a[e..], t, cls);
        AppendAssoc("\n>\n>", SubParaBreaks(a[e..], cls), SubParaBreaks(t, cls));
      case None =>
        assert (a + t)[0] == a[0];
        assert (a + t)[1..] == a[1..] + t;
        SubParaBreaksAppend(a[1..], t, cls);
        AppendAssoc([a[0]], SubParaBreaks(a[1..], cls), SubParaBreaks(t, cls));
    }
  }

  /** Text with no character of the class is left as it is. */
  lemma {:induction false} SubParaBreaksNoBreakChar(s: string, cls: char -> bool)
    requires Avoids(s, cls)
    ensures SubParaBreaks(s, cls) == s
    decreases |s|
  {
    if s != [] {
      assert !ParaBreakAt(s, 2, cls) by { assert !cls(s[0]); }
      assert ParaBreakMatch(s, cls).None?;
      SubParaBreaksNoBreakChar(s[1..], cls);
    }
  }

  /** A run of two or more line-break characters before a visible character becomes one quote separator. */
  lemma SubParaBreaksRun(r: string, u: string, cls: char -> bool)
    requires |r| >= 2 && forall k :: 0 <= k < |r| ==> cls(r[k])
    requires u != [] && !cls(u[0]) && !IsSpace(u[0])
    ensures SubParaBreaks(r + u, cls) == "\n>\n>" + SubParaBreaks(u, cls)
  {
    RunMatches(r, u, cls);
    assert (r + u)[|r|..] == u;
  }

  /** The separator replacement inside a longer text, after a prefix that ends outside the class. */
  lemma ParaBreakSpan(a: string, r: string, u: string, cls: char -> bool)
    requires a == [] || !cls(a[|a| - 1])
    requires |r| >= 2 && forall k :: 0 <= k < |r| ==> cls(r[k])
    requires u != [] && !cls(u[0]) && !IsSpace(u[0])
    ensures SubParaBreaks(a + r + u, cls) == SubParaBreaks(a, cls) + "\n>\n>" + SubParaBreaks(u, cls)
  {
    AppendAssoc(a, r, u);
    SubParaBreaksAppend(a, r + u, cls);
    SubParaBreaksRun(r, u, cls);
    AppendAssoc(SubParaBreaks(a, cls), "\n>\n>", SubParaBreaks(u, cls));
  }

  /** A whole run of two or more class characters, then a visible character outside the class, matches. */
  lemma RunMatches(r: string, u: string, cls: char -> bool)
    requires |r| >= 2 && forall k :: 0 <= k < |r| ==> cls(r[k])
    requires u != [] && !cls(u[0]) && !IsSpace(u[0])
    ensures ParaBreakMatch(r + u, cls) == Some(|r|)
  {
    var t := r + u;
    assert t[|r|] == u[0];
    assert ParaBreakAt(t, |r|, cls);
  }

  // ---------------------------------------------------------------------------------------------
  // Italics: `__([^_\r\n]+)__`

  predicate IsItalicChar(c: char)
  {
    c != '_' && c != '\r' && c != '\n'
  }

  /** The italics pattern matches `s[..j + 2]` at the start of `s`, with group `s[2..j]`. */
  predicate ItalicAt(s: string, j: int)
  {
    2 < j && j + 2 <= |s| && s[0] == '_' && s[1] == '_' &&
    (forall k :: 2 <= k < j ==> IsItalicChar(s[k])) &&
    s[j] == '_' && s[j + 1] == '_'
  }

  /** The group cannot hold `_`, so the closing `__` is the first `_` after the opening one. */
  lemma ItalicAtUnique(s: string, j: int, j': int)
    requires ItalicAt(s, j) && ItalicAt(s, j')
    ensures j == j'
  {
  }

  /** The end of the group of the italics match at the start of `s`, if any. */
  function ItalicMatch(s: string): (r: Option<nat>)
    ensures r.Some? ==> ItalicAt(s, r.value)
    ensures r.None? ==> forall j :: !ItalicAt(s, j)
  {
    if |s| < 2 || s[0] != '_' || s[1] != '_' then None
    else
      var j := 2 + RunLength(s[2..], IsItalicChar);
      assert forall k :: 2 <= k < j ==> IsItalicChar(s[k]) by {
        forall k | 2 <= k < j ensures IsItalicChar(s[k]) { assert s[k] == s[2..][k - 2]; }
      }
      if j > 2 && j + 2 <= |s| && s[j] == '_' && s[j + 1] == '_' then Some(j) else None
  }

  /** `re.sub(r"__([^_\r\n]+)__", r"*\1*", s)` */
  function SubItalics(s: string): string
    decreases |s|
  {
    if s == [] then []
    else
      match ItalicMatch(s)
      case Some(j) => "*" + s[2..j] + "*" + SubItalics(s[j + 2..])
      case None => [s[0]] + SubItalics(s[1..])
  }

  /** Text without an underscore starts no match and is copied unchanged in front of what follows. */
  lemma {:induction false} SubItalicsPlainPrefix(a: string, t: string)
    requires '_' !in a
    ensures SubItalics(a + t) == a + SubItalics(t)
    decreases |a|
  {
    if a != [] {
      assert (a + t)[0] == a[0] && a[0] != '_';
      assert ItalicMatch(a + t).None?;
      assert (a + t)[1..] == a[1..] + t;
      SubItalicsPlainPrefix(a[1..], t);
      assert [a[0]] + a[1..] == a;
    } else {
      assert a + t == t;
    }
  }

  /** Text without an underscore is left as it is. */
  lemma SubItalicsNoUnderscore(s: string)
    requires '_' !in s
    ensures SubItalics(s) == s
  {
    SubItalicsPlainPrefix(s, []);
    assert s + [] == s;
  }

  /**
   * `__x__` with a non-empty `x` free of `_`, CR and LF, after text without underscores, becomes
   * `*x*`; scanning resumes right after the closing `__`.
   */
  lemma ItalicSpan(a: string, x: string, b: string)
    requires '_' !in a
    requires x != [] && forall k :: 0 <= k < |x| ==> IsItalicChar(x[k])
    ensures SubItalics(a + "__" + x + "__" + b) == a + "*" + x + "*" + SubItalics(b)
  {
    var t := "__" + x + "__" + b;
    RegroupTail(a, "__", x, "__", b);
    SubItalicsPlainPrefix(a, t);
    ItalicSpanAtStart(x, b);
    RegroupTail(a, "*", x, "*", SubItalics(b));
  }

  /** Appending four pieces to `a` is appending their concatenation. */
  lemma RegroupTail(a: string, p: string, x: string, q: string, b: string)
    ensures a + p + x + q + b == a + (p + x + q + b)
  {
  }

  /** A span at the very start is the match there, and substitution goes on after it. */
  lemma ItalicSpanAtStart(x: string, b: string)
    requires x != [] && forall k :: 0 <= k < |x| ==> IsItalicChar(x[k])
    ensures SubItalics("__" + x + "__" + b) == "*" + x + "*" + SubItalics(b)
  {
    var t := "__" + x + "__" + b;
    var j := |x| + 2;
    ItalicSpanMatches(x, b);
    assert t[2..j] == x && t[j + 2..] == b;
  }

  lemma ItalicSpanMatches(x: string, b: string)
    requires x != [] && forall k :: 0 <= k < |x| ==> IsItalicChar(x[k])
    ensures ItalicMatch("__" + x + "__" + b) == Some(|x| + 2)
  {
    var t := "__" + x + "__" + b;
    var j := |x| + 2;
    assert forall k :: 2 <= k < j ==> t[k] == x[k - 2];
    assert ItalicAt(t, j);
    var m := ItalicMatch(t);
    if m.Some? {
      ItalicAtUnique(t, m.value, j);
    }
  }

  /** No two adjacent underscores in `s`. */
  predicate NoDoubleUnderscore(s: string)
  {
    forall i :: 0 <= i < |s| - 1 ==> !(s[i] == '_' && s[i + 1] == '_')
  }

  /** Text with no two adjacent underscores is left as it is. */
  lemma {:induction false} SubItalicsNoDoubleUnderscore(s: string)
    requires NoDoubleUnderscore(s)
    ensures SubItalics(s) == s
    decreases |s|
  {
    if s != [] {
      assert ItalicMatch(s).None?;
      assert NoDoubleUnderscore(s[1..]) by {
        forall i | 0 <= i < |s[1..]| - 1 ensures !(s[1..][i] == '_' && s[1..][i + 1] == '_') {
          assert s[1..][i] == s[i + 1] && s[1..][i + 1] == s[i + 2];
        }
      }
      SubItalicsNoDoubleUnderscore(s[1..]);
      assert [s[0]] + s[1..] == s;
    }
  }

  /** `re.search(r"__([^_\r\n]+)__", s)` finds a match: the pattern matches at some position. */
  predicate ItalicFound(s: string)
  {
    exists i, j :: 0 <= i <= |s| && 0 <= j <= |s| && ItalicAt(s[i..], j)
  }

  /** Where no match starts at the front, a match in `s` is a match in `s[1..]`. */
  lemma ItalicFoundTail(s: string)
    requires s != [] && ItalicMatch(s).None?
    ensures ItalicFound(s) <==> ItalicFound(s[1..])
  {
    if ItalicFound(s) {
      var i, j :| 0 <= i <= |s| && 0 <= j <= |s| && ItalicAt(s[i..], j);
      assert i != 0;
      assert s[i..] == s[1..][i - 1..];
    }
    if ItalicFound(s[1..]) {
      var i, j :| 0 <= i <= |s[1..]| && 0 <= j <= |s[1..]| && ItalicAt(s[1..][i..], j);
      assert s[1..][i..] == s[i + 1..];
    }
  }

  /**
   * The substitution leaves `s` as it is exactly when the pattern is found nowhere in it; each
   * match shortens the text by two characters.
   */
  lemma {:induction false} SubItalicsUnchangedIff(s: string)
    ensures |SubItalics(s)| <= |s|
    ensures SubItalics(s) == s <==> !ItalicFound(s)
    ensures ItalicFound(s) ==> |SubItalics(s)| < |s|
    decreases |s|
  {
    if s == [] {
      assert !ItalicFound(s) by {
        forall i, j | 0 <= i <= |s| && 0 <= j <= |s| ensures !ItalicAt(s[i..], j) {}
      }
    } else {
      match ItalicMatch(s)
      case Some(j) =>
        SubItalicsUnchangedIff(s[j + 2..]);
        assert s[0..] == s;
        assert ItalicFound(s);
      case None =>
        SubItalicsUnchangedIff(s[1..]);
        ItalicFoundTail(s);
        assert s == [s[0]] + s[1..];
    }
  }

  /**
   * `__w__` holds no match when `w` has no underscore and is empty or holds a line break: the
   * only candidate span would have `w` as its group.
   */
  lemma ItalicRejectedAcrossBreak(m: string, w: string)
    requires m == "__" && '_' !in w
    requires w == [] || exists k :: 0 <= k < |w| && (w[k] == '\r' || w[k] == '\n')
    ensures !ItalicFound(m + w + m)
  {
    var s := m + w + m;
    forall i, j | 0 <= i <= |s| && 0 <= j <= |s|
      ensures !ItalicAt(s[i..], j)
    {
      if 2 <= i < |w| + 2 {
        assert s[i] == w[i - 2];
      } else if i == 0 && 2 < j < |w| + 2 {
        assert s[i..][j] == w[j - 2];
      } else if i == 0 && j == |w| + 2 && w != [] {
        var k :| 0 <= k < |w| && (w[k] == '\r' || w[k] == '\n');
        assert s[i..][k + 2] == w[k];
      }
    }
  }

  // ---------------------------------------------------------------------------------------------
  // The rules

  /** `content.startswith("```")` */
  predicate IsCodeBlock(content: string)
  {
    StartsWith(content, "```")
  }

  /** Returns the content untouched and consumes it exactly when its stripped text opens a fence. */
  function NormalizeCodeBlock(content: string): (r: NormalizationResult)
    ensures r.normalizedContent == content
    ensures r.didConsume <==> IsCodeBlock(Strip(content))
  {
    NormalizationResult(content, IsCodeBlock(Strip(content)))
  }

  /**
   * Content that starts with `>` is stripped and every paragraph break over `cls` becomes
   * `"\n>\n>"`; other content is returned as it is. Never consumes.
   */
  function BlockQuoteWith(content: string, cls: char -> bool): (r: NormalizationResult)
    ensures !r.didConsume
    ensures !StartsWith(content, ">") ==> r.normalizedContent == content
    ensures StartsWith(content, ">") ==> r.normalizedContent == SubParaBreaks(Strip(content), cls)
  {
    var stripped := Strip(content);
    if !StartsWith(content, ">") then NormalizationResult(content, false)
    else NormalizationResult(SubParaBreaks(stripped, cls), false)
  }

  /** No character of `s` is in the class. */
  predicate Avoids(s: string, cls: char -> bool)
  {
    forall k :: 0 <= k < |s| ==> !cls(s[k])
  }

  /** `strip()` keeps a slice, so it keeps the absence of a class. */
  lemma StripAvoids(s: string, cls: char -> bool)
    requires Avoids(s, cls)
    ensures Avoids(Strip(s), cls)
  {
    var i, j :| 0 <= i <= j <= |s| && Strip(s) == s[i..j];
    assert forall k :: 0 <= k < j - i ==> s[i..j][k] == s[i + k];
  }

  /**
   * The block-quote rule with the pattern as written, whose class also holds `?`: quoted content
   * is only stripped when it holds none of CR, LF and `?`.
   */
  function NormalizeBlockQuoteAsWritten(content: string): (r: NormalizationResult)
    ensures !r.didConsume
    ensures !StartsWith(content, ">") ==> r.normalizedContent == content
    ensures StartsWith(content, ">") && Avoids(content, IsBreakCharAsWritten) ==>
      r.normalizedContent == Strip(content)
  {
    assert StartsWith(content, ">") && Avoids(content, IsBreakCharAsWritten) ==>
        SubParaBreaks(Strip(content), IsBreakCharAsWritten) == Strip(content) by {
      if StartsWith(content, ">") && Avoids(content, IsBreakCharAsWritten) {
        StripAvoids(content, IsBreakCharAsWritten);
        SubParaBreaksNoBreakChar(Strip(content), IsBreakCharAsWritten);
      }
    }
    BlockQuoteWith(content, IsBreakCharAsWritten)
  }

  /**
   * The block-quote rule with paragraph breaks made of CR and LF only: quoted content without a
   * line break is only stripped, whatever punctuation it holds.
   */
  function NormalizeBlockQuote(content: string): (r: NormalizationResult)
    ensures !r.didConsume
    ensures !StartsWith(content, ">") ==> r.normalizedContent == content
    ensures StartsWith(content, ">") && Avoids(content, IsLineBreak) ==> r.normalizedContent == Strip(content)
  {
    assert StartsWith(content, ">") && Avoids(content, IsLineBreak) ==>
        SubParaBreaks(Strip(content), IsLineBreak) == Strip(content) by {
      if StartsWith(content, ">") && Avoids(content, IsLineBreak) {
        StripAvoids(content, IsLineBreak);
        SubParaBreaksNoBreakChar(Strip(content), IsLineBreak);
      }
    }
    BlockQuoteWith(content, IsLineBreak)
  }

  /** Rewrites every `__x__` to `*x*`. Never consumes. */
  function NormalizeItalics(content: string): (r: NormalizationResult)
    ensures !r.didConsume
    ensures NoDoubleUnderscore(content) ==> r.normalizedContent == content
  {
    assert NoDoubleUnderscore(content) ==> SubItalics(content) == content by {
      if NoDoubleUnderscore(content) { SubItalicsNoDoubleUnderscore(content); }
    }
    NormalizationResult(SubItalics(content), false)
  }

  /** `rule.normalize(content)` */
  function ApplyNormalization(rule: NormalizationRule, content: string): (r: NormalizationResult)
    ensures r.didConsume ==> rule == CodeBlockRule
    ensures rule == BlockQuoteRule ==> r == NormalizeBlockQuoteAsWritten(content)
  {
    match rule
    case CodeBlockRule => NormalizeCodeBlock(content)
    case BlockQuoteRule => NormalizeBlockQuoteAsWritten(content)
    case ItalicsRule => NormalizeItalics(content)
  }

  /** Threads the content through `rules` in order, stopping after the first rule that consumes. */
  function ApplyRules(rules: seq<NormalizationRule>, content: string): string
  {
    if rules == [] then content
    else
      var r := ApplyNormalization(rules[0], content);
      if r.didConsume then r.normalizedContent else ApplyRules(rules[1..], r.normalizedContent)
  }

  /**
   * `normalize_block_content(content)`: fenced code comes back byte-identical; anything else goes
   * through the block-quote rule as written and then the italics rule.
   */
  function NormalizeBlockContent(content: string): (r: string)
    ensures IsCodeBlock(Strip(content)) ==> r == content
    ensures !IsCodeBlock(Strip(content)) ==>
      r == NormalizeItalics(NormalizeBlockQuoteAsWritten(content).normalizedContent).normalizedContent
  {
    var quoted := NormalizeBlockQuoteAsWritten(content).normalizedContent;
    ChainFromCode(content);
    ChainFromQuote(content);
    ChainFromItalics(quoted);
    ApplyRules(AllRules, content)
  }

  /** The code-block rule either ends the chain or hands the content on unchanged. */
  lemma ChainFromCode(content: string)
    ensures ApplyRules(AllRules, content) ==
      if IsCodeBlock(Strip(content)) then content else ApplyRules([BlockQuoteRule, ItalicsRule], content)
  {
    assert AllRules[1..] == [BlockQuoteRule, ItalicsRule];
  }

  /** The block-quote rule never consumes, so its result goes on to the italics rule. */
  lemma ChainFromQuote(content: string)
    ensures ApplyRules([BlockQuoteRule, ItalicsRule], content) ==
      ApplyRules([ItalicsRule], NormalizeBlockQuoteAsWritten(content).normalizedContent)
  {
    assert [BlockQuoteRule, ItalicsRule][1..] == [ItalicsRule];
  }

  lemma ChainFromItalics(content: string)
    ensures ApplyRules([ItalicsRule], content) == NormalizeItalics(content).normalizedContent
  {
    assert [ItalicsRule][1..] == [];
  }

  /**
   * The rule chain with the block-quote rule over the intended class (CR and LF only). It differs
   * from `NormalizeBlockContent` only on text that holds a question mark.
   */
  function NormalizeBlockContentCorrected(content: string): (r: string)
    ensures IsCodeBlock(Strip(content)) ==> r == content
    ensures '?' !in content ==> r == NormalizeBlockContent(content)
  {
    if IsCodeBlock(Strip(content)) then content
    else
      QuestionFreeQuoteAgrees(content);
      NormalizeItalics(NormalizeBlockQuote(content).normalizedContent).normalizedContent
  }

  /** On text without a question mark the two classes agree, and so do the two block-quote rules. */
  lemma QuestionFreeQuoteAgrees(content: string)
    ensures '?' !in content ==> NormalizeBlockQuote(content) == NormalizeBlockQuoteAsWritten(content)
  {
    QuoteRulesShareScanner(content);
    if '?' !in content && StartsWith(content, ">") {
      var t := Strip(content);
      StripKeepsQuestionFree(content);
      QuestionFreeClassesAgree(t);
      SubParaBreaksSameClass(t, IsBreakCharAsWritten, IsLineBreak);
    }
  }

  /** Both block-quote rules are the one scanner, each with its own class. */
  lemma QuoteRulesShareScanner(content: string)
    ensures NormalizeBlockQuote(content) == BlockQuoteWith(content, IsLineBreak)
    ensures NormalizeBlockQuoteAsWritten(content) == BlockQuoteWith(content, IsBreakCharAsWritten)
  {
  }

  lemma StripKeepsQuestionFree(content: string)
    requires '?' !in content
    ensures '?' !in Strip(content)
  {
    var i, j :| 0 <= i <= j <= |content| && Strip(content) == content[i..j];
    assert forall k :: 0 <= k < j - i ==> content[i..j][k] == content[i + k];
  }

  lemma QuestionFreeClassesAgree(t: string)
    requires '?' !in t
    ensures forall k :: 0 <= k < |t| ==> (IsBreakCharAsWritten(t[k]) <==> IsLineBreak(t[k]))
  {
  }

  /** Substitution only looks at the class on the characters of the text. */
  lemma {:induction false} SubParaBreaksSameClass(s: string, c1: char -> bool, c2: char -> bool)
    requires forall k :: 0 <= k < |s| ==> (c1(s[k]) <==> c2(s[k]))
    ensures SubParaBreaks(s, c1) == SubParaBreaks(s, c2)
    decreases |s|
  {
    if s != [] {
      forall m ensures ParaBreakAt(s, m, c1) <==> ParaBreakAt(s, m, c2) {
        if 2 <= m < |s| {
          assert (forall k :: 0 <= k < m ==> c1(s[k])) <==> (forall k :: 0 <= k < m ==> c2(s[k]));
        }
      }
      var a, b := ParaBreakMatch(s, c1), ParaBreakMatch(s, c2);
      if a.Some? && b.Some? {
        assert !(a.value < b.value) && !(b.value < a.value);
      }
      assert a == b;
      match a
      case Some(e) =>
        assert forall k :: 0 <= k < |s[e..]| ==> s[e..][k] == s[e + k];
        SubParaBreaksSameClass(s[e..], c1, c2);
      case None =>
        assert forall k :: 0 <= k < |s[1..]| ==> s[1..][k] == s[k + 1];
        SubParaBreaksSameClass(s[1..], c1, c2);
    }
  }

  // ---------------------------------------------------------------------------------------------
  // Properties of the rules

  /** Every line-break character is whitespace, so `(?=\S)` never holds on one. */
  lemma LineBreaksAreSpace(c: char)
    requires IsLineBreak(c)
    ensures IsSpace(c)
  {
  }

  /** The line-break class is part of the class as written. */
  lemma AvoidsLineBreaks(s: string)
    requires Avoids(s, IsBreakCharAsWritten)
    ensures Avoids(s, IsLineBreak)
  {
    forall k | 0 <= k < |s| ensures !IsLineBreak(s[k]) {
      assert !IsBreakCharAsWritten(s[k]);
    }
  }

  lemma AvoidsAppend(a: string, b: string, cls: char -> bool)
    requires Avoids(a, cls) && Avoids(b, cls)
    ensures Avoids(a + b, cls)
  {
    forall k | 0 <= k < |a + b| ensures !cls((a + b)[k]) {
      if k < |a| { assert (a + b)[k] == a[k]; } else { assert (a + b)[k] == b[k - |a|]; }
    }
  }

  /** Text made only of line breaks has no visible character to look ahead to, so it stays. */
  lemma {:induction false} SubParaBreaksOnlyBreaks(r: string)
    requires forall k :: 0 <= k < |r| ==> IsLineBreak(r[k])
    ensures SubParaBreaks(r, IsLineBreak) == r
    decreases |r|
  {
    if r != [] {
      assert ParaBreakMatch(r, IsLineBreak).None? by {
        forall m ensures !ParaBreakAt(r, m, IsLineBreak) {
          if 0 <= m < |r| { LineBreaksAreSpace(r[m]); }
        }
      }
      SubParaBreaksOnlyBreaks(r[1..]);
      assert [r[0]] + r[1..] == r;
    }
  }

  /** Line breaks that end a text are followed by no visible character, so they stay. */
  lemma TrailingBreaksKept(a: string, r: string)
    requires a == [] || !IsLineBreak(a[|a| - 1])
    requires forall k :: 0 <= k < |r| ==> IsLineBreak(r[k])
    ensures SubParaBreaks(a + r, IsLineBreak) == SubParaBreaks(a, IsLineBreak) + r
  {
    SubParaBreaksAppend(a, r, IsLineBreak);
    SubParaBreaksOnlyBreaks(r);
  }

  /** A single line break between two lines is not a paragraph break, so it stays. */
  lemma SingleBreakKept(a: string, b: char, u: string)
    requires Avoids(a, IsLineBreak) && IsLineBreak(b) && Avoids(u, IsLineBreak)
    ensures SubParaBreaks(a + [b] + u, IsLineBreak) == a + [b] + u
  {
    var t := [b] + u;
    AppendAssoc(a, [b], u);
    SubParaBreaksAppend(a, t, IsLineBreak);
    SubParaBreaksNoBreakChar(a, IsLineBreak);
    forall m ensures !ParaBreakAt(t, m, IsLineBreak) {
      if 2 <= m < |t| { assert t[1] == u[0]; }
    }
    assert ParaBreakMatch(t, IsLineBreak).None?;
    assert t[1..] == u;
    SubParaBreaksNoBreakChar(u, IsLineBreak);
  }

  /** Quoted text with a visible last character is rewritten as it stands, without stripping. */
  lemma FramedQuote(c: string, cls: char -> bool)
    requires c != [] && c[0] == '>' && !IsSpace(c[|c| - 1])
    ensures BlockQuoteWith(c, cls).normalizedContent == SubParaBreaks(c, cls)
  {
    StripOfStripped(c);
    assert c[..1] == ">";
  }

  /** Two or more line breaks after a line without one, before a visible character, become one separator. */
  lemma SeparatorAfterLine(a: string, r: string, t: string)
    requires Avoids(a, IsLineBreak)
    requires |r| >= 2 && forall k :: 0 <= k < |r| ==> IsLineBreak(r[k])
    requires t != [] && !IsLineBreak(t[0]) && !IsSpace(t[0])
    ensures SubParaBreaks(a + r + t, IsLineBreak) == a + "\n>\n>" + SubParaBreaks(t, IsLineBreak)
  {
    ParaBreakSpan(a, r, t, IsLineBreak);
    SubParaBreaksNoBreakChar(a, IsLineBreak);
  }

  /**
   * A quote of two lines `a` and `u` joined by two or more line-break characters: the breaks become
   * one quote separator `"\n>\n>"`, and nothing else changes.
   */
  lemma QuoteParagraphBreak(a: string, r: string, u: string)
    requires StartsWith(a, ">") && Avoids(a, IsLineBreak)
    requires |r| >= 2 && forall k :: 0 <= k < |r| ==> IsLineBreak(r[k])
    requires u != [] && Avoids(u, IsLineBreak) && !IsSpace(u[0]) && !IsSpace(u[|u| - 1])
    ensures NormalizeBlockQuote(a + r + u).normalizedContent == a + "\n>\n>" + u
  {
    var c := a + r + u;
    assert c[0] == a[..1][0] && c[|c| - 1] == u[|u| - 1];
    FramedQuote(c, IsLineBreak);
    SeparatorAfterLine(a, r, u);
    SubParaBreaksNoBreakChar(u, IsLineBreak);
  }

  /** Three lines separated by two paragraph breaks become three paragraphs. */
  lemma SeparatorsBetweenLines(a: string, r1: string, w: string, r2: string, u: string)
    requires Avoids(a, IsLineBreak)
    requires |r1| >= 2 && forall k :: 0 <= k < |r1| ==> IsLineBreak(r1[k])
    requires w != [] && Avoids(w, IsLineBreak) && !IsSpace(w[0])
    requires |r2| >= 2 && forall k :: 0 <= k < |r2| ==> IsLineBreak(r2[k])
    requires u != [] && Avoids(u, IsLineBreak) && !IsSpace(u[0])
    ensures SubParaBreaks(a + r1 + w + r2 + u, IsLineBreak) == a + "\n>\n>" + w + "\n>\n>" + u
  {
    var sep := "\n>\n>";
    var rest := w + r2 + u;
    Regroup5(a, r1, w, r2, u);
    assert SubParaBreaks(rest, IsLineBreak) == w + sep + u by {
      SeparatorAfterLine(w, r2, u);
      SubParaBreaksNoBreakChar(u, IsLineBreak);
    }
    assert rest[0] == w[0];
    SeparatorAfterLine(a, r1, rest);
    Regroup5(a, sep, w, sep, u);
  }

  /** Five parts, with the last three grouped or not. */
  lemma Regroup5(a: string, b: string, c: string, d: string, e: string)
    ensures a + b + (c + d + e) == a + b + c + d + e
  {
  }

  /** With the class as written, two question marks between visible text are a paragraph break. */
  lemma QuestionMarksSplit(a: string, u: string)
    requires Avoids(a, IsBreakCharAsWritten)
    requires u != [] && Avoids(u, IsBreakCharAsWritten) && !IsSpace(u[0])
    ensures SubParaBreaks(a + "??" + u, IsBreakCharAsWritten) == a + "\n>\n>" + u
  {
    ParaBreakSpan(a, "??", u, IsBreakCharAsWritten);
    SubParaBreaksNoBreakChar(a, IsBreakCharAsWritten);
    SubParaBreaksNoBreakChar(u, IsBreakCharAsWritten);
  }

  /** With the line-break class, text holding none of CR, LF and `?` around `??` is left alone. */
  lemma QuestionMarksKept(a: string, u: string)
    requires Avoids(a, IsBreakCharAsWritten) && Avoids(u, IsBreakCharAsWritten)
    ensures SubParaBreaks(a + "??" + u, IsLineBreak) == a + "??" + u
  {
    var q := "??";
    AvoidsLineBreaks(a);
    AvoidsLineBreaks(u);
    assert Avoids(q, IsLineBreak);
    AvoidsAppend(a, q, IsLineBreak);
    AvoidsAppend(a + q, u, IsLineBreak);
    SubParaBreaksNoBreakChar(a + q + u, IsLineBreak);
  }

  /**
   * The pattern as written splits a quote at a doubled question mark, where the line-break class
   * leaves it alone.
   */
  lemma QuestionMarksBreakQuote(a: string, u: string)
    requires StartsWith(a, ">") && Avoids(a, IsBreakCharAsWritten)
    requires u != [] && Avoids(u, IsBreakCharAsWritten) && !IsSpace(u[0]) && !IsSpace(u[|u| - 1])
    ensures NormalizeBlockQuoteAsWritten(a + "??" + u).normalizedContent == a + "\n>\n>" + u
    ensures NormalizeBlockQuote(a + "??" + u).normalizedContent == a + "??" + u
  {
    var c := a + "??" + u;
    assert c[0] == a[..1][0] && c[|c| - 1] == u[|u| - 1];
    FramedQuote(c, IsBreakCharAsWritten);
    FramedQuote(c, IsLineBreak);
    QuestionMarksSplit(a, u);
    QuestionMarksKept(a, u);
  }

  /**
   * `__` alone is no italic span. (`m` stands for the marker `__`; a literal argument would let the
   * verifier unfold the scanner without bound.)
   */
  lemma SubItalicsBareMarker(m: string)
    requires m == "__"
    ensures SubItalics(m) == m
  {
    assert ItalicMatch(m).None?;
    var m1 := m[1..];
    assert ItalicMatch(m1).None?;
    assert m1[1..] == [];
    assert SubItalics(m1) == [m1[0]] + SubItalics(m1[1..]);
    assert SubItalics(m) == [m[0]] + SubItalics(m1);
    assert [m[0]] + [m1[0]] == m;
  }

  /** Three underscores in a row open no span at the first of them. */
  lemma NoSpanAtTripleUnderscore(s: string)
    requires |s| >= 3 && s[0] == '_' && s[1] == '_' && s[2] == '_'
    ensures SubItalics(s) == [s[0]] + SubItalics(s[1..])
  {
    assert s[2..][0] == '_';
    assert ItalicMatch(s).None?;
  }

  /** A span followed by a bare `__`: the span is rewritten and the marker kept. */
  lemma SpanThenBareMarker(x: string, m: string)
    requires x != [] && forall k :: 0 <= k < |x| ==> IsItalicChar(x[k])
    requires m == "__"
    ensures SubItalics(m + x + m + m) == "*" + x + "*" + m
  {
    assert m + x + m + m == [] + "__" + x + "__" + m;
    ItalicSpan([], x, m);
    SubItalicsBareMarker(m);
  }

  /** A run of four underscores opens no span: the first two are copied and the span starts after them. */
  lemma ItalicsLeftoverMarkers(x: string, m: string)
    requires x != [] && forall k :: 0 <= k < |x| ==> IsItalicChar(x[k])
    requires m == "__"
    ensures SubItalics(m + m + x + m + m) == m + "*" + x + "*" + m
  {
    var s2 := m + x + m + m;
    SpanThenBareMarker(x, m);
    var u := ['_'];
    TwoUnderscoresBeforeMarker(u, s2, "*" + x + "*" + m);
    PairRegrouped(u, m, x, "*");
  }

  /** Regrouping a leading pair `m == u u`, before and after the rewrite. */
  lemma PairRegrouped(u: string, m: string, x: string, star: string)
    requires m == u + u
    ensures m + m + x + m + m == u + (u + (m + x + m + m))
    ensures u + (u + (star + x + star + m)) == m + star + x + star + m
  {
  }

  /** Two underscores in front of a `__` are copied ahead of whatever the rest becomes. */
  lemma TwoUnderscoresBeforeMarker(u: string, s2: string, t: string)
    requires u == ['_'] && |s2| >= 2 && s2[0] == '_' && s2[1] == '_' && SubItalics(s2) == t
    ensures SubItalics(u + (u + s2)) == u + (u + t)
  {
    UnderscoreBeforeMarker(s2);
    UnderscoreBeforeMarker(u + s2);
  }

  /** An underscore right before a `__` starts no span and is copied. */
  lemma UnderscoreBeforeMarker(t: string)
    requires |t| >= 2 && t[0] == '_' && t[1] == '_'
    ensures SubItalics(['_'] + t) == ['_'] + SubItalics(t)
  {
    var s := ['_'] + t;
    NoSpanAtTripleUnderscore(s);
    assert s[1..] == t;
  }

  /**
   * Italics is not idempotent: the first pass leaves `__*x*__`, and a second pass turns that into
   * the bold marker `**x**`.
   */
  lemma ItalicsNotIdempotent(x: string, m: string)
    requires x != [] && forall k :: 0 <= k < |x| ==> IsItalicChar(x[k])
    requires m == "__"
    ensures NormalizeItalics(m + m + x + m + m).normalizedContent == m + "*" + x + "*" + m
    ensures NormalizeItalics(m + "*" + x + "*" + m).normalizedContent == "**" + x + "**"
  {
    ItalicsLeftoverMarkers(x, m);
    ItalicsOfLeftover(x, m);
  }

  /** The leftover `__*x*__` is itself an italic span whose word is `*x*`. */
  lemma ItalicsOfLeftover(x: string, m: string)
    requires x != [] && forall k :: 0 <= k < |x| ==> IsItalicChar(x[k])
    requires m == "__"
    ensures SubItalics(m + "*" + x + "*" + m) == "**" + x + "**"
  {
    var x' := "*" + x + "*";
    assert forall k :: 0 <= k < |x'| ==> IsItalicChar(x'[k]);
    assert m + "*" + x + "*" + m == [] + "__" + x' + "__" + [];
    ItalicSpan([], x', []);
  }

  /** Whatever follows the indentation decides alone whether the content is fenced code. */
  lemma CodeBlockAfterIndent(w: string, rest: string)
    requires AllSpace(w)
    requires rest == [] || !IsSpace(rest[0])
    ensures NormalizeCodeBlock(w + rest).didConsume <==> StartsWith(rest, "```")
  {
    assert StripLeft(w + rest) == rest by {
      StripLeftSkipsSpace(w, rest);
    }
    assert Strip(w + rest) == StripRight(rest);
    assert StartsWith(StripRight(rest), "```") <==> StartsWith(rest, "```") by {
      var fence := "```";
      assert fence != [] && !IsSpace(fence[|fence| - 1]);
      StripRightKeepsPrefix(rest, fence);
    }
  }

  /** An italic word between two texts without underscores is the only thing rewritten. */
  lemma ItalicWordBetween(p: string, x: string, q: string)
    requires '_' !in p && '_' !in q
    requires x != [] && forall k :: 0 <= k < |x| ==> IsItalicChar(x[k])
    ensures SubItalics(p + "__" + x + "__" + q) == p + "*" + x + "*" + q
  {
    ItalicSpan(p, x, q);
    SubItalicsNoUnderscore(q);
  }

  /** `"__" + x + "__"` holds no line break. */
  lemma ItalicSpanAvoidsLineBreaks(x: string)
    requires forall k :: 0 <= k < |x| ==> IsItalicChar(x[k])
    ensures Avoids("__" + x + "__", IsLineBreak)
  {
    var w := "__" + x + "__";
    forall k | 0 <= k < |w| ensures !IsLineBreak(w[k]) {
      if 2 <= k < |w| - 2 { assert w[k] == x[k - 2]; }
    }
  }

  /**
   * A quote whose two paragraph breaks surround an italic word: the breaks become quote separators
   * and the word is wrapped in single asterisks.
   */
  lemma QuoteWithItalics(a: string, r1: string, x: string, r2: string, u: string)
    requires StartsWith(a, ">") && Avoids(a, IsLineBreak) && '_' !in a
    requires |r1| >= 2 && forall k :: 0 <= k < |r1| ==> IsLineBreak(r1[k])
    requires x != [] && forall k :: 0 <= k < |x| ==> IsItalicChar(x[k])
    requires |r2| >= 2 && forall k :: 0 <= k < |r2| ==> IsLineBreak(r2[k])
    requires u != [] && Avoids(u, IsLineBreak) && '_' !in u && !IsSpace(u[0]) && !IsSpace(u[|u| - 1])
    ensures NormalizeBlockContentCorrected(a + r1 + ("__" + x + "__") + r2 + u) ==
      (a + "\n>\n>") + "*" + x + "*" + ("\n>\n>" + u)
  {
    var c := a + r1 + ("__" + x + "__") + r2 + u;
    var p, q := a + "\n>\n>", "\n>\n>" + u;
    assert c[0] == a[..1][0] && c[|c| - 1] == u[|u| - 1];
    QuoteNotCode(c);
    CorrectedOutsideCode(c);
    QuoteAroundItalicWord(a, r1, x, r2, u);
    ItalicWordBetween(p, x, q);
  }

  /** Content that is no code block goes through the intended block-quote rule, then italics. */
  lemma CorrectedOutsideCode(c: string)
    requires !IsCodeBlock(Strip(c))
    ensures NormalizeBlockContentCorrected(c) == SubItalics(NormalizeBlockQuote(c).normalizedContent)
  {
  }

  /**
   * The same quote through the chain as written, when none of its lines holds a question mark:
   * then the class as written finds the same paragraph breaks.
   */
  lemma QuoteWithItalicsAsWritten(a: string, r1: string, x: string, r2: string, u: string)
    requires StartsWith(a, ">") && Avoids(a, IsBreakCharAsWritten) && '_' !in a
    requires |r1| >= 2 && forall k :: 0 <= k < |r1| ==> IsLineBreak(r1[k])
    requires x != [] && '?' !in x && forall k :: 0 <= k < |x| ==> IsItalicChar(x[k])
    requires |r2| >= 2 && forall k :: 0 <= k < |r2| ==> IsLineBreak(r2[k])
    requires u != [] && Avoids(u, IsBreakCharAsWritten) && '_' !in u && !IsSpace(u[0]) && !IsSpace(u[|u| - 1])
    ensures NormalizeBlockContent(a + r1 + ("__" + x + "__") + r2 + u) ==
      (a + "\n>\n>") + "*" + x + "*" + ("\n>\n>" + u)
  {
    AvoidsLineBreaks(a);
    AvoidsLineBreaks(u);
    QuoteWithItalics(a, r1, x, r2, u);
    NoQuestionMark(a);
    NoQuestionMark(u);
    QuestionFreeItalicQuote(a, r1, x, r2, u);
  }

  lemma QuestionFreeItalicQuote(a: string, r1: string, x: string, r2: string, u: string)
    requires '?' !in a && '?' !in x && '?' !in u
    requires forall k :: 0 <= k < |r1| ==> IsLineBreak(r1[k])
    requires forall k :: 0 <= k < |r2| ==> IsLineBreak(r2[k])
    ensures '?' !in a + r1 + ("__" + x + "__") + r2 + u
  {
    assert '?' !in r1 && '?' !in r2 by {
      assert forall k :: 0 <= k < |r1| ==> r1[k] != '?';
      assert forall k :: 0 <= k < |r2| ==> r2[k] != '?';
    }
    assert "__" == ['_', '_'];
  }

  /** Text free of the class as written holds no question mark. */
  lemma NoQuestionMark(s: string)
    requires Avoids(s, IsBreakCharAsWritten)
    ensures '?' !in s
  {
  }

  /**
   * The whole chain as written splits a quote at a doubled question mark; the corrected chain
   * leaves it as it is.
   */
  lemma QuestionMarksBreakContent(a: string, u: string)
    requires StartsWith(a, ">") && Avoids(a, IsBreakCharAsWritten) && '_' !in a
    requires u != [] && Avoids(u, IsBreakCharAsWritten) && '_' !in u && !IsSpace(u[0]) && !IsSpace(u[|u| - 1])
    ensures NormalizeBlockContent(a + "??" + u) == a + "\n>\n>" + u
    ensures NormalizeBlockContentCorrected(a + "??" + u) == a + "??" + u
  {
    var c := a + "??" + u;
    assert c[0] == a[..1][0] && c[|c| - 1] == u[|u| - 1];
    QuoteNotCode(c);
    QuestionMarksBreakQuote(a, u);
    var split := a + "\n>\n>" + u;
    MarkersHoldNoUnderscore();
    NotInThree('_', a, "\n>\n>", u);
    QuotedWithoutUnderscore(c, split);
    NotInThree('_', a, "??", u);
    QuotedWithoutUnderscore(c, c);
  }

  lemma MarkersHoldNoUnderscore()
    ensures '_' !in "\n>\n>" && '_' !in "??"
  {
    assert "??" == ['?', '?'];
  }

  /** A character in none of three texts is not in their concatenation. */
  lemma NotInThree(ch: char, a: string, m: string, u: string)
    requires ch !in a && ch !in m && ch !in u
    ensures ch !in a + m + u
  {
  }

  /** When the quote rule leaves no underscore behind, the italics rule has nothing left to do. */
  lemma QuotedWithoutUnderscore(c: string, q: string)
    requires !IsCodeBlock(Strip(c)) && '_' !in q
    ensures NormalizeBlockQuoteAsWritten(c).normalizedContent == q ==> NormalizeBlockContent(c) == q
    ensures NormalizeBlockQuote(c).normalizedContent == q ==> NormalizeBlockContentCorrected(c) == q
  {
    SubItalicsNoUnderscore(q);
  }

  /** Content that starts with `>` and ends in a non-space is no fenced code. */
  lemma QuoteNotCode(c: string)
    requires c != [] && c[0] == '>' && !IsSpace(c[|c| - 1])
    ensures !IsCodeBlock(Strip(c))
  {
    assert !IsSpace(c[0]);
    StripOfStripped(c);
    NotFenceAfterOtherChar(c);
  }

  /** Text whose first character is not a backtick opens no fence. */
  lemma NotFenceAfterOtherChar(s: string)
    requires s != [] && s[0] != '`'
    ensures !IsCodeBlock(s)
  {
    if |s| >= 3 {
      assert s[..3][0] == s[0];
    }
  }

  /** The block-quote rule turns both paragraph breaks around an italic word into separators. */
  lemma QuoteAroundItalicWord(a: string, r1: string, x: string, r2: string, u: string)
    requires StartsWith(a, ">") && Avoids(a, IsLineBreak)
    requires |r1| >= 2 && forall k :: 0 <= k < |r1| ==> IsLineBreak(r1[k])
    requires x != [] && forall k :: 0 <= k < |x| ==> IsItalicChar(x[k])
    requires |r2| >= 2 && forall k :: 0 <= k < |r2| ==> IsLineBreak(r2[k])
    requires u != [] && Avoids(u, IsLineBreak) && !IsSpace(u[0]) && !IsSpace(u[|u| - 1])
    ensures NormalizeBlockQuote(a + r1 + ("__" + x + "__") + r2 + u).normalizedContent ==
      (a + "\n>\n>") + "__" + x + "__" + ("\n>\n>" + u)
  {
    var w := "__" + x + "__";
    var c := a + r1 + w + r2 + u;
    assert c[0] == a[..1][0] && c[|c| - 1] == u[|u| - 1];
    FramedQuote(c, IsLineBreak);
    ItalicSpanAvoidsLineBreaks(x);
    SeparatorsBetweenLines(a, r1, w, r2, u);
    Regroup(a, "\n>\n>", w, u);
    Regroup3(a + "\n>\n>", "__", x, "\n>\n>" + u);
  }

  /** `a s w s u`, grouped as the line before, the middle and the line after. */
  lemma Regroup(a: string, s: string, w: string, u: string)
    ensures a + s + w + s + u == (a + s) + w + (s + u)
  {
  }

  /** `p m x m q` with the middle `m x m` grouped or not. */
  lemma Regroup3(p: string, m: string, x: string, q: string)
    ensures p + (m + x + m) + q == p + m + x + m + q
  {
  }
}

=== FILE: ordered_maps.dfy ===
/**
 * Insertion-ordered maps: Python's `OrderedDict` (the publisher's `VertexMap`) and a JavaScript
 * object's own string-keyed properties. The key sequence gives iteration order; assigning to an
 * existing key replaces its value in place, assigning to a new key appends it.
 */
module OrderedMaps {
  import opened Wrappers

  datatype OrderedMap<K(==), V> = OrderedMap(keys: seq<K>, entries: map<K, V>)

  predicate Distinct<K(==)>(ks: seq<K>)
  {
    forall i, j :: 0 <= i < j < |ks| ==> ks[i] != ks[j]
  }

  /** The keys are distinct and are exactly the map's domain. */
  predicate Valid<K(==,!new), V>(m: OrderedMap<K, V>)
  {
    && Distinct(m.keys)
    && (forall i :: 0 <= i < |m.keys| ==> m.keys[i] in m.entries)
    && (forall k :: k in m.entries ==> k in m.keys)
  }

  type OMap<K(==,!new), V> = m: OrderedMap<K, V> | Valid(m) witness OrderedMap([], map[])

  function Empty<K(==,!new), V>(): (r: OMap<K, V>)
    ensures |r.keys| == 0 && |r.entries| == 0
  {
    OrderedMap([], map[])
  }

  /** `m[k] = v`: an existing key keeps its position, a new key goes last. */
  function Put<K(==,!new), V>(m: OMap<K, V>, k: K, v: V): (r: OMap<K, V>)
    ensures r.entries == m.entries[k := v]
    ensures k in m.entries ==> r.keys == m.keys
    ensures k !in m.entries ==> r.keys == m.keys + [k]
  {
    if k in m.entries then OrderedMap(m.keys, m.entries[k := v])
    else OrderedMap(m.keys + [k], m.entries[k := v])
  }

  function Get<K(==,!new), V>(m: OMap<K, V>, k: K): (r: Option<V>)
    ensures r.Some? <==> k in m.keys
    ensures r.Some? ==> r.value == m.entries[k]
  {
    if k in m.entries then Some(m.entries[k]) else None
  }

  /** `m.values()` in iteration order. */
  function Values<K(==,!new), V>(m: OMap<K, V>): (r: seq<V>)
    ensures |r| == |m.keys|
    ensures forall i :: 0 <= i < |r| ==> r[i] == m.entries[m.keys[i]]
  {
    seq(|m.keys|, i requires 0 <= i < |m.keys| => m.entries[m.keys[i]])
  }

  /** `m.items()` in iteration order. */
  function Items<K(==,!new), V>(m: OMap<K, V>): (r: seq<(K, V)>)
    ensures |r| == |m.keys|
    ensures forall i :: 0 <= i < |r| ==> r[i] == (m.keys[i], m.entries[m.keys[i]])
  {
    seq(|m.keys|, i requires 0 <= i < |m.keys| => (m.keys[i], m.entries[m.keys[i]]))
  }

  /** The keys of `ps`, each once, in order of first occurrence. */
  function FirstOccurrences<K(==,!new), V>(ps: seq<(K, V)>): seq<K>
  {
    if ps == [] then []
    else
      var init := FirstOccurrences(ps[..|ps| - 1]);
      if ps[|ps| - 1].0 in init then init else init + [ps[|ps| - 1].0]
  }

  /** Pair `i` is the last pair of `ps` whose key is `k`. */
  predicate LastWithKey<K(==,!new), V>(ps: seq<(K, V)>, k: K, i: int)
  {
    0 <= i < |ps| && ps[i].0 == k && forall j :: i < j < |ps| ==> ps[j].0 != k
  }

  /** What `OrderedDict(ps)` promises about its result `r`. */
  ghost predicate BuiltFrom<K(!new), V>(ps: seq<(K, V)>, r: OMap<K, V>)
  {
    && r.keys == FirstOccurrences(ps)
    && (forall k :: k in r.entries <==> exists i :: 0 <= i < |ps| && ps[i].0 == k)
    && (forall k :: k in r.entries ==> exists i :: LastWithKey(ps, k, i) && r.entries[k] == ps[i].1)
  }

  /** The last pair with a given key is the one whose value the map keeps. */
  lemma LastPairWins<K(!new), V>(ps: seq<(K, V)>, r: OMap<K, V>, i: int)
    requires BuiltFrom(ps, r)
    requires 0 <= i < |ps| && LastWithKey(ps, ps[i].0, i)
    ensures ps[i].0 in r.entries && r.entries[ps[i].0] == ps[i].1
  {
    var k := ps[i].0;
    assert k in r.entries;
    var l :| LastWithKey(ps, k, l) && r.entries[k] == ps[l].1;
    assert l == i;
  }

  /**
   * `OrderedDict(ps)`: keys in order of first occurrence, and each key bound to the value of its
   * LAST pair.
   */
  function FromPairs<K(==,!new), V>(ps: seq<(K, V)>): (r: OMap<K, V>)
    ensures BuiltFrom(ps, r)
  {
    if ps == [] then Empty()
    else
      var init := FromPairs(ps[..|ps| - 1]);
      FromPairsStep(ps, init);
      Put(init, ps[|ps| - 1].0, ps[|ps| - 1].1)
  }

  lemma FromPairsStep<K(!new), V>(ps: seq<(K, V)>, init: OMap<K, V>)
    requires |ps| > 0 && BuiltFrom(ps[..|ps| - 1], init)
    ensures BuiltFrom(ps, Put(init, ps[|ps| - 1].0, ps[|ps| - 1].1))
  {
    var n := |ps| - 1;
    var r := Put(init, ps[n].0, ps[n].1);
    assert ps[n].0 in init.entries <==> ps[n].0 in FirstOccurrences(ps[..n]);
    assert r.keys == FirstOccurrences(ps);
    StepValues(ps, init);
    StepDomain(ps, init);
  }

  lemma StepValues<K(!new), V>(ps: seq<(K, V)>, init: OMap<K, V>)
    requires |ps| > 0 && BuiltFrom(ps[..|ps| - 1], init)
    ensures var r := Put(init, ps[|ps| - 1].0, ps[|ps| - 1].1);
      forall k :: k in r.entries ==> exists i :: LastWithKey(ps, k, i) && r.entries[k] == ps[i].1
  {
    var n := |ps| - 1;
    var r := Put(init, ps[n].0, ps[n].1);
    forall k | k in r.entries
      ensures exists i :: LastWithKey(ps, k, i) && r.entries[k] == ps[i].1
    {
      if k == ps[n].0 {
        assert LastWithKey(ps, k, n);
      } else {
        var i := OlderLast(ps, init, k);
        assert r.entries[k] == init.entries[k];
      }
    }
  }

  /** A key other than the last pair's keeps its last position and value from the prefix. */
  lemma OlderLast<K(!new), V>(ps: seq<(K, V)>, init: OMap<K, V>, k: K) returns (i: int)
    requires |ps| > 0 && BuiltFrom(ps[..|ps| - 1], init)
    requires k in init.entries && k != ps[|ps| - 1].0
    ensures LastWithKey(ps, k, i) && init.entries[k] == ps[i].1
  {
    var n := |ps| - 1;
    i :| LastWithKey(ps[..n], k, i) && init.entries[k] == ps[..n][i].1;
  }

  lemma StepDomain<K(!new), V>(ps: seq<(K, V)>, init: OMap<K, V>)
    requires |ps| > 0 && BuiltFrom(ps[..|ps| - 1], init)
    ensures var r := Put(init, ps[|ps| - 1].0, ps[|ps| - 1].1);
      forall k :: k in r.entries <==> exists i :: 0 <= i < |ps| && ps[i].0 == k
  {
    var n := |ps| - 1;
    var r := Put(init, ps[n].0, ps[n].1);
    forall k | k in r.entries
      ensures exists i :: 0 <= i < |ps| && ps[i].0 == k
    {
      if k != ps[n].0 {
        var i :| 0 <= i < n && ps[..n][i].0 == k;
        assert ps[i].0 == k;
      } else {
        assert ps[n].0 == k;
      }
    }
    forall k | (exists i :: 0 <= i < |ps| && ps[i].0 == k)
      ensures k in r.entries
    {
      var i :| 0 <= i < |ps| && ps[i].0 == k;
      if i < n {
        assert ps[..n][i].0 == k;
      }
    }
  }

  /** The keys of `m` kept by `keep`, in iteration order. */
  function KeptKeys<K(==,!new), V>(ks: seq<K>, entries: map<K, V>, keep: (K, V) -> bool): (r: seq<K>)
    requires forall i :: 0 <= i < |ks| ==> ks[i] in entries
    ensures forall k :: k in r <==> k in ks && keep(k, entries[k])
    ensures Distinct(ks) ==> Distinct(r)
    ensures forall i :: 0 <= i < |r| ==> r[i] in entries
  {
    if ks == [] then []
    else
      var rest := KeptKeys(ks[1..], entries, keep);
      assert forall k :: k in ks <==> k == ks[0] || k in ks[1..];
      if keep(ks[0], entries[ks[0]]) then [ks[0]] + rest else rest
  }

  /** The entries of `m` for which `keep` holds, in the order `m` has them. */
  function Filter<K(==,!new), V>(m: OMap<K, V>, keep: (K, V) -> bool): (r: OMap<K, V>)
    ensures r.keys == KeptKeys(m.keys, m.entries, keep)
    ensures forall k :: k in r.entries <==> k in m.entries && keep(k, m.entries[k])
    ensures forall k :: k in r.entries ==> r.entries[k] == m.entries[k]
  {
    var ks := KeptKeys(m.keys, m.entries, keep);
    OrderedMap(ks, map k | k in ks :: m.entries[k])
  }

  /** The keys of a pair sequence, in order. */
  function KeysOf<K, V>(ps: seq<(K, V)>): (r: seq<K>)
    ensures |r| == |ps|
    ensures forall i :: 0 <= i < |ps| ==> r[i] == ps[i].0
  {
    seq(|ps|, i requires 0 <= i < |ps| => ps[i].0)
  }

  /** The keys of a concatenation are the concatenated keys. */
  lemma KeysOfAppend<K, V>(a: seq<(K, V)>, b: seq<(K, V)>)
    ensures KeysOf(a + b) == KeysOf(a) + KeysOf(b)
  {
  }

  /** With no key repeated, the first occurrences are all the keys, in order. */
  lemma {:induction false} FirstOccurrencesOfDistinct<K(!new), V>(ps: seq<(K, V)>)
    requires Distinct(KeysOf(ps))
    ensures FirstOccurrences(ps) == KeysOf(ps)
  {
    if ps != [] {
      var n := |ps| - 1;
      assert KeysOf(ps[..n]) == KeysOf(ps)[..n];
      FirstOccurrencesOfDistinct(ps[..n]);
      assert ps[n].0 !in KeysOf(ps[..n]) by {
        forall i | 0 <= i < n ensures KeysOf(ps[..n])[i] != ps[n].0 {
          assert KeysOf(ps)[i] != KeysOf(ps)[n];
        }
      }
      assert KeysOf(ps) == KeysOf(ps[..n]) + [ps[n].0];
    }
  }

  /** With no key repeated, `OrderedDict(ps)` keeps every pair, in order. */
  lemma FromPairsOfDistinct<K(!new), V>(ps: seq<(K, V)>)
    requires Distinct(KeysOf(ps))
    ensures FromPairs(ps).keys == KeysOf(ps)
    ensures forall i :: 0 <= i < |ps| ==> FromPairs(ps).entries[ps[i].0] == ps[i].1
  {
    FirstOccurrencesOfDistinct(ps);
    forall i | 0 <= i < |ps| ensures FromPairs(ps).entries[ps[i].0] == ps[i].1 {
      DistinctPairValue(ps, FromPairs(ps), i);
    }
  }

  lemma DistinctPairValue<K(!new), V>(ps: seq<(K, V)>, r: OMap<K, V>, i: int)
    requires Distinct(KeysOf(ps)) && BuiltFrom(ps, r) && 0 <= i < |ps|
    ensures ps[i].0 in r.entries && r.entries[ps[i].0] == ps[i].1
  {
    assert ps[i].0 in r.entries;
    var j :| LastWithKey(ps, ps[i].0, j) && r.entries[ps[i].0] == ps[j].1;
  }

  /** When every pair's key is computed from its value, so is every key of `OrderedDict(ps)`. */
  lemma FromPairsKeyedBy<K(!new), V>(ps: seq<(K, V)>, keyOf: V -> K)
    requires forall i :: 0 <= i < |ps| ==> ps[i].0 == keyOf(ps[i].1)
    ensures forall k :: k in FromPairs(ps).entries ==> keyOf(FromPairs(ps).entries[k]) == k
    ensures forall i :: 0 <= i < |ps| ==> ps[i].0 in FromPairs(ps).entries
  {
    var r := FromPairs(ps);
    forall k | k in r.entries ensures keyOf(r.entries[k]) == k {
      var j :| LastWithKey(ps, k, j) && r.entries[k] == ps[j].1;
    }
  }

  /** `OrderedDict(m.items())` rebuilds `m` exactly. */
  lemma FromItemsIsIdentity<K(!new), V>(m: OMap<K, V>)
    ensures FromPairs(Items(m)) == m
  {
    var ps := Items(m);
    assert KeysOf(ps) == m.keys;
    FromPairsOfDistinct(ps);
    SameValuesAsPairs(FromPairs(ps), m, ps);
  }

  /** Two maps that bind the keys of the same distinct pairs, in order, to the pairs' values are equal. */
  lemma SameValuesAsPairs<K(!new), V>(r: OMap<K, V>, m: OMap<K, V>, ps: seq<(K, V)>)
    requires r.keys == KeysOf(ps) && m.keys == KeysOf(ps)
    requires forall i :: 0 <= i < |ps| ==> r.entries[ps[i].0] == ps[i].1 && m.entries[ps[i].0] == ps[i].1
    ensures r == m
  {
    assert Values(r) == Values(m) by {
      forall i | 0 <= i < |ps| ensures Values(r)[i] == Values(m)[i] {
        assert r.keys[i] == ps[i].0;
      }
    }
    KeysAndValuesDetermine(r, m);
  }

  /** An ordered map is determined by its keys and its values, in order. */
  lemma KeysAndValuesDetermine<K(!new), V>(m: OMap<K, V>, n: OMap<K, V>)
    requires m.keys == n.keys && Values(m) == Values(n)
    ensures m == n
  {
    forall k | k in m.entries ensures k in n.entries && m.entries[k] == n.entries[k] {
      var i :| 0 <= i < |m.keys| && m.keys[i] == k;
      assert Values(m)[i] == Values(n)[i];
    }
    assert m.entries == n.entries;
  }

  /**
   * `Object.fromEntries(ks.map(k => [k, f(k, m[k])]))` with a rewrite that may throw: the keys in
   * order, each bound to its rewritten value; the first key whose rewrite fails ends it.
   */
  function MapEntries<K(==,!new), V, W, E>(ks: seq<K>, m: OMap<K, V>, f: (K, V) -> Result<W, E>)
    : (r: Result<OMap<K, W>, E>)
    requires Distinct(ks) && forall i :: 0 <= i < |ks| ==> ks[i] in m.entries
    ensures r.Ok? ==> r.value.keys == ks
    ensures r.Ok? ==> forall k :: k in r.value.entries ==> f(k, m.entries[k]) == Ok(r.value.entries[k])
    ensures r.Ok? <==> forall i :: 0 <= i < |ks| ==> f(ks[i], m.entries[ks[i]]).Ok?
  {
    if ks == [] then Ok(Empty())
    else
      var n := |ks| - 1;
      DistinctInit(ks);
      var init := ks[..n];
      var acc :- MapEntries(init, m, f);
      var v :- f(ks[n], m.entries[ks[n]]);
      MapEntriesExtend(ks, init, m, f, acc, v);
      Ok(Put(acc, ks[n], v))
  }

  /** One step of MapEntries: binding the last key to its rewritten value completes the map. */
  lemma MapEntriesExtend<K(!new), V, W, E>(ks: seq<K>, init: seq<K>, m: OMap<K, V>, f: (K, V) -> Result<W, E>,
                                           acc: OMap<K, W>, v: W)
    requires ks != [] && init == ks[..|ks| - 1] && ks[|ks| - 1] !in init
    requires forall i :: 0 <= i < |ks| ==> ks[i] in m.entries
    requires acc.keys == init
    requires forall k :: k in acc.entries ==> f(k, m.entries[k]) == Ok(acc.entries[k])
    requires forall i :: 0 <= i < |init| ==> f(init[i], m.entries[init[i]]).Ok?
    requires f(ks[|ks| - 1], m.entries[ks[|ks| - 1]]) == Ok(v)
    ensures Put(acc, ks[|ks| - 1], v).keys == ks
    ensures forall k :: k in Put(acc, ks[|ks| - 1], v).entries ==>
      f(k, m.entries[k]) == Ok(Put(acc, ks[|ks| - 1], v).entries[k])
    ensures forall i :: 0 <= i < |ks| ==> f(ks[i], m.entries[ks[i]]).Ok?
  {
    var n := |ks| - 1;
    assert ks == init + [ks[n]];
    forall i | 0 <= i < |ks| ensures f(ks[i], m.entries[ks[i]]).Ok? {
      if i < n {
        assert ks[i] == init[i];
      }
    }
  }

  /** Dropping the last key of a distinct sequence leaves a distinct sequence without it. */
  lemma DistinctInit<K>(ks: seq<K>)
    requires ks != [] && Distinct(ks)
    ensures Distinct(ks[..|ks| - 1]) && ks[|ks| - 1] !in ks[..|ks| - 1]
    ensures forall i :: 0 <= i < |ks| - 1 ==> ks[..|ks| - 1][i] == ks[i]
  {
    var n := |ks| - 1;
    forall i | 0 <= i < n ensures ks[..n][i] != ks[n] {
      assert ks[i] != ks[n];
    }
  }
}

=== FILE: page_dump.dfy ===
/**
 * Record-to-vertex construction (`publisher/roampub/page_dump.py`): each decoded JSON record of a
 * PageDump file becomes one typed vertex, and the list of records becomes the `VertexMap`.
 *
 * A record is a map from key to a small JSON value. Python's exceptions become `CreateError`s, and
 * the first exception in evaluation order is the one reported.
 */
module PageDump {
  import opened Wrappers
  import opened OrderedMaps
  import opened RoamModel

  /** The JSON values a decoded record can hold. */
  datatype Json =
    | JNull
    | JBool(b: bool)
    | JInt(i: int)
    | JString(s: string)
    | JList(items: seq<Json>)

  /** One decoded JSON object. */
  type Record = map<string, Json>

  datatype CreateError =
    | KeyError(key: string)                  // `source[key]` on a missing key
    | MissingArg                             // ValueError("missing required arg")
    | WrongVertexType(expected: VertexType)  // `_validate_create_source`'s vertex-type check
    | UnrecognizedVertexType(found: Json)    // `create_roam_vertex`'s fallback case
    | UnknownMediaType(found: Json)          // ValueError from `MediaType(...)`
    | NotIterable(key: string)               // TypeError from iterating a value that is no sequence
    | IllTyped(key: string)                  // a value the typed vertex cannot hold

  /** The record holds `j` under `key`. */
  predicate Has(source: Record, key: string, j: Json)
  {
    key in source && source[key] == j
  }

  /** `source[key]` */
  function Lookup(source: Record, key: string): (r: Result<Json, CreateError>)
    ensures r.Ok? <==> key in source
    ensures r.Ok? ==> r.value == source[key]
    ensures r.Err? ==> r.error == KeyError(key)
  {
    if key in source then Ok(source[key]) else Err(KeyError(key))
  }

  /**
   * `source.get(key)` for an optional uid list: `None` when the key is absent or null; a list of
   * strings otherwise.
   */
  function OptionalUids(source: Record, key: string): (r: Result<Option<seq<Uid>>, CreateError>)
    ensures (key !in source || source[key] == JNull) ==> r == Ok(None)
    ensures r.Ok? && r.value.Some? ==> source[key] == JList(Strings(r.value.value))
    ensures r.Err? ==> r.error == IllTyped(key)
  {
    if key !in source || source[key] == JNull then Ok(None)
    else match StringsOf(source[key])
      case Some(uids) => Ok(Some(uids))
      case None => Err(IllTyped(key))
  }

  /** The JSON list of the given strings. */
  function Strings(ss: seq<string>): (r: seq<Json>)
    ensures |r| == |ss|
    ensures forall i :: 0 <= i < |r| ==> r[i] == JString(ss[i])
  {
    seq(|ss|, i requires 0 <= i < |ss| => JString(ss[i]))
  }

  /** The strings of a JSON list of strings. */
  function StringsOf(j: Json): (r: Option<seq<string>>)
    ensures r.Some? <==> j.JList? && forall i :: 0 <= i < |j.items| ==> j.items[i].JString?
    ensures r.Some? ==> j == JList(Strings(r.value))
  {
    if j.JList? && forall i :: 0 <= i < |j.items| ==> j.items[i].JString? then
      var ss := seq(|j.items|, i requires 0 <= i < |j.items| => j.items[i].s);
      assert Strings(ss) == j.items;
      Some(ss)
    else None
  }

  /** A string-valued constructor argument: `None` is `MissingArg` where the constructor checks it. */
  function Text(j: Json, key: string, noneChecked: bool): (r: Result<string, CreateError>)
    ensures r.Ok? <==> j.JString?
    ensures r.Ok? ==> j == JString(r.value)
    ensures r.Err? ==> r.error == (if noneChecked && j == JNull then MissingArg else IllTyped(key))
  {
    if j.JString? then Ok(j.s)
    else if noneChecked && j == JNull then Err(MissingArg)
    else Err(IllTyped(key))
  }

  /**
   * `_validate_create_source(source, vertexType)`: the record is non-empty, its `vertex-type` is
   * the expected one, and its `media-type` names a `MediaType`, which is returned.
   */
  function ValidateCreateSource(source: Record, vertexType: VertexType): (r: Result<MediaType, CreateError>)
    ensures source == map[] ==> r == Err(MissingArg)
    ensures r.Ok? <==>
      && source != map[]
      && "vertex-type" in source && Has(source, "vertex-type", JString(VertexTypeValue(vertexType)))
      && "media-type" in source && source["media-type"].JString?
      && MediaTypeOfValue(source["media-type"].s).Some?
    ensures r.Ok? ==> Has(source, "media-type", JString(MediaTypeValue(r.value)))
    ensures source != map[] && "vertex-type" in source
            && source["vertex-type"] != JString(VertexTypeValue(vertexType))
            ==> r == Err(WrongVertexType(vertexType))
  {
    if source == map[] then Err(MissingArg)
    else
      var vt :- Lookup(source, "vertex-type");
      if vt != JString(VertexTypeValue(vertexType)) then Err(WrongVertexType(vertexType))
      else
        var mt :- Lookup(source, "media-type");
        if mt.JString? && MediaTypeOfValue(mt.s).Some? then Ok(MediaTypeOfValue(mt.s).value)
        else Err(UnknownMediaType(mt))
  }

  /**
   * `RoamVertex.__init__`'s check, which runs after the subclass's own: a `None` uid is
   * `MissingArg`.
   */
  function UidOf(j: Json): (r: Result<Uid, CreateError>)
    ensures r.Ok? <==> j.JString?
    ensures r.Ok? ==> j == JString(r.value)
  {
    Text(j, "uid", true)
  }

  /**
   * `PageNode.__init__`'s title check `any(arg is None for arg in (title))`. The parentheses make
   * no tuple, so the title itself is iterated: a string always passes, a list fails when it holds a
   * `None`, and a value that cannot be iterated raises `TypeError`.
   */
  function IterateTitle(j: Json): (r: Result<(), CreateError>)
    ensures j.JString? ==> r.Ok?
    ensures j.JList? ==> (r.Ok? <==> forall i :: 0 <= i < |j.items| ==> j.items[i] != JNull)
    ensures j.JList? && r.Err? ==> r.error == MissingArg
    ensures j.JNull? || j.JBool? || j.JInt? ==> r == Err(NotIterable("text"))
  {
    match j
    case JString(_) => Ok(())
    case JList(items) => if JNull in items then Err(MissingArg) else Ok(())
    case _ => Err(NotIterable("text"))
  }

  /** `create_page_node(source)`: the title is read from `text`. */
  function CreatePageNode(source: Record): (r: Result<Vertex, CreateError>)
    ensures r.Ok? ==> r.value.Page?
    ensures r.Ok? ==>
              && Has(source, "uid", JString(r.value.uid))
              && Has(source, "media-type", JString(MediaTypeValue(r.value.mediaType)))
              && Has(source, "text", JString(r.value.title))
              && OptionalUids(source, "children") == Ok(r.value.children)
              && OptionalUids(source, "refs") == Ok(r.value.references)
    ensures source != map[] && "vertex-type" in source
            && source["vertex-type"] != JString(VertexTypeValue(RoamPage))
            ==> r == Err(WrongVertexType(RoamPage))
  {
    var mediaType :- ValidateCreateSource(source, RoamPage);
    var uid :- Lookup(source, "uid");
    var text :- Lookup(source, "text");
    var iterated :- IterateTitle(text);
    var u :- UidOf(uid);
    // A list title passes both checks; the typed vertex cannot hold it.
    var title :- Text(text, "text", false);
    var children :- OptionalUids(source, "children");
    var refs :- OptionalUids(source, "refs");
    Ok(Page(u, mediaType, title, children, refs))
  }

  /**
   * The order of `PageNode`'s checks: the title is iterated before the uid is checked, and a title
   * that survives iteration without being a string is reported only after the uid check.
   */
  lemma PageChecksInOrder(source: Record)
    requires ValidateCreateSource(source, RoamPage).Ok? && "uid" in source && "text" in source
    ensures var t := source["text"];
            t.JNull? || t.JBool? || t.JInt? ==> CreatePageNode(source) == Err(NotIterable("text"))
    ensures var t := source["text"];
            t.JList? && (exists i :: 0 <= i < |t.items| && t.items[i] == JNull) ==> CreatePageNode(source) == Err(MissingArg)
    ensures var t := source["text"];
            t.JList? && (forall i :: 0 <= i < |t.items| ==> t.items[i] != JNull) ==>
              CreatePageNode(source) == Err(if source["uid"] == JNull then MissingArg
                                           else if source["uid"].JString? then IllTyped("text")
                                           else IllTyped("uid"))
  {
  }

  /**
   * `create_block_heading_node(source)`: the heading is read from `text` and the level from
   * `heading`, as the code is written.
   */
  function CreateBlockHeadingNode(source: Record): (r: Result<Vertex, CreateError>)
    ensures r.Ok? ==> r.value.BlockHeading?
    ensures r.Ok? ==>
              && Has(source, "uid", JString(r.value.uid))
              && Has(source, "media-type", JString(MediaTypeValue(r.value.mediaType)))
              && Has(source, "text", JString(r.value.heading))
              && Has(source, "heading", JInt(r.value.level))
              && OptionalUids(source, "children") == Ok(r.value.children)
              && OptionalUids(source, "refs") == Ok(r.value.references)
    ensures source != map[] && "vertex-type" in source
            && source["vertex-type"] != JString(VertexTypeValue(RoamBlockHeading))
            ==> r == Err(WrongVertexType(RoamBlockHeading))
  {
    var mediaType :- ValidateCreateSource(source, RoamBlockHeading);
    var uid :- Lookup(source, "uid");
    var text :- Lookup(source, "text");
    var level :- Lookup(source, "heading");
    if text == JNull || level == JNull then Err(MissingArg)
    else
      var u :- UidOf(uid);
      var heading :- Text(text, "text", true);
      var lvl :- if level.JInt? then Ok(level.i) else Err(IllTyped("heading"));
      var children :- OptionalUids(source, "children");
      var refs :- OptionalUids(source, "refs");
      Ok(BlockHeading(u, mediaType, heading, lvl, children, refs))
  }

  /** `create_block_content_node(source)`: the content is read from `text`. */
  function CreateBlockContentNode(source: Record): (r: Result<Vertex, CreateError>)
    ensures r.Ok? ==> r.value.BlockContent?
    ensures r.Ok? ==>
              && Has(source, "uid", JString(r.value.uid))
              && Has(source, "media-type", JString(MediaTypeValue(r.value.mediaType)))
              && Has(source, "text", JString(r.value.content))
              && OptionalUids(source, "children") == Ok(r.value.children)
              && OptionalUids(source, "refs") == Ok(r.value.references)
    ensures source != map[] && "vertex-type" in source
            && source["vertex-type"] != JString(VertexTypeValue(RoamBlockContent))
            ==> r == Err(WrongVertexType(RoamBlockContent))
  {
    var mediaType :- ValidateCreateSource(source, RoamBlockContent);
    var uid :- Lookup(source, "uid");
    var text :- Lookup(source, "text");
    // `BlockContentNode.__init__` checks nothing of its own, so only the uid check can raise.
    var u :- UidOf(uid);
    var content :- Text(text, "text", false);
    var children :- OptionalUids(source, "children");
    var refs :- OptionalUids(source, "refs");
    Ok(BlockContent(u, mediaType, content, children, refs))
  }

  /** `create_file_vertex(source)`: the file name from `file-name`, the url from `source`. */
  function CreateFileVertex(source: Record): (r: Result<Vertex, CreateError>)
    ensures r.Ok? ==> r.value.File?
    ensures r.Ok? ==>
              && Has(source, "uid", JString(r.value.uid))
              && Has(source, "media-type", JString(MediaTypeValue(r.value.mediaType)))
              && Has(source, "file-name", JString(r.value.fileName))
              && Has(source, "source", JString(r.value.source))
    ensures source != map[] && "vertex-type" in source
            && source["vertex-type"] != JString(VertexTypeValue(RoamFile))
            ==> r == Err(WrongVertexType(RoamFile))
  {
    var mediaType :- ValidateCreateSource(source, RoamFile);
    var uid :- Lookup(source, "uid");
    var fileName :- Lookup(source, "file-name");
    var url :- Lookup(source, "source");
    if fileName == JNull || url == JNull then Err(MissingArg)
    else
      var u :- UidOf(uid);
      var name :- Text(fileName, "file-name", true);
      var src :- Text(url, "source", true);
      Ok(File(u, mediaType, name, src))
  }

  /** The constructor `create_roam_vertex` dispatches to for each vertex type. */
  function CreateAs(t: VertexType, source: Record): Result<Vertex, CreateError>
  {
    match t
    case RoamPage => CreatePageNode(source)
    case RoamBlockContent => CreateBlockContentNode(source)
    case RoamBlockHeading => CreateBlockHeadingNode(source)
    case RoamFile => CreateFileVertex(source)
  }

  /**
   * `create_roam_vertex(source)`: dispatch on the `vertex-type` literal; anything that is not one
   * of the four values is `UnrecognizedVertexType`.
   */
  function CreateRoamVertex(source: Record): (r: Result<Vertex, CreateError>)
    ensures "vertex-type" !in source ==> r == Err(KeyError("vertex-type"))
    ensures "vertex-type" in source && !IsVertexTypeValue(source["vertex-type"])
            ==> r == Err(UnrecognizedVertexType(source["vertex-type"]))
    ensures r.Ok? ==> Has(source, "vertex-type", JString(VertexTypeValue(r.value.VertexType())))
    ensures r.Ok? ==> r == CreateAs(r.value.VertexType(), source)
  {
    var vt :- Lookup(source, "vertex-type");
    if vt.JString? && VertexTypeOfValue(vt.s).Some? then CreateAs(VertexTypeOfValue(vt.s).value, source)
    else Err(UnrecognizedVertexType(vt))
  }

  predicate IsVertexTypeValue(j: Json)
  {
    exists t: VertexType :: j == JString(VertexTypeValue(t))
  }

  /** `create_roam_vertex` over the records in order; the first failure is the one reported. */
  function CreateAll(records: seq<Record>): (r: Result<seq<Vertex>, CreateError>)
    ensures r.Ok? <==> forall i :: 0 <= i < |records| ==> CreateRoamVertex(records[i]).Ok?
    ensures r.Ok? ==> |r.value| == |records|
    ensures r.Ok? ==> forall i :: 0 <= i < |records| ==> CreateRoamVertex(records[i]) == Ok(r.value[i])
    ensures r.Err? ==> exists i :: FirstCreateFailure(records, i) && CreateRoamVertex(records[i]) == Err(r.error)
  {
    if records == [] then Ok([])
    else match CreateRoamVertex(records[0])
      case Err(e) =>
        assert FirstCreateFailure(records, 0);
        Err(e)
      case Ok(v) =>
        match CreateAll(records[1..])
        case Err(e) =>
          var i :| FirstCreateFailure(records[1..], i) && CreateRoamVertex(records[1..][i]) == Err(e);
          assert FirstCreateFailure(records, i + 1);
          Err(e)
        case Ok(vs) =>
          assert forall i :: 1 <= i < |records| ==> records[i] == records[1..][i - 1];
          Ok([v] + vs)
  }

  /** Record `i` is the first whose construction fails. */
  predicate FirstCreateFailure(records: seq<Record>, i: int)
  {
    && 0 <= i < |records|
    && CreateRoamVertex(records[i]).Err?
    && forall j :: 0 <= j < i ==> CreateRoamVertex(records[j]).Ok?
  }

  /** Each vertex paired with its uid, ready for `OrderedDict`. */
  function UidPairs(vs: seq<Vertex>): (r: seq<(Uid, Vertex)>)
    ensures |r| == |vs|
    ensures forall i :: 0 <= i < |vs| ==> r[i] == (vs[i].uid, vs[i])
  {
    seq(|vs|, i requires 0 <= i < |vs| => (vs[i].uid, vs[i]))
  }

  /**
   * `create_vertex_map(source)`: a `None` record is `MissingArg` before anything is built; then
   * every record becomes a vertex and the vertices are keyed by uid in record order (a repeated
   * uid keeps its first position and its last vertex).
   */
  function CreateVertexMap(records: seq<Option<Record>>): (r: Result<Graph, CreateError>)
    ensures (exists i :: 0 <= i < |records| && records[i].None?) ==> r == Err(MissingArg)
    ensures r.Ok? ==> forall k :: k in r.value.entries ==> r.value.entries[k].uid == k
    ensures r.Ok? ==> forall i :: 0 <= i < |records| ==>
              records[i].Some? && CreateRoamVertex(records[i].value).Ok?
              && CreateRoamVertex(records[i].value).value.uid in r.value.entries
    ensures r.Ok? ==>
              && (forall i :: 0 <= i < |records| ==> records[i].Some?)
              && CreateAll(Present(records)).Ok?
              && BuiltFrom(UidPairs(CreateAll(Present(records)).value), r.value)
  {
    if exists i :: 0 <= i < |records| && records[i].None? then Err(MissingArg)
    else
      var recs := Present(records);
      var vs :- CreateAll(recs);
      var g := KeyByUid(vs);
      BuiltRecordsAreKeyed(records, recs, vs, g);
      Ok(g)
  }

  /** The records of a list that holds no `None`. */
  function Present(records: seq<Option<Record>>): (r: seq<Record>)
    requires forall i :: 0 <= i < |records| ==> records[i].Some?
    ensures |r| == |records| && forall i :: 0 <= i < |records| ==> records[i] == Some(r[i])
  {
    seq(|records|, i requires 0 <= i < |records| => records[i].value)
  }

  /**
   * When several records build vertices with one uid, the map holds that uid once, bound to the
   * vertex of the last of them.
   */
  lemma LastRecordWins(records: seq<Option<Record>>, vs: seq<Vertex>, i: int)
    requires forall j :: 0 <= j < |records| ==> records[j].Some?
    requires |vs| == |records|
    requires forall j :: 0 <= j < |records| ==> CreateRoamVertex(records[j].value) == Ok(vs[j])
    requires 0 <= i < |vs| && forall j :: i < j < |vs| ==> vs[j].uid != vs[i].uid
    ensures CreateVertexMap(records).Ok?
    ensures CreateVertexMap(records).value.entries[vs[i].uid] == vs[i]
  {
    BuiltRecords(records, vs);
    var ps := UidPairs(vs);
    assert LastWithKey(ps, vs[i].uid, i);
    LastPairWins(ps, CreateVertexMap(records).value, i);
  }

  /** Records that all build give exactly the built vertices. */
  lemma BuiltRecords(records: seq<Option<Record>>, vs: seq<Vertex>)
    requires forall j :: 0 <= j < |records| ==> records[j].Some?
    requires |vs| == |records|
    requires forall j :: 0 <= j < |records| ==> CreateRoamVertex(records[j].value) == Ok(vs[j])
    ensures CreateAll(Present(records)) == Ok(vs)
  {
    var recs := Present(records);
    assert forall j :: 0 <= j < |recs| ==> CreateRoamVertex(recs[j]) == Ok(vs[j]);
    var built := CreateAll(recs);
    assert built.Ok? && |built.value| == |vs|;
    assert forall j :: 0 <= j < |vs| ==> built.value[j] == vs[j];
    assert built.value == vs;
  }

  /** Every record built into a vertex whose uid the map holds. */
  lemma BuiltRecordsAreKeyed(records: seq<Option<Record>>, recs: seq<Record>, vs: seq<Vertex>, g: Graph)
    requires |recs| == |records| && forall i :: 0 <= i < |records| ==> records[i] == Some(recs[i])
    requires |vs| == |recs| && forall i :: 0 <= i < |recs| ==> CreateRoamVertex(recs[i]) == Ok(vs[i])
    requires forall i :: 0 <= i < |vs| ==> vs[i].uid in g.entries
    ensures forall i :: 0 <= i < |records| ==>
              records[i].Some? && CreateRoamVertex(records[i].value).Ok?
              && CreateRoamVertex(records[i].value).value.uid in g.entries
  {
    forall i | 0 <= i < |records|
      ensures records[i].Some? && CreateRoamVertex(records[i].value) == Ok(vs[i])
    {
      assert records[i].value == recs[i];
    }
  }

  /** The uids of the vertices, in order. */
  function Uids(vs: seq<Vertex>): (r: seq<Uid>)
    ensures |r| == |vs|
    ensures forall i :: 0 <= i < |vs| ==> r[i] == vs[i].uid
  {
    seq(|vs|, i requires 0 <= i < |vs| => vs[i].uid)
  }

  /** `OrderedDict([(v.uid, v) for v in vs])` */
  function KeyByUid(vs: seq<Vertex>): (r: Graph)
    ensures forall k :: k in r.entries ==> r.entries[k].uid == k
    ensures forall i :: 0 <= i < |vs| ==> vs[i].uid in r.entries
    ensures Distinct(Uids(vs)) ==> r.keys == Uids(vs) && Values(r) == vs
    ensures BuiltFrom(UidPairs(vs), r)
  {
    var ps := UidPairs(vs);
    FromPairsKeyedBy(ps, (v: Vertex) => v.uid);
    if Distinct(Uids(vs)) then
      assert KeysOf(ps) == Uids(vs);
      FromPairsOfDistinct(ps);
      FromPairs(ps)
    else FromPairs(ps)
  }

  /** With no uid repeated, the map lists exactly the built vertices, in record order. */
  lemma CreateVertexMapKeepsOrder(records: seq<Option<Record>>, vs: seq<Vertex>)
    requires forall i :: 0 <= i < |records| ==> records[i].Some?
    requires |vs| == |records|
    requires forall i :: 0 <= i < |records| ==> CreateRoamVertex(records[i].value) == Ok(vs[i])
    requires Distinct(Uids(vs))
    ensures CreateVertexMap(records).Ok?
    ensures CreateVertexMap(records).value.keys == Uids(vs)
    ensures Values(CreateVertexMap(records).value) == vs
  {
    var recs := seq(|records|, i requires 0 <= i < |records| => records[i].value);
    assert CreateAll(recs).Ok?;
    assert CreateAll(recs).value == vs;
  }

  /** The record a vertex is dumped as, under the keys the Python constructors read. */
  function VertexRecord(v: Vertex): (r: Record)
    ensures Has(r, "vertex-type", JString(VertexTypeValue(v.VertexType())))
    ensures Has(r, "media-type", JString(MediaTypeValue(v.mediaType)))
    ensures Has(r, "uid", JString(v.uid))
  {
    var common := map["vertex-type" := JString(VertexTypeValue(v.VertexType())),
                       "media-type" := JString(MediaTypeValue(v.mediaType)),
                       "uid" := JString(v.uid)];
    match v
    case Page(_, _, title, children, refs) =>
      WithUids(WithUids(common["text" := JString(title)], "children", children), "refs", refs)
    case BlockHeading(_, _, heading, level, children, refs) =>
      WithUids(WithUids(common["text" := JString(heading)]["heading" := JInt(level)], "children", children),
               "refs", refs)
    case BlockContent(_, _, content, children, refs) =>
      WithUids(WithUids(common["text" := JString(content)], "children", children), "refs", refs)
    case File(_, _, fileName, url) =>
      common["file-name" := JString(fileName)]["source" := JString(url)]
  }

  /** An optional uid list added to a record: the key is left out when the list is `None`. */
  function WithUids(rec: Record, key: string, uids: Option<seq<Uid>>): (r: Record)
    requires key !in rec
    ensures forall k :: k != key ==> (k in r <==> k in rec)
    ensures forall k :: k != key && k in rec ==> r[k] == rec[k]
    ensures OptionalUids(r, key) == Ok(uids)
  {
    match uids
    case None => rec
    case Some(us) =>
      var r := rec[key := JList(Strings(us))];
      assert StringsOf(r[key]).Some?;
      assert StringsOf(r[key]).value == us;
      r
  }

  lemma OptionalUidsFrame(r: Record, rec: Record, key: string)
    requires key in r <==> key in rec
    requires key in rec ==> r[key] == rec[key]
    ensures OptionalUids(r, key) == OptionalUids(rec, key)
  {
  }

  /** Dumping a vertex and constructing it again gives the same vertex. */
  lemma CreateOfVertexRecord(v: Vertex)
    ensures CreateRoamVertex(VertexRecord(v)) == Ok(v)
  {
    VertexTypeRoundTrip(v.VertexType());
    MediaTypeRoundTrip(v.mediaType);
    match v
    case Page(_, _, _, _, _) => CreatePageOfRecord(v);
    case BlockHeading(_, _, _, _, _, _) => CreateBlockHeadingOfRecord(v);
    case BlockContent(_, _, _, _, _) => CreateBlockContentOfRecord(v);
    case File(_, _, _, _) =>
  }

  lemma CreatePageOfRecord(v: Vertex)
    requires v.Page?
    ensures CreatePageNode(VertexRecord(v)) == Ok(v)
  {
    var r := VertexRecord(v);
    MediaTypeRoundTrip(v.mediaType);
    var inner := WithUids(map["vertex-type" := JString(VertexTypeValue(v.VertexType())),
                              "media-type" := JString(MediaTypeValue(v.mediaType)),
                              "uid" := JString(v.uid)]["text" := JString(v.title)], "children", v.children);
    OptionalUidsFrame(r, inner, "children");
  }

  lemma CreateBlockHeadingOfRecord(v: Vertex)
    requires v.BlockHeading?
    ensures CreateBlockHeadingNode(VertexRecord(v)) == Ok(v)
  {
    var r := VertexRecord(v);
    MediaTypeRoundTrip(v.mediaType);
    var inner := WithUids(map["vertex-type" := JString(VertexTypeValue(v.VertexType())),
                              "media-type" := JString(MediaTypeValue(v.mediaType)),
                              "uid" := JString(v.uid)]["text" := JString(v.heading)]["heading" := JInt(v.level)],
                          "children", v.children);
    OptionalUidsFrame(r, inner, "children");
    assert Has(r, "text", JString(v.heading)) && Has(r, "heading", JInt(v.level));
  }

  lemma CreateBlockContentOfRecord(v: Vertex)
    requires v.BlockContent?
    ensures CreateBlockContentNode(VertexRecord(v)) == Ok(v)
  {
    var r := VertexRecord(v);
    MediaTypeRoundTrip(v.mediaType);
    var inner := WithUids(map["vertex-type" := JString(VertexTypeValue(v.VertexType())),
                              "media-type" := JString(MediaTypeValue(v.mediaType)),
                              "uid" := JString(v.uid)]["text" := JString(v.content)], "children", v.children);
    OptionalUidsFrame(r, inner, "children");
  }

  /** The records of a graph's vertices, in graph order: what a dump of `g` holds. */
  function GraphRecords(g: Graph): (r: seq<Option<Record>>)
    ensures |r| == |g.keys|
    ensures forall i :: 0 <= i < |r| ==> r[i] == Some(VertexRecord(Values(g)[i]))
  {
    seq(|g.keys|, i requires 0 <= i < |g.keys| => Some(VertexRecord(Values(g)[i])))
  }

  /**
   * A graph whose every vertex is keyed by its own uid (the shape `create_vertex_map` builds) is
   * rebuilt exactly from the records of its vertices.
   */
  lemma CreateVertexMapOfGraphRecords(g: Graph)
    requires forall k :: k in g.entries ==> g.entries[k].uid == k
    ensures CreateVertexMap(GraphRecords(g)) == Ok(g)
  {
    var records := GraphRecords(g);
    var vs := Values(g);
    forall i | 0 <= i < |records| ensures CreateRoamVertex(records[i].value) == Ok(vs[i]) {
      CreateOfVertexRecord(vs[i]);
    }
    assert Uids(vs) == g.keys;
    CreateVertexMapKeepsOrder(records, vs);
    KeysAndValuesDetermine(CreateVertexMap(records).value, g);
  }

  /** A recognised `vertex-type` literal sends the record to its constructor. */
  lemma CreateRoamVertexDispatches(source: Record, t: VertexType)
    requires Has(source, "vertex-type", JString(VertexTypeValue(t)))
    ensures CreateRoamVertex(source) == CreateAs(t, source)
  {
    VertexTypeRoundTrip(t);
  }

  /**
   * A record of a known vertex type whose `media-type` names no `MediaType` is rejected, whatever
   * else it holds.
   */
  lemma UnknownMediaTypeRejected(source: Record, t: VertexType)
    requires Has(source, "vertex-type", JString(VertexTypeValue(t)))
    requires "media-type" in source
    requires !source["media-type"].JString? || MediaTypeOfValue(source["media-type"].s).None?
    ensures CreateRoamVertex(source) == Err(UnknownMediaType(source["media-type"]))
  {
    VertexTypeRoundTrip(t);
  }

  /**
   * A heading record keyed `heading`/`level`, with no `text`, is rejected with a `KeyError` on
   * `text`: the constructor reads the heading from `text` and the level from `heading`.
   */
  lemma HeadingFixtureRejected(uid: string, heading: string, level: int, children: seq<Uid>)
    ensures CreateRoamVertex(map["heading" := JString(heading), "level" := JInt(level),
                                 "children" := JList(Strings(children)), "uid" := JString(uid),
                                 "vertex-type" := JString(VertexTypeValue(RoamBlockHeading)),
                                 "media-type" := JString(MediaTypeValue(TextPlain))])
            == Err(KeyError("text"))
  {
    VertexTypeRoundTrip(RoamBlockHeading);
    MediaTypeRoundTrip(TextPlain);
  }
}

=== FILE: page_dump_js.dfy ===
/**
 * The record-reshaping helpers of the JavaScript dumper (`page-dump/PageDump.js`): the pure steps
 * between the Roam query result and the JSON array that is written out.
 *
 * A JavaScript object is an insertion-ordered map from property name to value, for property names
 * that are not integer-like (those are listed first, in ascending order); every Roam attribute name
 * is of the first kind. `Object.assign` followed by an assignment is `Put`, and
 * `Object.fromEntries` over distinct keys keeps their order. A thrown exception becomes a `JsError`, and the first one in evaluation order is the
 * one reported.
 */
module PageDumpJs {
  import opened Wrappers
  import opened Text
  import opened OrderedMaps

  /** The JSON values the dumper handles. */
  datatype JsValue =
    | JsNull
    | JsBool(b: bool)
    | JsInt(i: int)
    | JsString(s: string)
    | JsArray(items: seq<JsValue>)
    | JsObject(props: seq<(string, JsValue)>)

  /** A plain object's own properties, in enumeration order. */
  type JsObj = OMap<string, JsValue>

  datatype JsError =
    | AssertionError                      // `assert(...)` failed
    | UnrecognizedMediaType               // `addMediaType` found no media type
    | UnrecognizedPropertyName(name: string)
    | NullArgument                        // `compareOrder` given `null`/`undefined`
    | OrderNotInteger                     // `compareOrder` given a non-integer order
    | TypeError                           // a property read on `undefined`, or `.map` on a non-array

  /** The object's own property `key` holds `v`. */
  predicate Has(obj: JsObj, key: string, v: JsValue)
  {
    key in obj.entries && obj.entries[key] == v
  }

  /** `val != null`: neither `null` nor `undefined`. */
  predicate Present(v: JsValue)
  {
    !v.JsNull?
  }

  // ---------------------------------------------------------------------------------------------
  // pick

  /**
   * `pick(obj, props)`: a new object holding exactly the properties of `obj` named in `props`
   * whose values are present, in `obj`'s order.
   */
  function Pick(obj: JsObj, props: seq<string>): (r: JsObj)
    ensures forall k :: k in r.entries <==> k in obj.entries && k in props && Present(obj.entries[k])
    ensures forall k :: k in r.entries ==> r.entries[k] == obj.entries[k]
    ensures r.keys == KeptKeys(obj.keys, obj.entries, Picked(props))
  {
    Filter(obj, Picked(props))
  }

  /** The filter `pick` applies to each entry. */
  function Picked(props: seq<string>): (string, JsValue) -> bool
  {
    (k: string, v: JsValue) => k in props && Present(v)
  }

  /** Keeping a property twice is keeping it once: `pick` is idempotent. */
  lemma PickIdempotent(obj: JsObj, props: seq<string>)
    ensures Pick(Pick(obj, props), props) == Pick(obj, props)
  {
    PickKeysIdempotent(obj, props);
    PickEntriesIdempotent(obj, props);
  }

  lemma PickKeysIdempotent(obj: JsObj, props: seq<string>)
    ensures Pick(Pick(obj, props), props).keys == Pick(obj, props).keys
  {
    KeptKeysOfKept(obj.keys, obj.entries, Pick(obj, props).entries, props);
  }

  lemma PickEntriesIdempotent(obj: JsObj, props: seq<string>)
    ensures Pick(Pick(obj, props), props).entries == Pick(obj, props).entries
  {
  }

  /** Filtering the already-kept keys again, against the kept entries, changes nothing. */
  lemma {:induction false} KeptKeysOfKept(ks: seq<string>, entries: map<string, JsValue>,
                                          kept: map<string, JsValue>, props: seq<string>)
    requires forall i :: 0 <= i < |ks| ==> ks[i] in entries
    requires forall k :: k in kept <==> k in entries && k in props && Present(entries[k])
    requires forall k :: k in kept ==> kept[k] == entries[k]
    ensures var once := KeptKeys(ks, entries, Picked(props));
            KeptKeys(once, kept, Picked(props)) == once
  {
    if ks != [] {
      KeptKeysOfKept(ks[1..], entries, kept, props);
    }
  }

  // ---------------------------------------------------------------------------------------------
  // addVertexType, addMediaType

  const PageType := "roam/page"
  const BlockType := "roam/block"
  const TextPlain := "text/plain"

  /**
   * `addVertexType(node)`: exactly one of `title` and `string` must be an own property; the clone
   * gets `vertex-type` `roam/page` for a title and `roam/block` for a string, and nothing else
   * changes.
   */
  function AddVertexType(node: JsObj): (r: Result<JsObj, JsError>)
    ensures r.Ok? <==> ("title" in node.entries <==> "string" !in node.entries)
    ensures r.Err? ==> r.error == AssertionError
    ensures r.Ok? ==> Has(r.value, "vertex-type", JsString(if "title" in node.entries then PageType else BlockType))
    ensures r.Ok? ==> forall k :: k != "vertex-type" ==>
              (k in r.value.entries <==> k in node.entries)
              && (k in node.entries ==> r.value.entries[k] == node.entries[k])
    ensures r.Ok? ==> KeepsOrder(node, r.value, "vertex-type")
  {
    var hasTitle := "title" in node.entries;
    var hasString := "string" in node.entries;
    if !((hasTitle && !hasString) || (!hasTitle && hasString)) then Err(AssertionError)
    else
      var vertexType := if hasTitle then PageType else BlockType;
      Ok(Put(node, "vertex-type", JsString(vertexType)))
  }

  /**
   * The clone keeps the original's property order: an existing `key` stays where it was, and a
   * new one is appended.
   */
  predicate KeepsOrder(node: JsObj, r: JsObj, key: string)
  {
    r.keys == if key in node.entries then node.keys else node.keys + [key]
  }

  /**
   * `addMediaType(node)`: pages and blocks are `text/plain`; any other `vertex-type`, or none,
   * throws.
   */
  function AddMediaType(node: JsObj): (r: Result<JsObj, JsError>)
    ensures r.Ok? <==> "vertex-type" in node.entries
                       && node.entries["vertex-type"] in {JsString(PageType), JsString(BlockType)}
    ensures r.Err? ==> r.error == UnrecognizedMediaType
    ensures r.Ok? ==> Has(r.value, "media-type", JsString(TextPlain))
    ensures r.Ok? ==> forall k :: k != "media-type" ==>
              (k in r.value.entries <==> k in node.entries)
              && (k in node.entries ==> r.value.entries[k] == node.entries[k])
    ensures r.Ok? ==> KeepsOrder(node, r.value, "media-type")
  {
    var vertexType := if "vertex-type" in node.entries then node.entries["vertex-type"] else JsNull;
    var mediaType: Option<string> :=
      if vertexType in [JsString(PageType), JsString(BlockType)] then Some(TextPlain) else None;
    if mediaType.None? then Err(UnrecognizedMediaType)
    else Ok(Put(node, "media-type", JsString(mediaType.value)))
  }

  /** A node `addVertexType` accepts is then accepted by `addMediaType`, as `text/plain`. */
  lemma VertexTypeThenMediaType(node: JsObj)
    requires AddVertexType(node).Ok?
    ensures AddMediaType(AddVertexType(node).value).Ok?
    ensures Has(AddMediaType(AddVertexType(node).value).value, "media-type", JsString(TextPlain))
  {
  }

  // ---------------------------------------------------------------------------------------------
  // addProperties, getAddPropertyFunction

  /** The two property adders `getAddPropertyFunction` can return. */
  datatype Adder = VertexTypeAdder | MediaTypeAdder

  /** `getAddPropertyFunction(name)` */
  function GetAddPropertyFunction(name: string): (r: Result<Adder, JsError>)
    ensures r.Ok? <==> name in {"vertex-type", "media-type"}
    ensures r.Ok? ==> (r.value == VertexTypeAdder <==> name == "vertex-type")
    ensures r.Err? ==> r.error == UnrecognizedPropertyName(name)
  {
    if name == "vertex-type" then Ok(VertexTypeAdder)
    else if name == "media-type" then Ok(MediaTypeAdder)
    else Err(UnrecognizedPropertyName(name))
  }

  function Apply(adder: Adder, node: JsObj): Result<JsObj, JsError>
  {
    match adder
    case VertexTypeAdder => AddVertexType(node)
    case MediaTypeAdder => AddMediaType(node)
  }

  /** `nodes.map(adder)`: the first node the adder throws on ends the map. */
  function MapAdder(adder: Adder, nodes: seq<JsObj>): (r: Result<seq<JsObj>, JsError>)
    ensures r.Ok? <==> forall i :: 0 <= i < |nodes| ==> Apply(adder, nodes[i]).Ok?
    ensures r.Ok? ==> |r.value| == |nodes|
    ensures r.Ok? ==> forall i :: 0 <= i < |nodes| ==> r.value[i] == Apply(adder, nodes[i]).value
  {
    if nodes == [] then Ok([])
    else
      var v :- Apply(adder, nodes[0]);
      var rest := MapAdder(adder, nodes[1..]);
      MapAdderStep(adder, nodes, rest);
      var vs :- rest;
      Ok([v] + vs)
  }

  /** One step of the map, stated without looking inside the adder. */
  lemma MapAdderStep(adder: Adder, nodes: seq<JsObj>, rest: Result<seq<JsObj>, JsError>)
    requires nodes != []
    requires rest.Ok? <==> forall i :: 0 <= i < |nodes| - 1 ==> Apply(adder, nodes[1..][i]).Ok?
    ensures rest.Ok? <==> forall i :: 1 <= i < |nodes| ==> Apply(adder, nodes[i]).Ok?
    ensures forall i :: 1 <= i < |nodes| ==> nodes[i] == nodes[1..][i - 1]
  {
    assert forall i :: 1 <= i < |nodes| ==> nodes[i] == nodes[1..][i - 1];
  }

  /**
   * `addProperties(nodes, toAddProperties)`: `None` stands for an argument that is not an array.
   * For a missing or empty list the nodes come back as they are; otherwise each named adder is
   * looked up (an unknown name throws, even over no nodes) and mapped over all nodes, in list
   * order.
   */
  function AddProperties(nodes: seq<JsObj>, toAdd: Option<seq<string>>): (r: Result<seq<JsObj>, JsError>)
    ensures toAdd.None? || toAdd.value == [] ==> r == Ok(nodes)
    ensures r.Ok? ==> |r.value| == |nodes|
    ensures toAdd.Some? && toAdd.value != [] && GetAddPropertyFunction(toAdd.value[0]).Err?
            ==> r == Err(UnrecognizedPropertyName(toAdd.value[0]))
  {
    if toAdd.None? || toAdd.value == [] then Ok(nodes)
    else ApplyAll(nodes, toAdd.value)
  }

  /** The `forEach` over the property names. */
  function ApplyAll(nodes: seq<JsObj>, names: seq<string>): (r: Result<seq<JsObj>, JsError>)
    ensures r.Ok? ==> |r.value| == |nodes|
    decreases |names|
  {
    if names == [] then Ok(nodes)
    else
      var adder :- GetAddPropertyFunction(names[0]);
      var vertices :- MapAdder(adder, nodes);
      ApplyAll(vertices, names[1..])
  }

  /** An unknown property name anywhere in the list makes `addProperties` throw. */
  lemma {:induction false} UnknownNameThrows(nodes: seq<JsObj>, names: seq<string>, i: int)
    requires 0 <= i < |names| && GetAddPropertyFunction(names[i]).Err?
    ensures AddProperties(nodes, Some(names)).Err?
    ensures ApplyAll(nodes, names).Err?
    decreases i
  {
    var found := GetAddPropertyFunction(names[0]);
    if found.Err? {
      assert ApplyAll(nodes, names) == Err(found.error);
    } else {
      var rest := names[1..];
      var mapped := MapAdder(found.value, nodes);
      if mapped.Err? {
        assert ApplyAll(nodes, names) == Err(mapped.error);
      } else {
        assert rest[i - 1] == names[i];
        UnknownNameThrows(mapped.value, rest, i - 1);
        assert ApplyAll(nodes, names) == ApplyAll(mapped.value, rest);
      }
    }
  }

  /** The shape of a node the Roam query returns: a page with a title or a block with a string. */
  predicate PageOrBlock(node: JsObj)
  {
    "title" in node.entries <==> "string" !in node.entries
  }

  /** What the dumper's two adders do to one page or block. */
  function Dumped(node: JsObj): Result<JsObj, JsError>
  {
    var typed :- AddVertexType(node);
    AddMediaType(typed)
  }

  /**
   * A page or block passes both adders, gains its vertex type and `text/plain`, and keeps all its
   * other properties.
   */
  lemma DumpedPageOrBlock(node: JsObj)
    requires PageOrBlock(node)
    ensures Dumped(node).Ok?
    ensures Has(Dumped(node).value, "vertex-type",
                JsString(if "title" in node.entries then PageType else BlockType))
    ensures Has(Dumped(node).value, "media-type", JsString(TextPlain))
    ensures forall k :: k in node.entries && k != "vertex-type" && k != "media-type"
              ==> Has(Dumped(node).value, k, node.entries[k])
  {
    VertexTypeThenMediaType(node);
  }

  /**
   * With the dumper's configuration `["vertex-type", "media-type"]`, the nodes come back one for
   * one, each as `Dumped` makes it.
   */
  lemma DumperAddProperties(nodes: seq<JsObj>)
    requires forall i :: 0 <= i < |nodes| ==> PageOrBlock(nodes[i])
    ensures AddProperties(nodes, Some(["vertex-type", "media-type"])).Ok?
    ensures var vs := AddProperties(nodes, Some(["vertex-type", "media-type"])).value;
      forall i :: 0 <= i < |nodes| ==> Dumped(nodes[i]) == Ok(vs[i])
  {
    var typed := MapAdder(VertexTypeAdder, nodes);
    TypedPagesAndBlocks(nodes);
    var media := MapAdder(MediaTypeAdder, typed.value);
    ApplyBothAdders(nodes);
    forall i | 0 <= i < |nodes| ensures Dumped(nodes[i]) == Ok(media.value[i]) {
      assert typed.value[i] == AddVertexType(nodes[i]).value;
    }
  }

  lemma TypedPagesAndBlocks(nodes: seq<JsObj>)
    requires forall i :: 0 <= i < |nodes| ==> PageOrBlock(nodes[i])
    ensures MapAdder(VertexTypeAdder, nodes).Ok?
    ensures MapAdder(MediaTypeAdder, MapAdder(VertexTypeAdder, nodes).value).Ok?
  {
    forall i | 0 <= i < |nodes| ensures Apply(VertexTypeAdder, nodes[i]).Ok? {
      NodeTyped(nodes[i]);
    }
    var typed := MapAdder(VertexTypeAdder, nodes);
    assert typed.Ok?;
    MediaTypeOverTyped(nodes, typed.value);
  }

  lemma MediaTypeOverTyped(nodes: seq<JsObj>, vs: seq<JsObj>)
    requires |vs| == |nodes|
    requires forall i :: 0 <= i < |nodes| ==> PageOrBlock(nodes[i])
    requires forall i :: 0 <= i < |nodes| ==> Apply(VertexTypeAdder, nodes[i]) == Ok(vs[i])
    ensures MapAdder(MediaTypeAdder, vs).Ok?
  {
    forall i | 0 <= i < |vs| ensures Apply(MediaTypeAdder, vs[i]).Ok? {
      NodeTyped(nodes[i]);
    }
  }

  lemma NodeTyped(node: JsObj)
    requires PageOrBlock(node)
    ensures Apply(VertexTypeAdder, node).Ok?
    ensures Apply(MediaTypeAdder, Apply(VertexTypeAdder, node).value).Ok?
  {
    VertexTypeThenMediaType(node);
  }

  /** `addProperties` with the dumper's two names is the two maps, one after the other. */
  lemma ApplyBothAdders(nodes: seq<JsObj>)
    ensures AddProperties(nodes, Some(["vertex-type", "media-type"]))
            == (var typed :- MapAdder(VertexTypeAdder, nodes); MapAdder(MediaTypeAdder, typed))
  {
    assert ["vertex-type", "media-type"][1..] == ["media-type"];
    assert ["media-type"][1..] == [];
  }

  // ---------------------------------------------------------------------------------------------
  // normalizeNode, normalizeProperty, normalizeChildren, normalizeRefs, compareOrder

  /**
   * An `Id2UidMap` entry: the uid and `order` of the node with that id. `None` stands for an
   * order that is not an integer, as for a page or a top-level block, which have none.
   */
  datatype OrderedUid = OrderedUid(uid: string, order: Option<int>)

  /** `Id2UidMap`, keyed by node id. */
  type Id2Uid = map<int, OrderedUid>

  /** The first value of property `key` among an object's own properties. */
  function PropOf(props: seq<(string, JsValue)>, key: string): (r: Option<JsValue>)
    ensures r.None? <==> forall i :: 0 <= i < |props| ==> props[i].0 != key
    ensures r.Some? ==> exists i :: 0 <= i < |props| && props[i] == (key, r.value)
  {
    if props == [] then None
    else if props[0].0 == key then Some(props[0].1)
    else
      var r := PropOf(props[1..], key);
      assert forall i :: 1 <= i < |props| ==> props[i] == props[1..][i - 1];
      if r.Some? then
        var i :| 0 <= i < |props[1..]| && props[1..][i] == (key, r.value);
        assert props[i + 1] == (key, r.value);
        r
      else r
  }

  /**
   * `id2UidMap[child["id"]]`: reading `id` off `null` throws; an id that is missing, not an
   * integer or not in the map reads as `undefined` (`None`). JavaScript turns property keys into
   * strings, so an `id` of `"5"` would also find the entry of node 5; only integer ids resolve here.
   */
  function Resolve(child: JsValue, ids: Id2Uid): (r: Result<Option<OrderedUid>, JsError>)
    ensures r.Err? <==> child.JsNull?
    ensures r.Err? ==> r.error == TypeError
    ensures r.Ok? && r.value.Some? ==>
              child.JsObject? && PropOf(child.props, "id").Some? && PropOf(child.props, "id").value.JsInt?
              && PropOf(child.props, "id").value.i in ids
              && r.value.value == ids[PropOf(child.props, "id").value.i]
  {
    if child.JsNull? then Err(TypeError)
    else if !child.JsObject? then Ok(None)
    else match PropOf(child.props, "id")
      case Some(JsInt(id)) => if id in ids then Ok(Some(ids[id])) else Ok(None)
      case _ => Ok(None)
  }

  /** `value.map(child => id2UidMap[child["id"]])` */
  function ResolveAll(items: seq<JsValue>, ids: Id2Uid): (r: Result<seq<Option<OrderedUid>>, JsError>)
    ensures r.Ok? <==> forall i :: 0 <= i < |items| ==> !items[i].JsNull?
    ensures r.Ok? ==> |r.value| == |items|
    ensures r.Ok? ==> forall i :: 0 <= i < |items| ==> Resolve(items[i], ids) == Ok(r.value[i])
    ensures r.Err? ==> r.error == TypeError
  {
    if items == [] then Ok([])
    else
      var o :- Resolve(items[0], ids);
      var os :- ResolveAll(items[1..], ids);
      assert forall i :: 1 <= i < |items| ==> items[i] == items[1..][i - 1];
      Ok([o] + os)
  }

  /**
   * `compareOrder(lhs, rhs)`: `null` or `undefined` throws first, then a non-integer order;
   * otherwise the difference of the orders, negative, zero or positive as `lhs` sorts before,
   * with or after `rhs`.
   */
  function CompareOrder(lhs: Option<OrderedUid>, rhs: Option<OrderedUid>): (r: Result<int, JsError>)
    ensures lhs.None? || rhs.None? ==> r == Err(NullArgument)
    ensures lhs.Some? && rhs.Some? && (lhs.value.order.None? || rhs.value.order.None?)
            ==> r == Err(OrderNotInteger)
    ensures r.Ok? <==> lhs.Some? && rhs.Some? && lhs.value.order.Some? && rhs.value.order.Some?
    ensures r.Ok? ==> (r.value < 0 <==> lhs.value.order.value < rhs.value.order.value)
    ensures r.Ok? ==> (r.value == 0 <==> lhs.value.order.value == rhs.value.order.value)
  {
    if lhs.None? || rhs.None? then Err(NullArgument)
    else
      var lhsOrder := lhs.value.order;
      var rhsOrder := rhs.value.order;
      if lhsOrder.None? || rhsOrder.None? then Err(OrderNotInteger)
      else Ok(lhsOrder.value - rhsOrder.value)
  }

  /** Swapping the arguments negates the comparison, and fails the same way. */
  lemma CompareOrderAntisymmetric(a: Option<OrderedUid>, b: Option<OrderedUid>)
    ensures CompareOrder(a, b).Ok? <==> CompareOrder(b, a).Ok?
    ensures CompareOrder(a, b).Err? ==> CompareOrder(b, a) == CompareOrder(a, b)
    ensures CompareOrder(a, b).Ok? ==> CompareOrder(a, b).value == -CompareOrder(b, a).value
  {
  }

  /** A child that sorts: its uid and integer order. */
  type Keyed = (string, int)

  predicate SortedByOrder(ps: seq<Keyed>)
  {
    forall i, j :: 0 <= i < j < |ps| ==> ps[i].1 <= ps[j].1
  }

  /** Insert `x` before the first element whose order is not smaller. */
  function InsertByOrder(x: Keyed, ps: seq<Keyed>): (r: seq<Keyed>)
    requires SortedByOrder(ps)
    ensures SortedByOrder(r)
    ensures multiset(r) == multiset(ps) + multiset{x}
    ensures |r| == |ps| + 1
  {
    if ps == [] || x.1 <= ps[0].1 then [x] + ps
    else
      var rest := InsertByOrder(x, ps[1..]);
      HeadBelowInserted(x, ps, rest);
      [ps[0]] + rest
  }

  lemma HeadBelowInserted(x: Keyed, ps: seq<Keyed>, rest: seq<Keyed>)
    requires ps != [] && SortedByOrder(ps) && ps[0].1 < x.1
    requires SortedByOrder(rest) && multiset(rest) == multiset(ps[1..]) + multiset{x}
    ensures SortedByOrder([ps[0]] + rest)
    ensures multiset([ps[0]] + rest) == multiset(ps) + multiset{x}
  {
    assert ps == [ps[0]] + ps[1..];
    forall i | 0 <= i < |rest| ensures ps[0].1 <= rest[i].1 {
      assert rest[i] in multiset(rest);
      if rest[i] != x {
        assert rest[i] in multiset(ps[1..]);
        var j :| 0 <= j < |ps[1..]| && ps[1..][j] == rest[i];
        assert ps[j + 1] == rest[i];
      }
    }
  }

  /**
   * `sort(compareOrder)`: the array sorted ascending by order. The sort is stable, as
   * `Array.prototype.sort` is: equal orders keep their original relative order.
   */
  function SortByOrder(ps: seq<Keyed>): (r: seq<Keyed>)
    ensures SortedByOrder(r)
    ensures multiset(r) == multiset(ps)
    ensures |r| == |ps|
  {
    if ps == [] then []
    else
      assert ps == [ps[0]] + ps[1..];
      InsertByOrder(ps[0], SortByOrder(ps[1..]))
  }

  /** Every entry carries an integer order. */
  predicate AllOrdered(xs: seq<OrderedUid>)
  {
    forall i :: 0 <= i < |xs| ==> xs[i].order.Some?
  }

  function Keys(xs: seq<OrderedUid>): (r: seq<Keyed>)
    requires AllOrdered(xs)
    ensures |r| == |xs|
    ensures forall i :: 0 <= i < |xs| ==> r[i] == (xs[i].uid, xs[i].order.value)
  {
    seq(|xs|, i requires 0 <= i < |xs| => (xs[i].uid, xs[i].order.value))
  }

  /** The uids of sorted children. */
  function UidsOf(ps: seq<Keyed>): (r: seq<string>)
    ensures |r| == |ps| && forall i :: 0 <= i < |ps| ==> r[i] == ps[i].0
  {
    seq(|ps|, i requires 0 <= i < |ps| => ps[i].0)
  }

  /** Strings as JSON values. */
  function JsStrings(us: seq<string>): (r: seq<JsValue>)
    ensures |r| == |us| && forall i :: 0 <= i < |us| ==> r[i] == JsString(us[i])
  {
    seq(|us|, i requires 0 <= i < |us| => JsString(us[i]))
  }

  /**
   * The children that resolved, in their original order. `Array.prototype.sort` hands only these
   * to the comparator and moves the `undefined` ones to the end without comparing them.
   */
  function Defined(os: seq<Option<OrderedUid>>): (r: seq<OrderedUid>)
    ensures |r| <= |os|
    ensures forall x :: x in r <==> Some(x) in os
    ensures |r| == |os| <==> forall i :: 0 <= i < |os| ==> os[i].Some?
    ensures |r| == |os| ==> forall i :: 0 <= i < |os| ==> r[i] == os[i].value
  {
    if os == [] then []
    else
      var rest := Defined(os[1..]);
      assert forall i :: 1 <= i < |os| ==> os[i] == os[1..][i - 1];
      assert forall x :: Some(x) in os <==> os[0] == Some(x) || Some(x) in os[1..];
      if os[0].None? then rest else [os[0].value] + rest
  }

  /** Some child resolved. */
  lemma DefinedNonEmpty(os: seq<Option<OrderedUid>>)
    ensures |Defined(os)| >= 1 <==> exists j :: 0 <= j < |os| && os[j].Some?
  {
    var xs := Defined(os);
    if |xs| >= 1 {
      assert xs[0] in xs;
      var j :| 0 <= j < |os| && os[j] == Some(xs[0]);
    }
    if exists j :: 0 <= j < |os| && os[j].Some? {
      var j :| 0 <= j < |os| && os[j].Some?;
      assert os[j] == Some(os[j].value);
      assert os[j].value in xs;
    }
  }

  /** At least two children resolved: the comparator is called. */
  lemma {:induction false} DefinedAtLeastTwo(os: seq<Option<OrderedUid>>)
    ensures |Defined(os)| >= 2 <==> TwoResolved(os)
  {
    if os != [] {
      var tail := os[1..];
      DefinedAtLeastTwo(tail);
      DefinedNonEmpty(tail);
      assert |Defined(os)| == (if os[0].Some? then 1 else 0) + |Defined(tail)|;
      if TwoResolved(os) {
        var i, j :| 0 <= i < j < |os| && os[i].Some? && os[j].Some?;
        assert tail[j - 1] == os[j];
        if i > 0 {
          assert tail[i - 1] == os[i];
          assert TwoResolved(tail);
        }
      }
      if |Defined(os)| >= 2 {
        if os[0].Some? {
          var j :| 0 <= j < |tail| && tail[j].Some?;
          assert os[j + 1] == tail[j];
          assert 0 < j + 1 < |os|;
        } else {
          var i, j :| 0 <= i < j < |tail| && tail[i].Some? && tail[j].Some?;
          assert os[i + 1] == tail[i] && os[j + 1] == tail[j];
        }
      }
    }
  }

  /** Some child resolved to an entry whose order is not an integer. */
  predicate ResolvedUnordered(os: seq<Option<OrderedUid>>)
  {
    exists i :: 0 <= i < |os| && os[i].Some? && os[i].value.order.None?
  }

  /** Two distinct children resolved. */
  predicate TwoResolved(os: seq<Option<OrderedUid>>)
  {
    exists i, j :: 0 <= i < j < |os| && os[i].Some? && os[j].Some?
  }

  /**
   * `sort(compareOrder)` over the resolved children, reduced to their uids. Fewer than two are
   * never compared. Among two or more, every element takes part in some comparison, so a
   * non-integer order throws.
   */
  function SortResolved(xs: seq<OrderedUid>): (r: Result<seq<string>, JsError>)
    ensures r.Err? <==> |xs| >= 2 && exists i :: 0 <= i < |xs| && xs[i].order.None?
    ensures r.Err? ==> r.error == OrderNotInteger
    ensures r.Ok? && |xs| < 2 ==> |r.value| == |xs| && forall i :: 0 <= i < |xs| ==> r.value[i] == xs[i].uid
    ensures r.Ok? && |xs| >= 2 ==>
              && AllOrdered(xs)
              && exists ps :: SortedByOrder(ps) && multiset(ps) == multiset(Keys(xs)) && r.value == UidsOf(ps)
  {
    if |xs| < 2 then Ok(seq(|xs|, i requires 0 <= i < |xs| => xs[i].uid))
    else if !AllOrdered(xs) then Err(OrderNotInteger)
    else Ok(UidsOf(SortByOrder(Keys(xs))))
  }

  /** A resolved child with a non-integer order is a resolved entry with one, and back. */
  lemma DefinedOrders(os: seq<Option<OrderedUid>>)
    ensures (exists i :: 0 <= i < |Defined(os)| && Defined(os)[i].order.None?) ==> ResolvedUnordered(os)
    ensures ResolvedUnordered(os) ==> exists i :: 0 <= i < |Defined(os)| && Defined(os)[i].order.None?
  {
    var xs := Defined(os);
    if exists i :: 0 <= i < |xs| && xs[i].order.None? {
      var i :| 0 <= i < |xs| && xs[i].order.None?;
      assert xs[i] in xs;
      var k :| 0 <= k < |os| && os[k] == Some(xs[i]);
      assert os[k].Some? && os[k].value.order.None?;
    }
    if ResolvedUnordered(os) {
      var i :| 0 <= i < |os| && os[i].Some? && os[i].value.order.None?;
      assert os[i] == Some(os[i].value);
      assert Some(os[i].value) in os;
      assert os[i].value in xs;
      var k :| 0 <= k < |xs| && xs[k] == os[i].value;
      assert xs[k].order.None?;
      assert exists i :: 0 <= i < |xs| && xs[i].order.None?;
    }
  }

  /**
   * The sort and the final `map(e => e[0])` over the looked-up children: a non-integer order
   * among two or more resolved children throws in the comparator; otherwise an unresolved child,
   * sorted to the end, throws `TypeError`.
   */
  function SortChildren(os: seq<Option<OrderedUid>>): (r: Result<seq<string>, JsError>)
    ensures r.Err? ==> r.error == TypeError || r.error == OrderNotInteger
    ensures r == Err(OrderNotInteger) <==>
              TwoResolved(os) && ResolvedUnordered(os)
    ensures r.Ok? <==> forall i :: 0 <= i < |os| ==> os[i].Some? && (|os| >= 2 ==> os[i].value.order.Some?)
    ensures r.Ok? ==> |r.value| == |os|
    ensures r.Ok? && |os| == 1 ==> r.value == [os[0].value.uid]
    ensures r.Ok? && |os| >= 2 ==>
              && AllOrdered(Defined(os))
              && exists ps :: SortedByOrder(ps) && multiset(ps) == multiset(Keys(Defined(os))) && r.value == UidsOf(ps)
  {
    var defined := Defined(os);
    DefinedOrders(os);
    DefinedAtLeastTwo(os);
    match SortResolved(defined)
    case Err(e) => Err(e)
    case Ok(sorted) =>
      if |sorted| < |os| then Err(TypeError)
      else
        assert forall i :: 0 <= i < |os| ==> os[i].Some? && defined[i] == os[i].value;
        Ok(sorted)
  }

  /**
   * `normalizeChildren()`: each child's `(uid, order)` looked up by id, sorted ascending by
   * order, and reduced to its uid. A `null` child throws when its `id` is read; the rest is
   * `SortChildren`.
   */
  function NormalizeChildren(value: JsValue, ids: Id2Uid): (r: Result<JsValue, JsError>)
    ensures !value.JsArray? ==> r == Err(TypeError)
    ensures value.JsArray? && ResolveAll(value.items, ids).Err? ==> r == Err(TypeError)
    ensures r.Err? ==> r.error == TypeError || r.error == OrderNotInteger
    ensures value.JsArray? && ResolveAll(value.items, ids).Ok? ==>
              var os := ResolveAll(value.items, ids).value;
              (r == Err(OrderNotInteger) <==>
                 TwoResolved(os) && ResolvedUnordered(os))
    ensures value.JsArray? && ResolveAll(value.items, ids).Ok? ==>
              var os := ResolveAll(value.items, ids).value;
              (r.Ok? <==> forall i :: 0 <= i < |os| ==> os[i].Some? && (|os| >= 2 ==> os[i].value.order.Some?))
    ensures r.Ok? ==> value.JsArray? && r.value.JsArray? && |r.value.items| == |value.items|
    ensures r.Ok? && |value.items| == 1 ==>
              r.value == JsArray([JsString(ResolveAll(value.items, ids).value[0].value.uid)])
    ensures r.Ok? && |value.items| >= 2 ==>
              var xs := Defined(ResolveAll(value.items, ids).value);
              && AllOrdered(xs)
              && exists ps :: SortedByOrder(ps) && multiset(ps) == multiset(Keys(xs))
                              && r.value == JsArray(JsStrings(UidsOf(ps)))
  {
    if !value.JsArray? then Err(TypeError)
    else
      match ResolveAll(value.items, ids)
      case Err(e) => Err(e)
      case Ok(resolved) =>
        assert |resolved| == |value.items|;
        match SortChildren(resolved)
        case Err(e) => Err(e)
        case Ok(sorted) => Ok(JsArray(JsStrings(sorted)))
  }

  /** `normalizeRefs()`: each reference's uid, looked up by id, in the original order. */
  function NormalizeRefs(value: JsValue, ids: Id2Uid): (r: Result<JsValue, JsError>)
    ensures r.Ok? <==> value.JsArray? && ResolveAll(value.items, ids).Ok?
                       && forall i :: 0 <= i < |value.items| ==> ResolveAll(value.items, ids).value[i].Some?
    ensures r.Err? ==> r.error == TypeError
    ensures r.Ok? ==> r.value == JsArray(seq(|value.items|, i requires 0 <= i < |value.items| =>
                                              JsString(ResolveAll(value.items, ids).value[i].value.uid)))
  {
    if !value.JsArray? then Err(TypeError)
    else
      var resolved :- ResolveAll(value.items, ids);
      if exists i :: 0 <= i < |resolved| && resolved[i].None? then Err(TypeError)
      else Ok(JsArray(seq(|resolved|, i requires 0 <= i < |resolved| => JsString(resolved[i].value.uid))))
  }

  /**
   * `normalizeProperty(key, value)`: `string`, `children` and `refs` are rewritten; every other
   * property passes through. The page-reference rewrite of `string` is the parameter
   * `normalizeString`.
   */
  function NormalizeProperty(key: string, value: JsValue, ids: Id2Uid,
                             normalizeString: JsValue -> JsValue): (r: Result<JsValue, JsError>)
    ensures key !in {"string", "children", "refs"} ==> r == Ok(value)
    ensures key == "string" ==> r == Ok(normalizeString(value))
    ensures key == "children" ==> r == NormalizeChildren(value, ids)
    ensures key == "refs" ==> r == NormalizeRefs(value, ids)
  {
    if key == "string" then Ok(normalizeString(value))
    else if key == "children" then NormalizeChildren(value, ids)
    else if key == "refs" then NormalizeRefs(value, ids)
    else Ok(value)
  }

  /** The properties `normalizeNode` carries over: all but `order` and `id`. */
  function Carried(): (string, JsValue) -> bool
  {
    (k: string, v: JsValue) => k != "order" && k != "id"
  }

  /** `normalizeProperty` with its two maps fixed: the rewrite `normalizeNode` maps over the keys. */
  function Rewrite(ids: Id2Uid, normalizeString: JsValue -> JsValue): (string, JsValue) -> Result<JsValue, JsError>
  {
    (k: string, v: JsValue) => NormalizeProperty(k, v, ids, normalizeString)
  }

  /**
   * `normalizeNode(node)`: every property but `order` and `id`, in the node's order, each value
   * rewritten by `normalizeProperty`; the first rewrite that throws ends it.
   */
  function NormalizeNode(node: JsObj, ids: Id2Uid, normalizeString: JsValue -> JsValue): (r: Result<JsObj, JsError>)
    ensures r.Ok? ==> r.value.keys == KeptKeys(node.keys, node.entries, Carried())
    ensures r.Ok? ==> forall k :: k in r.value.entries <==> k in node.entries && k != "order" && k != "id"
    ensures r.Ok? ==> forall k :: k in r.value.entries ==>
              NormalizeProperty(k, node.entries[k], ids, normalizeString) == Ok(r.value.entries[k])
  {
    var keys := KeptKeys(node.keys, node.entries, Carried());
    MapEntries(keys, node, Rewrite(ids, normalizeString))
  }

  /**
   * A node with no `string`, `children` or `refs` comes out as `pick` would leave it with every
   * property but `order` and `id`: the other values pass through untouched.
   */
  lemma NormalizePlainNode(node: JsObj, ids: Id2Uid, normalizeString: JsValue -> JsValue)
    requires "string" !in node.entries && "children" !in node.entries && "refs" !in node.entries
    ensures NormalizeNode(node, ids, normalizeString).Ok?
    ensures forall k :: k in node.entries && k != "order" && k != "id"
              ==> Has(NormalizeNode(node, ids, normalizeString).value, k, node.entries[k])
  {
    var keys := KeptKeys(node.keys, node.entries, Carried());
    forall i | 0 <= i < |keys| ensures NormalizeProperty(keys[i], node.entries[keys[i]], ids, normalizeString).Ok? {
      assert keys[i] in node.entries;
    }
  }

  // ---------------------------------------------------------------------------------------------
  // buildRules, buildQuery

  /** How far the Roam query follows one kind of link. */
  datatype FollowLinksDirective = DontFollow | Shallow | Deep

  const ProximateRefs := "[?a :block/refs ?b]"
  const ProximateChildren := "[?a :block/children ?b]"
  const InductiveRefs := "[?proximate_linker :block/refs ?b]"
  const InductiveChildren := "[?proximate_linker :block/children ?b]"
  const InductiveLinkerHead := "(linker ?proximate_linker ?a)"

  /** Both directives are `DONT_FOLLOW`: the query only fetches the page itself. */
  predicate ShellOnly(followChildren: FollowLinksDirective, followRefs: FollowLinksDirective)
  {
    followChildren == DontFollow && followRefs == DontFollow
  }

  /** The one-step clause for a link kind: present unless the link is not followed. */
  function ProximateRule(follow: FollowLinksDirective, clause: string): (r: string)
    ensures r == "" <==> follow == DontFollow
    ensures r != "" ==> r == clause
    requires clause != ""
  {
    if follow == DontFollow then "" else clause
  }

  /** The inductive clause for a link kind: present only when the link is followed `DEEP`. */
  function InductiveRule(follow: FollowLinksDirective, clause: string): (r: string)
    ensures r == "" <==> follow != Deep
    ensures r != "" ==> r == clause
    requires clause != ""
  {
    if follow == Deep then clause else ""
  }

  /** The recursive `linker` rule: present only when some inductive clause is. */
  function InductiveLinkerRule(inductiveRefs: string, inductiveChildren: string): (r: string)
    ensures r == "" <==> inductiveRefs == "" && inductiveChildren == ""
    ensures r != "" ==> Contains(r, inductiveRefs) && Contains(r, inductiveChildren)
                        && Contains(r, InductiveLinkerHead)
  {
    if inductiveRefs == "" && inductiveChildren == "" then ""
    else InductiveLinkerText(inductiveRefs, inductiveChildren)
  }

  const LinkerOpen := "[  (linker ?b ?a ) \n                ( or \n                    "
  const LinkerMid := "\n                    "
  const LinkerClose := " \n                )         \n                "
  const LinkerEnd := " \n            ]"

  /** The inductive linker template, filled in. */
  function InductiveLinkerText(inductiveRefs: string, inductiveChildren: string): (r: string)
    ensures r != ""
    ensures Contains(r, inductiveRefs) && Contains(r, inductiveChildren) && Contains(r, InductiveLinkerHead)
  {
    var r := LinkerOpen + inductiveRefs + LinkerMid + inductiveChildren + LinkerClose + InductiveLinkerHead + LinkerEnd;
    ContainsHoles3(LinkerOpen, inductiveRefs, LinkerMid, inductiveChildren, LinkerClose, InductiveLinkerHead, LinkerEnd);
    r
  }

  /**
   * `buildRules(followChildren, followRefs)`: `"[]"` when neither link is followed; otherwise the
   * `linker` rule over the one-step clauses of the followed links, followed by the recursive rule
   * over the inductive clauses of the `DEEP` ones.
   */
  function BuildRules(followChildren: FollowLinksDirective, followRefs: FollowLinksDirective): (r: string)
    ensures r == "[]" <==> ShellOnly(followChildren, followRefs)
    ensures followRefs != DontFollow ==> Contains(r, ProximateRefs)
    ensures followChildren != DontFollow ==> Contains(r, ProximateChildren)
    ensures followRefs == Deep ==> Contains(r, InductiveRefs)
    ensures followChildren == Deep ==> Contains(r, InductiveChildren)
    ensures followRefs == Deep || followChildren == Deep ==> Contains(r, InductiveLinkerHead)
  {
    if ShellOnly(followChildren, followRefs) then "[]"
    else
      var inductiveRefsRule := InductiveRule(followRefs, InductiveRefs);
      var inductiveChildrenRule := InductiveRule(followChildren, InductiveChildren);
      var inductiveLinkerRule := InductiveLinkerRule(inductiveRefsRule, inductiveChildrenRule);
      var r := RulesText(ProximateRule(followRefs, ProximateRefs), ProximateRule(followChildren, ProximateChildren),
                         inductiveLinkerRule);
      assert (followRefs == Deep || followChildren == Deep) ==>
        && Contains(r, InductiveLinkerHead)
        && (followRefs == Deep ==> Contains(r, InductiveRefs))
        && (followChildren == Deep ==> Contains(r, InductiveChildren)) by {
        if followRefs == Deep || followChildren == Deep {
          ContainsTransitive(r, inductiveLinkerRule, InductiveLinkerHead);
          if followRefs == Deep {
            ContainsTransitive(r, inductiveLinkerRule, InductiveRefs);
          }
          if followChildren == Deep {
            ContainsTransitive(r, inductiveLinkerRule, InductiveChildren);
          }
        }
      }
      r
  }

  const RulesOpen := "[ \n                [ (linker ?b ?a )\n                ( or \n                    "
  const RulesMid := " \n                    "
  const RulesClose := " \n                )\n                ]\n                "
  const RulesEnd := "   \n            ]"

  /** The rules template, filled in. */
  function RulesText(proximateRefs: string, proximateChildren: string, inductiveLinker: string): (r: string)
    ensures |r| > 2
    ensures Contains(r, proximateRefs) && Contains(r, proximateChildren) && Contains(r, inductiveLinker)
  {
    var r := RulesOpen + proximateRefs + RulesMid + proximateChildren + RulesClose + inductiveLinker + RulesEnd;
    ContainsHoles3(RulesOpen, proximateRefs, RulesMid, proximateChildren, RulesClose, inductiveLinker, RulesEnd);
    r
  }

  const LinkerClause := "(linker ?node ?page)"

  /**
   * `buildQuery(followChildren, followRefs)`: pulls `?page` and has no `linker` clause when
   * neither link is followed; otherwise pulls every `?node` the `linker` rule reaches from the
   * page.
   */
  function BuildQuery(followChildren: FollowLinksDirective, followRefs: FollowLinksDirective): (r: string)
    ensures ShellOnly(followChildren, followRefs) ==> Contains(r, PullClause("page")) && !Contains(r, LinkerClause)
    ensures !ShellOnly(followChildren, followRefs) ==> Contains(r, PullClause("node")) && Contains(r, LinkerClause)
  {
    if ShellOnly(followChildren, followRefs) then
      var r := QueryText("page", "");
      assert 'k' in LinkerClause by { assert LinkerClause[4] == 'k'; }
      NotContainsMissingChar(r, LinkerClause, 'k');
      r
    else QueryText("node", LinkerClause)
  }

  /** The `:find` clause pulling every attribute of one entity. */
  function PullClause(targetEntity: string): string
  {
    "(pull ?" + targetEntity + " [*] )"
  }

  /** `n` spaces of template indentation. */
  function Indent(n: nat): (r: string)
    ensures |r| == n && forall i :: 0 <= i < |r| ==> r[i] == ' '
  {
    Repeat(' ', n)
  }

  const QueryOpen := "[\n" + Indent(12) + ":find \n" + Indent(16)
  const QueryIn := "\n" + Indent(12) + ":in \n" + Indent(16) + "$ ?target_page_title % "
  const QueryWhereHead := "\n" + Indent(12) + ":where\n" + Indent(16)
  const QueryPageTitle := "[?page :node/title ?target_page_title]"
  const QueryWhere := QueryIn + QueryWhereHead + QueryPageTitle + "\n" + Indent(16)
  const QueryEnd := "\n" + Indent(8) + "]"

  /** No fixed part of the query template has a `k`, the letter that marks a `linker` clause. */
  lemma QueryTemplateLacksK(targetEntity: string)
    requires targetEntity == "page" || targetEntity == "node"
    ensures 'k' !in QueryOpen && 'k' !in PullClause(targetEntity) && 'k' !in QueryWhere && 'k' !in QueryEnd
  {
    QueryHeadLacksK();
    QueryWhereLacksK();
  }

  lemma QueryHeadLacksK()
    ensures 'k' !in QueryOpen && 'k' !in QueryEnd
  {
    IndentLacksK(8);
    IndentLacksK(12);
    IndentLacksK(16);
  }

  lemma QueryWhereLacksK()
    ensures 'k' !in QueryWhere
  {
    QueryInLacksK();
    QueryPageTitleLacksK();
    IndentLacksK(16);
  }

  lemma QueryInLacksK()
    ensures 'k' !in QueryIn && 'k' !in QueryWhereHead
  {
    IndentLacksK(12);
    IndentLacksK(16);
    assert 'k' !in "$ ?target_page_title % ";
  }

  lemma IndentLacksK(n: nat)
    ensures 'k' !in Indent(n)
  {
    var s := Indent(n);
    assert forall i :: 0 <= i < |s| ==> s[i] != 'k';
  }

  lemma QueryPageTitleLacksK()
    ensures 'k' !in QueryPageTitle
  {
  }

  /** The query template, filled in. */
  function QueryText(targetEntity: string, linkerClause: string): (r: string)
    requires targetEntity == "page" || targetEntity == "node"
    ensures Contains(r, PullClause(targetEntity))
    ensures Contains(r, linkerClause)
    ensures 'k' !in linkerClause ==> 'k' !in r
  {
    var r := QueryOpen + PullClause(targetEntity) + QueryWhere + linkerClause + QueryEnd;
    ContainsHoles2(QueryOpen, PullClause(targetEntity), QueryWhere, linkerClause, QueryEnd);
    QueryTemplateLacksK(targetEntity);
    r
  }
}

=== FILE: roam_model.dfy ===
/**
 * The typed vertex graph a PageDump export decodes into: four vertex shapes, an insertion-ordered
 * `VertexMap` from uid to vertex, and the link collection (`all_linked_uids`) the validation rules
 * share.
 */
module RoamModel {
  import opened Wrappers
  import opened OrderedMaps

  type Uid = string

  datatype VertexType = RoamPage | RoamBlockContent | RoamBlockHeading | RoamFile

  /** The `StrEnum` value of each vertex type, as it appears in the JSON dump. */
  function VertexTypeValue(t: VertexType): string
  {
    match t
    case RoamPage => "roam/page"
    case RoamBlockContent => "roam/block-content"
    case RoamBlockHeading => "roam/block-heading"
    case RoamFile => "roam/file"
  }

  /** `VertexType(s)`: the enum lookup by value, `None` where Python raises `ValueError`. */
  function VertexTypeOfValue(s: string): (r: Option<VertexType>)
    ensures r.Some? ==> VertexTypeValue(r.value) == s
    ensures r.None? ==> forall t: VertexType :: VertexTypeValue(t) != s
  {
    if s == "roam/page" then Some(RoamPage)
    else if s == "roam/block-content" then Some(RoamBlockContent)
    else if s == "roam/block-heading" then Some(RoamBlockHeading)
    else if s == "roam/file" then Some(RoamFile)
    else None
  }

  lemma VertexTypeRoundTrip(t: VertexType)
    ensures VertexTypeOfValue(VertexTypeValue(t)) == Some(t)
  {
  }

  datatype MediaType = TextPlain | TextMarkdown | ImageJpeg

  function MediaTypeValue(m: MediaType): string
  {
    match m
    case TextPlain => "text/plain"
    case TextMarkdown => "text/markdown"
    case ImageJpeg => "image/jpeg"
  }

  /** `MediaType(s)`: the enum lookup by value, `None` where Python raises `ValueError`. */
  function MediaTypeOfValue(s: string): (r: Option<MediaType>)
    ensures r.Some? ==> MediaTypeValue(r.value) == s
    ensures r.None? ==> forall m: MediaType :: MediaTypeValue(m) != s
  {
    if s == "text/plain" then Some(TextPlain)
    else if s == "text/markdown" then Some(TextMarkdown)
    else if s == "image/jpeg" then Some(ImageJpeg)
    else None
  }

  lemma MediaTypeRoundTrip(m: MediaType)
    ensures MediaTypeOfValue(MediaTypeValue(m)) == Some(m)
  {
  }

  /**
   * A vertex. `Page`, `BlockHeading` and `BlockContent` are the `RoamNode`s and carry optional
   * `children`/`references` uid lists (`None` when the attribute is `None`); `File` carries neither.
   */
  datatype Vertex =
    | Page(uid: Uid, mediaType: MediaType, title: string,
           children: Option<seq<Uid>>, references: Option<seq<Uid>>)
    | BlockHeading(uid: Uid, mediaType: MediaType, heading: string, level: int,
                   children: Option<seq<Uid>>, references: Option<seq<Uid>>)
    | BlockContent(uid: Uid, mediaType: MediaType, content: string,
                   children: Option<seq<Uid>>, references: Option<seq<Uid>>)
    | File(uid: Uid, mediaType: MediaType, fileName: string, source: string)
  {
    /** The `vertex_type` property each class hard-wires. */
    function VertexType(): VertexType
    {
      match this
      case Page(_, _, _, _, _) => RoamPage
      case BlockHeading(_, _, _, _, _, _) => RoamBlockHeading
      case BlockContent(_, _, _, _, _) => RoamBlockContent
      case File(_, _, _, _) => RoamFile
    }

    /** `isinstance(v, RoamNode)` */
    predicate IsNode()
    {
      !File?
    }
  }

  /**
   * The `RoamNode` constructors called with their default arguments, `children=[]` and
   * `references=[]`: empty lists, which are not `None`.
   */
  function NewPage(uid: Uid, mediaType: MediaType, title: string): (v: Vertex)
    ensures v.Page? && v.VertexType() == RoamPage
    ensures v.children == Some([]) && v.references == Some([])
  {
    Page(uid, mediaType, title, Some([]), Some([]))
  }

  function NewBlockContent(uid: Uid, mediaType: MediaType, content: string): (v: Vertex)
    ensures v.BlockContent? && v.VertexType() == RoamBlockContent
    ensures v.children == Some([]) && v.references == Some([])
  {
    BlockContent(uid, mediaType, content, Some([]), Some([]))
  }

  /** `VertexMap`: an `OrderedDict` from uid to vertex, in dump order. */
  type Graph = OMap<Uid, Vertex>

  /** The two kinds of link amongst `RoamNode`s. */
  datatype LinkName = Children | References

  /**
   * `has_attribute_value(v, link)`: the attribute exists on the vertex (a `RoamNode`) and is not
   * `None`; an empty list counts.
   */
  predicate HasLink(v: Vertex, link: LinkName)
  {
    v.IsNode() && (if link == Children then v.children.Some? else v.references.Some?)
  }

  /** `getattr(node, link)` on a `RoamNode`; a `File` has no such attribute. */
  function LinkValue(v: Vertex, link: LinkName): Option<seq<Uid>>
  {
    if v.File? then None
    else if link == Children then v.children
    else v.references
  }

  /** The uids a vertex contributes under `link`: none for a `File` or an absent list. */
  function LinksOf(v: Vertex, link: LinkName): seq<Uid>
  {
    OrEmpty(LinkValue(v, link))
  }

  /** `_accumulate_linked_uids(link, acc, v)`: one step of the `reduce`. */
  function AccumulateLinkedUids(link: LinkName, acc: seq<Uid>, v: Vertex): (r: seq<Uid>)
    ensures r == acc + LinksOf(v, link)
  {
    if !v.IsNode() then acc
    else
      match LinkValue(v, link)
      case None => acc
      case Some(linked) => if linked == [] then acc else acc + linked
  }

  /** `reduce(accumulate, vs, acc)`: a left fold. */
  function FoldLinkedUids(link: LinkName, acc: seq<Uid>, vs: seq<Vertex>): seq<Uid>
    decreases |vs|
  {
    if vs == [] then acc else FoldLinkedUids(link, AccumulateLinkedUids(link, acc, vs[0]), vs[1..])
  }

  /** The reference reading: every vertex's links, concatenated in order. */
  function ConcatLinks(link: LinkName, vs: seq<Vertex>): seq<Uid>
  {
    if vs == [] then [] else LinksOf(vs[0], link) + ConcatLinks(link, vs[1..])
  }

  lemma {:induction false} FoldIsConcat(link: LinkName, acc: seq<Uid>, vs: seq<Vertex>)
    ensures FoldLinkedUids(link, acc, vs) == acc + ConcatLinks(link, vs)
    decreases |vs|
  {
    if vs != [] {
      FoldIsConcat(link, acc + LinksOf(vs[0], link), vs[1..]);
      assert acc + LinksOf(vs[0], link) + ConcatLinks(link, vs[1..])
          == acc + (LinksOf(vs[0], link) + ConcatLinks(link, vs[1..]));
    }
  }

  lemma {:induction false} ConcatLinksMembership(link: LinkName, vs: seq<Vertex>, u: Uid)
    ensures u in ConcatLinks(link, vs) <==> exists v :: v in vs && u in LinksOf(v, link)
  {
    if vs != [] {
      ConcatLinksMembership(link, vs[1..], u);
      assert forall v :: v in vs <==> v == vs[0] || v in vs[1..];
    }
  }

  lemma ConcatLinksMembershipAll(link: LinkName, vs: seq<Vertex>)
    ensures forall u :: u in ConcatLinks(link, vs) <==> exists v :: v in vs && u in LinksOf(v, link)
  {
    forall u {
      ConcatLinksMembership(link, vs, u);
    }
  }

  lemma {:induction false} ConcatLinksEmpty(link: LinkName, vs: seq<Vertex>)
    ensures ConcatLinks(link, vs) == [] <==> forall v :: v in vs ==> LinksOf(v, link) == []
  {
    if vs != [] {
      ConcatLinksEmpty(link, vs[1..]);
      assert forall v :: v in vs <==> v == vs[0] || v in vs[1..];
    }
  }

  /**
   * `all_linked_uids(link, graph)`: the `link` lists of all `RoamNode`s concatenated in graph order,
   * duplicates kept, `File`s and `None`/empty lists contributing nothing; `[]` for an empty graph.
   */
  function AllLinkedUids(link: LinkName, g: Graph): (r: seq<Uid>)
    ensures r == ConcatLinks(link, Values(g))
    ensures forall u :: u in r <==> exists v :: v in Values(g) && u in LinksOf(v, link)
    ensures r == [] <==> forall v :: v in Values(g) ==> LinksOf(v, link) == []
  {
    ConcatLinksMembershipAll(link, Values(g));
    ConcatLinksEmpty(link, Values(g));
    if |g.keys| == 0 then []
    else
      FoldIsConcat(link, [], Values(g));
      FoldLinkedUids(link, [], Values(g))
  }

}

=== FILE: text.dfy ===
/**
 * The Python `str` operations the publisher relies on: `isspace`, `strip`, `startswith`,
 * `in` (substring), `sep.join(parts)`, `c * n` and `f"{n}"` for an `int`.
 */
module Text {

  /**
   * Python's notion of whitespace (`str.isspace`, and `\s` in a `str` regular expression):
   * the ASCII controls TAB..CR and FS..US, SPACE, NEL, NBSP and the Unicode space separators.
   */
  predicate IsSpace(c: char)
  {
    || ('\t' <= c <= '\r')
    || ('\U{1C}' <= c <= '\U{1F}')
    || c == ' '
    || c == '\U{85}'
    || c == '\U{A0}'
    || c == '\U{1680}'
    || ('\U{2000}' <= c <= '\U{200A}')
    || c == '\U{2028}'
    || c == '\U{2029}'
    || c == '\U{202F}'
    || c == '\U{205F}'
    || c == '\U{3000}'
  }

  predicate AllSpace(s: string)
  {
    forall i :: 0 <= i < |s| ==> IsSpace(s[i])
  }

  /** `s.lstrip()` */
  function StripLeft(s: string): (r: string)
    ensures |r| <= |s| && r == s[|s| - |r|..]
    ensures AllSpace(s[..|s| - |r|])
    ensures r == [] || !IsSpace(r[0])
  {
    if s == [] || !IsSpace(s[0]) then s else StripLeft(s[1..])
  }

  /** `s.rstrip()` */
  function StripRight(s: string): (r: string)
    ensures |r| <= |s| && r == s[..|r|]
    ensures AllSpace(s[|r|..])
    ensures r == [] || !IsSpace(r[|r| - 1])
  {
    if s == [] || !IsSpace(s[|s| - 1]) then s else StripRight(s[..|s| - 1])
  }

  /** `s.strip()`: the slice of `s` left after removing leading and trailing whitespace. */
  function Strip(s: string): (r: string)
    ensures exists i, j :: 0 <= i <= j <= |s| && r == s[i..j] && AllSpace(s[..i]) && AllSpace(s[j..])
    ensures r == [] || (!IsSpace(r[0]) && !IsSpace(r[|r| - 1]))
  {
    var l := StripLeft(s);
    var r := StripRight(l);
    TrimmedSlice(s, l, r);
    r
  }

  /** A prefix `r` of a suffix `l` of `s`, with only whitespace cut off, is such a slice of `s`. */
  lemma TrimmedSlice(s: string, l: string, r: string)
    requires |l| <= |s| && l == s[|s| - |l|..] && AllSpace(s[..|s| - |l|])
    requires |r| <= |l| && r == l[..|r|] && AllSpace(l[|r|..])
    ensures exists i, j :: 0 <= i <= j <= |s| && r == s[i..j] && AllSpace(s[..i]) && AllSpace(s[j..])
  {
    var i := |s| - |l|;
    var j := i + |r|;
    assert s[j..] == l[|r|..];
    assert r == s[i..j];
  }

  /** Leading whitespace does not change `lstrip()`. */
  lemma {:induction false} StripLeftSkipsSpace(w: string, s: string)
    requires AllSpace(w)
    ensures StripLeft(w + s) == StripLeft(s)
  {
    if w != [] {
      assert IsSpace((w + s)[0]);
      assert (w + s)[1..] == w[1..] + s;
      StripLeftSkipsSpace(w[1..], s);
      assert StripLeft(w + s) == StripLeft((w + s)[1..]);
    } else {
      assert w + s == s;
    }
  }

  /** A string with no whitespace at either end is its own `strip()`. */
  lemma StripOfStripped(s: string)
    requires s == [] || (!IsSpace(s[0]) && !IsSpace(s[|s| - 1]))
    ensures Strip(s) == s
  {
  }

  /** Text framed by a visible first and a visible last character is its own `strip()`. */
  lemma StripOfFramed(a: string, m: string, u: string)
    requires a != [] && !IsSpace(a[0])
    requires u != [] && !IsSpace(u[|u| - 1])
    ensures Strip(a + m + u) == a + m + u
  {
    var c := a + m + u;
    assert c[0] == a[0] && c[|c| - 1] == u[|u| - 1];
    StripOfStripped(c);
  }

  /** `s.startswith(p)` */
  predicate StartsWith(s: string, p: string)
  {
    |p| <= |s| && s[..|p|] == p
  }

  /** A prefix of `a` is a prefix of every extension of `a`. */
  lemma StartsWithAppend(a: string, b: string, p: string)
    requires StartsWith(a, p)
    ensures StartsWith(a + b, p)
  {
    assert (a + b)[..|p|] == a[..|p|];
  }

  /** `rstrip()` keeps a prefix that ends in a visible character, and adds none. */
  lemma StripRightKeepsPrefix(s: string, p: string)
    requires p != [] && !IsSpace(p[|p| - 1])
    ensures StartsWith(StripRight(s), p) <==> StartsWith(s, p)
  {
    var r := StripRight(s);
    if StartsWith(s, p) {
      assert s[|p| - 1] == p[|p| - 1];
      assert r[..|p|] == s[..|p|];
    }
    if StartsWith(r, p) {
      assert s[..|p|] == r[..|p|];
    }
  }

  /** `p in s` for two strings: `p` occurs as a contiguous substring of `s`. */
  predicate Contains(s: string, p: string)
  {
    exists i | 0 <= i <= |s| - |p| :: OccursAt(s, p, i)
  }

  /** `p` occurs in `s` starting at index `i`. */
  predicate OccursAt(s: string, p: string, i: int)
  {
    0 <= i && i + |p| <= |s| && s[i..i + |p|] == p
  }

  lemma ContainsMiddle(a: string, p: string, b: string)
    ensures Contains(a + p + b, p)
  {
    var s := a + p + b;
    assert OccursAt(s, p, |a|);
  }

  /** Concatenation regrouped; stated on variables so that literals never enter the proof. */
  lemma AppendAssoc(a: string, b: string, c: string)
    ensures a + (b + c) == a + b + c
  {
  }

  /** A string contains whatever its part contains. */
  lemma ContainsTransitive(s: string, part: string, p: string)
    requires Contains(s, part) && Contains(part, p)
    ensures Contains(s, p)
  {
    var i :| 0 <= i <= |s| - |part| && OccursAt(s, part, i);
    var j :| 0 <= j <= |part| - |p| && OccursAt(part, p, j);
    forall k | 0 <= k < |p|
      ensures s[i + j + k] == p[k]
    {
      assert part[j + k] == p[k];
      assert s[i..i + |part|][j + k] == s[i + j + k];
    }
    assert s[i + j..i + j + |p|] == p;
    assert OccursAt(s, p, i + j);
  }

  /** Each hole of a template `a x b y c` is contained in the filled-in text. */
  lemma ContainsHoles2(a: string, x: string, b: string, y: string, c: string)
    ensures Contains(a + x + b + y + c, x) && Contains(a + x + b + y + c, y)
  {
    assert a + x + b + y + c == a + x + (b + y + c);
    ContainsMiddle(a, x, b + y + c);
    ContainsMiddle(a + x + b, y, c);
  }

  /** Each hole of a template `a x b y c z d` is contained in the filled-in text. */
  lemma ContainsHoles3(a: string, x: string, b: string, y: string, c: string, z: string, d: string)
    ensures var s := a + x + b + y + c + z + d; Contains(s, x) && Contains(s, y) && Contains(s, z)
  {
    assert a + x + b + y + c + z + d == a + x + (b + y + c + z + d);
    ContainsMiddle(a, x, b + y + c + z + d);
    assert a + x + b + y + c + z + d == a + x + b + y + (c + z + d);
    ContainsMiddle(a + x + b, y, c + z + d);
    ContainsMiddle(a + x + b + y + c, z, d);
  }

  /** A string that lacks one of `p`'s characters cannot contain `p`. */
  lemma NotContainsMissingChar(s: string, p: string, c: char)
    requires c in p && c !in s
    ensures !Contains(s, p)
  {
    var k :| 0 <= k < |p| && p[k] == c;
    forall i | 0 <= i <= |s| - |p|
      ensures !OccursAt(s, p, i)
    {
      assert s[i..i + |p|][k] == s[i + k];
    }
  }

  /** `sep.join(parts)` */
  function Join(sep: string, parts: seq<string>): string
  {
    if |parts| == 0 then ""
    else if |parts| == 1 then parts[0]
    else parts[0] + sep + Join(sep, parts[1..])
  }

  /** Joining two non-empty lists is joining their joins: the law that flattens nested joins. */
  lemma {:induction false} JoinAppend(sep: string, xs: seq<string>, ys: seq<string>)
    requires |xs| > 0 && |ys| > 0
    ensures Join(sep, xs + ys) == Join(sep, xs) + sep + Join(sep, ys)
  {
    if |xs| == 1 {
      assert (xs + ys)[1..] == ys;
    } else {
      assert (xs + ys)[1..] == xs[1..] + ys;
      JoinAppend(sep, xs[1..], ys);
    }
  }

  /** Python's `c * n`: `n` copies of `c`, and the empty string when `n <= 0`. */
  function Repeat(c: char, n: int): (r: string)
    ensures |r| == (if n <= 0 then 0 else n)
    ensures forall i :: 0 <= i < |r| ==> r[i] == c
  {
    if n <= 0 then "" else [c] + Repeat(c, n - 1)
  }

  function DigitChar(d: nat): char
    requires d < 10
  {
    "0123456789"[d]
  }

  function DigitValue(c: char): nat
  {
    if '0' <= c <= '9' then (c as int - '0' as int) as nat else 0
  }

  predicate IsDigit(c: char)
  {
    '0' <= c <= '9'
  }

  /** The decimal value of a string of digits (reading left to right). */
  function DecimalValue(s: string): nat
  {
    if s == [] then 0 else DecimalValue(s[..|s| - 1]) * 10 + DigitValue(s[|s| - 1])
  }

  /** `f"{n}"` for `n >= 0`: digits without leading zeros. */
  function NatToString(n: nat): (r: string)
    ensures |r| > 0 && forall i :: 0 <= i < |r| ==> IsDigit(r[i])
    ensures |r| > 1 ==> r[0] != '0'
    ensures r[0] == '0' <==> n == 0
    ensures DecimalValue(r) == n
  {
    if n < 10 then
      assert DigitValue(DigitChar(n)) == n;
      [DigitChar(n)]
    else
      var r := NatToString(n / 10) + [DigitChar(n % 10)];
      assert r[..|r| - 1] == NatToString(n / 10);
      assert DigitValue(DigitChar(n % 10)) == n % 10;
      r
  }

  /** `f"{n}"` for any Python `int`. */
  function IntToString(n: int): (r: string)
    ensures |r| > 0
    ensures n >= 0 ==> DecimalValue(r) == n && r[0] != '-'
    ensures n < 0 ==> |r| > 1 && r[0] == '-' && DecimalValue(r[1..]) == -n
    ensures forall i :: (if n < 0 then 1 else 0) <= i < |r| ==> IsDigit(r[i])
    ensures n >= 0 && |r| > 1 ==> r[0] != '0'
    ensures n < 0 ==> r[1] != '0'
  {
    if n >= 0 then NatToString(n) else "-" + NatToString(-n)
  }
}

=== FILE: tokenize.dfy ===
/**
 * The tokenize walker: a depth-first flattening of a page and its descendants into one stream of
 * markdown-it tokens. Pages and heading blocks get a synthesized three-token heading; content
 * blocks are handed to a CommonMark parser, which the model takes as a parameter.
 */
module Tokenize {
  import opened Wrappers
  import opened Text
  import opened RoamModel
  import opened Walk
  import Export

  /** markdown-it's `Token`, with the fields the walker sets (`type` is a keyword here). */
  datatype Token = Token(
    tokenType: string,
    content: string,
    tag: string,
    nesting: int,
    level: int,
    markup: string,
    block: bool,
    children: seq<Token>)

  /** The CommonMark parser `tokenize_block_content_node` delegates to, seen as a function. */
  type Parser = string -> seq<Token>

  /** The sum of the `nesting` fields: zero when every opening token is closed. */
  function NestingSum(ts: seq<Token>): int
  {
    if ts == [] then 0 else ts[0].nesting + NestingSum(ts[1..])
  }

  /** The one `text` token an inline token of a synthesized heading holds. */
  function TextToken(content: string): Token
  {
    Token("text", content, "", 0, 0, "", false, [])
  }

  /**
   * The shape of a synthesized heading, field by field: an opening token (nesting 1, level 0), an
   * inline token one level down holding the text, and a closing token (nesting -1, level 0). All
   * three are block tokens with empty content; only the inline one has children.
   */
  predicate IsHeadingTriple(r: seq<Token>, tag: string, markup: string, text: string)
  {
    && |r| == 3
    && r[0].tokenType == "heading_open" && r[1].tokenType == "inline" && r[2].tokenType == "heading_close"
    && r[0].nesting == 1 && r[1].nesting == 0 && r[2].nesting == -1
    && r[0].level == 0 && r[1].level == 1 && r[2].level == 0
    && (forall i :: 0 <= i < 3 ==> r[i].block && r[i].content == "")
    && r[0].tag == tag && r[1].tag == "" && r[2].tag == tag
    && r[0].markup == markup && r[1].markup == "" && r[2].markup == markup
    && r[0].children == [] && r[1].children == [TextToken(text)] && r[2].children == []
  }

  /** The nesting sums of a one-, two- and three-token list. */
  lemma NestingSumOfThree(a: Token, b: Token, c: Token)
    ensures NestingSum([a]) == a.nesting
    ensures NestingSum([a, b]) == a.nesting + b.nesting
    ensures NestingSum([a, b, c]) == a.nesting + b.nesting + c.nesting
  {
    assert NestingSum([a]) == a.nesting by {
      assert [a][1..] == [];
    }
    assert NestingSum([c]) == c.nesting by {
      assert [c][1..] == [];
    }
    assert NestingSum([b]) == b.nesting by {
      assert [b][1..] == [];
    }
    assert NestingSum([a, b]) == a.nesting + NestingSum([b]) by {
      assert [a, b][1..] == [b];
    }
    assert NestingSum([b, c]) == b.nesting + NestingSum([c]) by {
      assert [b, c][1..] == [c];
    }
    assert NestingSum([a, b, c]) == a.nesting + NestingSum([b, c]) by {
      assert [a, b, c][1..] == [b, c];
    }
  }

  /**
   * Three tokens nesting 1, 0, -1, as every heading triple has, are well nested: open after the
   * first and second token and closed at the end.
   */
  lemma HeadingTripleNested(r: seq<Token>)
    requires |r| == 3 && r[0].nesting == 1 && r[1].nesting == 0 && r[2].nesting == -1
    ensures NestingSum(r) == 0
    ensures forall k :: 0 < k < |r| ==> NestingSum(r[..k]) > 0
  {
    NestingSumOfThree(r[0], r[1], r[2]);
    assert r == [r[0], r[1], r[2]];
    forall k | 0 < k < |r|
      ensures NestingSum(r[..k]) > 0
    {
      if k == 1 {
        assert r[..k] == [r[0]];
      } else {
        assert r[..k] == [r[0], r[1]];
      }
    }
  }

  /** A synthesized heading: `heading_open`, an `inline` holding the text, `heading_close`. */
  function HeadingTokens(tag: string, markup: string, content: string): (r: seq<Token>)
    ensures IsHeadingTriple(r, tag, markup, content)
    ensures |r| == 3 && NestingSum(r) == 0
    ensures forall i :: 0 <= i < 3 ==> r[i].block
    ensures r[0].tokenType == "heading_open" && r[2].tokenType == "heading_close"
    ensures r[0].tag == r[2].tag == tag && r[0].markup == r[2].markup == markup
    ensures r[1].tokenType == "inline" && r[1].children == [TextToken(content)]
  {
    var r := [
      Token("heading_open", "", tag, 1, 0, markup, true, []),
      Token("inline", "", "", 0, 1, "", true, [TextToken(content)]),
      Token("heading_close", "", tag, -1, 0, markup, true, [])
    ];
    assert NestingSum(r[2..]) == -1;
    r
  }

  /** `tokenize_page_node(node)`: a level-1 heading holding the stripped title. */
  function TokenizePageNode(v: Vertex): (r: seq<Token>)
    requires v.Page?
    ensures IsHeadingTriple(r, "h1", "#", Strip(v.title))
    ensures |r| == 3 && NestingSum(r) == 0
    ensures r[0].tag == r[2].tag == "h1" && r[0].markup == r[2].markup == "#"
    ensures r[1].children == [TextToken(Strip(v.title))]
  {
    HeadingTokens("h1", "#", Strip(v.title))
  }

  /** `tokenize_block_heading_node(node)`: a heading of the block's level holding the stripped heading. */
  function TokenizeBlockHeadingNode(v: Vertex): (r: seq<Token>)
    requires v.BlockHeading?
    ensures IsHeadingTriple(r, "h" + IntToString(v.level), Export.HeadingMarkup(v.level), Strip(v.heading))
    ensures |r| == 3 && NestingSum(r) == 0
    ensures r[0].tag == r[2].tag == "h" + IntToString(v.level)
    ensures r[0].markup == r[2].markup == Export.HeadingMarkup(v.level)
    ensures r[1].children == [TextToken(Strip(v.heading))]
  {
    HeadingTokens("h" + IntToString(v.level), Export.HeadingMarkup(v.level), Strip(v.heading))
  }

  /** `tokenize_block_content_node(node)`: the parser's tokens for the content, unstripped. */
  function TokenizeBlockContentNode(v: Vertex, parse: Parser): (r: seq<Token>)
    requires v.BlockContent?
    ensures r == parse(v.content)
  {
    parse(v.content)
  }

  /** The `match node.vertex_type` of `tokenize_node`: a node's own tokens. */
  function NodeTokens(v: Vertex, parse: Parser): seq<Token>
    requires !v.File?
  {
    match v.VertexType()
    case RoamPage => TokenizePageNode(v)
    case RoamBlockHeading => TokenizeBlockHeadingNode(v)
    case RoamBlockContent => TokenizeBlockContentNode(v, parse)
  }

  // ---------------------------------------------------------------------------------------------
  // Flattening

  /** `reduce(lambda accum, iter_val: accum + iter_val, lists, acc)`: a left fold. */
  function Reduce(acc: seq<Token>, lists: seq<seq<Token>>): seq<Token>
    decreases |lists|
  {
    if lists == [] then acc else Reduce(acc + lists[0], lists[1..])
  }

  /** The reference reading: the lists concatenated in order. */
  function Concat(lists: seq<seq<Token>>): seq<Token>
  {
    if lists == [] then [] else lists[0] + Concat(lists[1..])
  }

  lemma {:induction false} ReduceIsConcat(acc: seq<Token>, lists: seq<seq<Token>>)
    ensures Reduce(acc, lists) == acc + Concat(lists)
    decreases |lists|
  {
    if lists != [] {
      ReduceIsConcat(acc + lists[0], lists[1..]);
      assert acc + lists[0] + Concat(lists[1..]) == acc + (lists[0] + Concat(lists[1..]));
    }
  }

  lemma {:induction false} ConcatAppend(xs: seq<seq<Token>>, ys: seq<seq<Token>>)
    ensures Concat(xs + ys) == Concat(xs) + Concat(ys)
  {
    if xs == [] {
      assert xs + ys == ys;
    } else {
      assert (xs + ys)[1..] == xs[1..] + ys;
      ConcatAppend(xs[1..], ys);
    }
  }

  // ---------------------------------------------------------------------------------------------
  // The walker

  /**
   * `tokenize_node(node, graph)`: the node's own tokens, followed by its children's tokens in child
   * order, flattened. A `File` is not a `RoamNode` and raises `TypeError`.
   */
  function TokenizeNode(v: Vertex, g: Graph, parse: Parser, fuel: nat): (r: Result<seq<Token>, WalkError>)
    ensures v.File? ==> r == Err(TypeError(v.uid))
    ensures !v.File? && ChildUids(v) == [] ==> r == Ok(NodeTokens(v, parse))
    ensures !v.File? && ChildUids(v) != [] && fuel == 0 ==> r == Err(DepthExceeded)
    ensures r.Ok? ==> StartsWithTokens(r.value, NodeTokens(v, parse))
    decreases fuel, 1
  {
    if v.File? then Err(TypeError(v.uid))
    else
      var own := NodeTokens(v, parse);
      if ChildUids(v) == [] then Ok(own)
      else if fuel == 0 then Err(DepthExceeded)
      else
        match TokenizeChildren(ChildUids(v), g, parse, fuel - 1)
        case Err(e) => Err(e)
        case Ok(lists) =>
          var flat := Reduce([], lists);
          Ok(if flat == [] then own else own + flat)
  }

  /** `own` is a prefix of `ts`. */
  predicate StartsWithTokens(ts: seq<Token>, own: seq<Token>)
  {
    |own| <= |ts| && ts[..|own|] == own
  }

  /** `tokenize_node(graph[c], graph)` for one child uid: `KeyError` when `c` is not in the graph. */
  function TokenizeChild(c: Uid, g: Graph, parse: Parser, fuel: nat): Result<seq<Token>, WalkError>
    decreases fuel, 2, 0
  {
    if c !in g.entries then Err(KeyError(c)) else TokenizeNode(g.entries[c], g, parse, fuel)
  }

  /** The list `children_tokens`: one token list per child in order, or the first exception. */
  function TokenizeChildren(cs: seq<Uid>, g: Graph, parse: Parser, fuel: nat): (r: Result<seq<seq<Token>>, WalkError>)
    ensures r.Ok? ==> |r.value| == |cs|
    decreases fuel, 2, |cs| + 1
  {
    if cs == [] then Ok([])
    else
      match TokenizeChild(cs[0], g, parse, fuel)
      case Err(e) => Err(e)
      case Ok(ts) =>
        match TokenizeChildren(cs[1..], g, parse, fuel)
        case Err(e) => Err(e)
        case Ok(rest) => Ok([ts] + rest)
  }

  // ---------------------------------------------------------------------------------------------
  // The token stream is the pre-order of the tree, each node's own tokens concatenated

  /** The own tokens of a list of nodes. */
  function TokenLists(vs: seq<Vertex>, parse: Parser): (r: seq<seq<Token>>)
    requires AllNodes(vs)
    ensures |r| == |vs| && forall i :: 0 <= i < |vs| ==> r[i] == NodeTokens(vs[i], parse)
  {
    seq(|vs|, i requires 0 <= i < |vs| => NodeTokens(vs[i], parse))
  }

  lemma TokenListsAppend(xs: seq<Vertex>, ys: seq<Vertex>, parse: Parser)
    requires AllNodes(xs) && AllNodes(ys)
    ensures AllNodes(xs + ys)
    ensures TokenLists(xs + ys, parse) == TokenLists(xs, parse) + TokenLists(ys, parse)
  {
    assert forall i :: 0 <= i < |xs| ==> (xs + ys)[i] == xs[i];
    assert forall i :: |xs| <= i < |xs + ys| ==> (xs + ys)[i] == ys[i - |xs|];
  }

  /**
   * The token stream fails exactly where the pre-order walk fails, with the same exception, and is
   * otherwise the own tokens of the pre-order's nodes, concatenated in order.
   */
  lemma {:induction false} TokenizeIsPreorderTokens(v: Vertex, g: Graph, parse: Parser, fuel: nat)
    ensures SameOutcome(TokenizeNode(v, g, parse, fuel), Preorder(v, g, fuel))
    ensures TokenizeNode(v, g, parse, fuel).Ok? ==>
      TokenizeNode(v, g, parse, fuel).value == Concat(TokenLists(Preorder(v, g, fuel).value, parse))
    decreases fuel, 1
  {
    var cs := ChildUids(v);
    if v.File? {
      assert Preorder(v, g, fuel) == Err(TypeError(v.uid));
    } else if cs == [] {
      assert TokenLists([v], parse) == [NodeTokens(v, parse)];
      assert Concat([NodeTokens(v, parse)])  == NodeTokens(v, parse) + [];
    } else if fuel == 0 {
      assert Preorder(v, g, fuel) == Err(DepthExceeded);
    } else {
      var f := fuel - 1;
      TokenizeChildrenIsPreorderTokens(cs, g, parse, f);
      var t, p := TokenizeChildren(cs, g, parse, f), PreorderChildren(cs, g, f);
      TokenizeNodeUnfold(v, g, parse, fuel);
      PreorderUnfold(v, g, fuel);
      NodeStepIsPreorderTokens(v, t, p, parse);
    }
  }

  lemma TokenizeNodeUnfold(v: Vertex, g: Graph, parse: Parser, fuel: nat)
    requires !v.File? && ChildUids(v) != [] && fuel > 0
    ensures TokenizeNode(v, g, parse, fuel) == OwnThenLists(v, parse, TokenizeChildren(ChildUids(v), g, parse, fuel - 1))
  {
  }

  lemma PreorderUnfold(v: Vertex, g: Graph, fuel: nat)
    requires !v.File? && ChildUids(v) != [] && fuel > 0
    ensures Preorder(v, g, fuel) == NodeThenBelow(v, PreorderChildren(ChildUids(v), g, fuel - 1))
  {
  }

  /** What `tokenize_node` makes of its children's token lists. */
  function OwnThenLists(v: Vertex, parse: Parser, t: Result<seq<seq<Token>>, WalkError>): Result<seq<Token>, WalkError>
    requires !v.File?
  {
    match t
    case Err(e) => Err(e)
    case Ok(lists) =>
      var own, flat := NodeTokens(v, parse), Reduce([], lists);
      Ok(if flat == [] then own else own + flat)
  }

  /** What the pre-order walk makes of its children's walks. */
  function NodeThenBelow(v: Vertex, p: Result<seq<Vertex>, WalkError>): Result<seq<Vertex>, WalkError>
  {
    match p
    case Err(e) => Err(e)
    case Ok(vs) => Ok([v] + vs)
  }

  /** One node: children that tokenize as their pre-order does make the node tokenize as its pre-order. */
  lemma NodeStepIsPreorderTokens(v: Vertex, t: Result<seq<seq<Token>>, WalkError>, p: Result<seq<Vertex>, WalkError>,
                                 parse: Parser)
    requires !v.File? && (p.Ok? ==> AllNodes(p.value))
    requires SameOutcome(t, p) && (t.Ok? ==> Concat(t.value) == Concat(TokenLists(p.value, parse)))
    ensures SameOutcome(OwnThenLists(v, parse, t), NodeThenBelow(v, p))
    ensures OwnThenLists(v, parse, t).Ok? ==>
      OwnThenLists(v, parse, t).value == Concat(TokenLists(NodeThenBelow(v, p).value, parse))
  {
    if t.Ok? {
      OwnThenChildren(v, t.value, p.value, parse);
    }
  }

  /** A node's own tokens followed by its children's, flattened, are the tokens of its pre-order. */
  lemma OwnThenChildren(v: Vertex, lists: seq<seq<Token>>, below: seq<Vertex>, parse: Parser)
    requires !v.File? && AllNodes(below)
    requires Concat(lists) == Concat(TokenLists(below, parse))
    ensures AllNodes([v] + below)
    ensures var own, flat := NodeTokens(v, parse), Reduce([], lists);
      (if flat == [] then own else own + flat) == Concat(TokenLists([v] + below, parse))
  {
    var own := NodeTokens(v, parse);
    assert AllNodes([v] + below) && TokenLists([v] + below, parse) == [own] + TokenLists(below, parse) by {
      TokenListsAppend([v], below, parse);
      assert TokenLists([v], parse) == [own];
    }
    OwnThenFlat(own, lists, TokenLists(below, parse));
  }

  /** Prepending one list to lists that flatten alike: what `tokenize_node` builds, and `Concat` reads. */
  lemma OwnThenFlat(own: seq<Token>, lists: seq<seq<Token>>, rest: seq<seq<Token>>)
    requires Concat(lists) == Concat(rest)
    ensures var flat := Reduce([], lists); (if flat == [] then own else own + flat) == Concat([own] + rest)
  {
    ReduceIsConcat([], lists);
    assert [] + Concat(lists) == Concat(lists);
    ConcatAppend([own], rest);
    assert Concat([own]) == own + [];
  }

  /** The same for a list of children: their token lists, concatenated, are their pre-orders' tokens. */
  lemma {:induction false} TokenizeChildrenIsPreorderTokens(cs: seq<Uid>, g: Graph, parse: Parser, fuel: nat)
    ensures SameOutcome(TokenizeChildren(cs, g, parse, fuel), PreorderChildren(cs, g, fuel))
    ensures TokenizeChildren(cs, g, parse, fuel).Ok? ==>
      Concat(TokenizeChildren(cs, g, parse, fuel).value) ==
      Concat(TokenLists(PreorderChildren(cs, g, fuel).value, parse))
    decreases fuel, 2, |cs|
  {
    if cs == [] {
      assert TokenLists([], parse) == [];
    } else if cs[0] in g.entries {
      var v := g.entries[cs[0]];
      TokenizeIsPreorderTokens(v, g, parse, fuel);
      TokenizeChildrenIsPreorderTokens(cs[1..], g, parse, fuel);
      var h, t := TokenizeNode(v, g, parse, fuel), TokenizeChildren(cs[1..], g, parse, fuel);
      var ph, pt := Preorder(v, g, fuel), PreorderChildren(cs[1..], g, fuel);
      assert TokenizeChildren(cs, g, parse, fuel) ==
        if h.Err? then Err(h.error) else if t.Err? then Err(t.error) else Ok([h.value] + t.value);
      assert PreorderChildren(cs, g, fuel) ==
        if ph.Err? then Err(ph.error) else if pt.Err? then Err(pt.error) else Ok(ph.value + pt.value);
      if h.Ok? && t.Ok? {
        assert ([h.value] + t.value)[1..] == t.value;
        TokenListsAppend(ph.value, pt.value, parse);
        ConcatAppend(TokenLists(ph.value, parse), TokenLists(pt.value, parse));
      }
    }
  }

  /** Both walkers raise the same exception on the same tree, or both succeed. */
  lemma TokenizeAndExportAgreeOnErrors(v: Vertex, g: Graph, parse: Parser, fuel: nat)
    ensures SameOutcome(TokenizeNode(v, g, parse, fuel), Export.ExportNode(v, g, fuel))
  {
    TokenizeIsPreorderTokens(v, g, parse, fuel);
    Export.ExportIsJoinedPreorder(v, g, fuel);
  }

  /** The page case of `HeadingTokensCarryExportText`. */
  lemma PageTokensCarryExportText(v: Vertex)
    requires v.Page?
    ensures var r := TokenizePageNode(v);
      r[0].markup + " " + r[1].children[0].content == Export.OwnText(v)
  {
  }

  /** The heading-block case of `HeadingTokensCarryExportText`. */
  lemma BlockHeadingTokensCarryExportText(v: Vertex)
    requires v.BlockHeading?
    ensures var r := TokenizeBlockHeadingNode(v);
      r[0].markup + " " + r[1].children[0].content == Export.OwnText(v)
  {
  }

  /**
   * A synthesized heading carries the export's heading line: its markup, a space, and its text
   * child make up the text the export walker writes for the node.
   */
  lemma HeadingTokensCarryExportText(v: Vertex, parse: Parser)
    requires v.Page? || v.BlockHeading?
    ensures var r := NodeTokens(v, parse);
      r[0].markup + " " + r[1].children[0].content == Export.OwnText(v)
  {
    if v.Page? {
      PageTokensCarryExportText(v);
    } else {
      BlockHeadingTokensCarryExportText(v);
    }
  }
}

=== FILE: validation.dfy ===
/**
 * The ten graph invariants of a PageDump `VertexMap` and `validate`, which runs them in order and
 * collects their failures. A Python exception raised by a rule is a `Crash`; it aborts `validate`.
 */
module Validation {
  import opened Wrappers
  import opened OrderedMaps
  import opened Text
  import opened RoamModel

  datatype RuleName =
    | RootPageRule
    | ChildrenExistRule
    | ReferencesExistRule
    | BlockParentsExistRule
    | ChildrenVertexTypesRule
    | PageNodeChildrenRule
    | BlockHeadingChildrenRule
    | ChildrenAttributeAppearanceRule
    | ReferencesAttributeAppearanceRule
    | ReferencesAppearInContentRule

  /** The position of each rule in `ALL_RULES`. */
  function RuleIndex(n: RuleName): nat
  {
    match n
    case RootPageRule => 0
    case ChildrenExistRule => 1
    case ReferencesExistRule => 2
    case BlockParentsExistRule => 3
    case ChildrenVertexTypesRule => 4
    case PageNodeChildrenRule => 5
    case BlockHeadingChildrenRule => 6
    case ChildrenAttributeAppearanceRule => 7
    case ReferencesAttributeAppearanceRule => 8
    case ReferencesAppearInContentRule => 9
  }

  const AllRules: seq<RuleName> := [
    RootPageRule, ChildrenExistRule, ReferencesExistRule, BlockParentsExistRule,
    ChildrenVertexTypesRule, PageNodeChildrenRule, BlockHeadingChildrenRule,
    ChildrenAttributeAppearanceRule, ReferencesAttributeAppearanceRule, ReferencesAppearInContentRule
  ]

  /** What a failed rule found; the Python failure message renders exactly this data. */
  datatype Detail =
    | NotRootPage(first: Vertex)
    | DanglingUids(uids: seq<Uid>)
    | InvalidParentCounts(counts: seq<(Uid, nat)>)
    | InvalidChildVertices(vertices: seq<Vertex>)
    | InvalidChildUids(childUids: seq<Uid>)
    | InvalidCarriers(carriers: seq<Vertex>)
    | Danglers(danglers: OMap<Uid, seq<Uid>>)

  /** `ValidationFailure(rule, failure_message)` */
  datatype Failure = Failure(rule: RuleName, detail: Detail)

  /** An exception escaping a rule: `IndexError`, `KeyError` or `AttributeError`. */
  datatype Crash = IndexError | KeyError(uid: Uid) | AttributeError(uid: Uid)

  /** A rule's outcome: `Ok(None)` passes, `Ok(Some(f))` is the one-element failure list. */
  type RuleResult = Result<Option<Failure>, Crash>

  function Fail(rule: RuleName, detail: Detail): RuleResult
  {
    Ok(Some(Failure(rule, detail)))
  }

  // ---------------------------------------------------------------------------------------------
  // RootPageRule

  /** The first vertex of the graph is a page; an empty graph raises `IndexError`. */
  function ValidateRootPage(g: Graph): (r: RuleResult)
    ensures r.Err? <==> |g.keys| == 0
    ensures r.Err? ==> r.error == IndexError
    ensures r == Ok(None) <==> |g.keys| > 0 && Values(g)[0].Page?
    ensures r.Ok? && r.value.Some? ==> r.value.value == Failure(RootPageRule, NotRootPage(Values(g)[0]))
  {
    if |g.keys| == 0 then Err(IndexError)
    else
      var first := g.entries[g.keys[0]];
      if first.VertexType() == RoamPage then Ok(None)
      else Fail(RootPageRule, NotRootPage(first))
  }

  // ---------------------------------------------------------------------------------------------
  // ChildrenExistRule, ReferencesExistRule

  /** `[uid for uid in uids if uid not in graph]` */
  function Missing(uids: seq<Uid>, g: Graph): (r: seq<Uid>)
    ensures forall u :: u in r <==> u in uids && u !in g.entries
  {
    if uids == [] then []
    else (if uids[0] in g.entries then [] else [uids[0]]) + Missing(uids[1..], g)
  }

  /** A lone uid is kept iff it is not a key. */
  lemma MissingOne(u: Uid, g: Graph)
    ensures Missing([u], g) == if u in g.entries then [] else [u]
  {
    assert [u][1..] == [];
  }

  /** Filtering a concatenation keeps its pieces' dangling uids in list order, repeats included. */
  lemma {:induction false} MissingAppend(a: seq<Uid>, b: seq<Uid>, g: Graph)
    ensures Missing(a + b, g) == Missing(a, g) + Missing(b, g)
    decreases |a|
  {
    if a == [] {
      assert a + b == b;
    } else {
      var head := if a[0] in g.entries then [] else [a[0]];
      calc {
        Missing(a + b, g);
        { assert (a + b)[0] == a[0] && (a + b)[1..] == a[1..] + b; }
        head + Missing(a[1..] + b, g);
        { MissingAppend(a[1..], b, g); }
        head + (Missing(a[1..], g) + Missing(b, g));
        (head + Missing(a[1..], g)) + Missing(b, g);
      }
    }
  }

  /** Every uid listed under `link` by any vertex is a key of the graph; the dangling ones are reported. */
  function ValidateLinksExist(rule: RuleName, link: LinkName, g: Graph): (r: RuleResult)
    ensures r.Ok?
    ensures r == Ok(None) <==>
      forall v, u :: v in Values(g) && u in LinksOf(v, link) ==> u in g.entries
    ensures r.value.Some? ==>
      r.value.value.rule == rule && r.value.value.detail.DanglingUids? &&
      r.value.value.detail.uids != [] &&
      forall u :: u in r.value.value.detail.uids <==>
        u !in g.entries && exists v :: v in Values(g) && u in LinksOf(v, link)
    ensures r.value.Some? ==>
      r.value.value.detail.DanglingUids? && r.value.value.detail.uids == Missing(AllLinkedUids(link, g), g)
  {
    var dangling := Missing(AllLinkedUids(link, g), g);
    if dangling == [] then Ok(None)
    else
      assert dangling[0] in dangling;
      Fail(rule, DanglingUids(dangling))
  }

  // ---------------------------------------------------------------------------------------------
  // BlockParentsExistRule

  predicate IsBlock(v: Vertex)
  {
    v.VertexType() in {RoamBlockHeading, RoamBlockContent}
  }

  /** `[b.uid for b in graph.values() if b is a block]` */
  function BlockUids(vs: seq<Vertex>): (r: seq<Uid>)
    ensures forall u :: u in r <==> exists v :: v in vs && IsBlock(v) && v.uid == u
  {
    if vs == [] then []
    else
      assert forall v :: v in vs <==> v == vs[0] || v in vs[1..];
      (if IsBlock(vs[0]) then [vs[0].uid] else []) + BlockUids(vs[1..])
  }

  /** Number of occurrences of `x` in `s`: `Counter(s)[x]`. */
  function Count<T(==)>(s: seq<T>, x: T): (r: nat)
    ensures r > 0 <==> x in s
  {
    if s == [] then 0 else (if s[0] == x then 1 else 0) + Count(s[1..], x)
  }

  /** The position of the first `x` in `s`, or `|s|` when there is none. */
  function IndexOf<T(==)>(s: seq<T>, x: T): (r: nat)
    ensures r <= |s|
    ensures r < |s| <==> x in s
    ensures r < |s| ==> s[r] == x && x !in s[..r]
  {
    if s == [] then 0
    else if s[0] == x then 0
    else
      var i := IndexOf(s[1..], x);
      assert i < |s| - 1 ==> s[..i + 1] == [s[0]] + s[1..][..i];
      1 + i
  }

  /** Every element of `ks` occurs in `s`, and `ks` lists them in order of their first occurrence there. */
  predicate InFirstOccurrenceOrder<T(==)>(ks: seq<T>, s: seq<T>)
  {
    && (forall i :: 0 <= i < |ks| ==> ks[i] in s)
    && (forall i, j :: 0 <= i < j < |ks| ==> IndexOf(s, ks[i]) < IndexOf(s, ks[j]))
  }

  /** Listing by first occurrence never lists an element twice. */
  lemma FirstOccurrenceOrderDistinct<T>(ks: seq<T>, s: seq<T>)
    requires InFirstOccurrenceOrder(ks, s)
    ensures Distinct(ks)
  {
  }

  /** Appending to a sequence leaves the first positions of its elements where they were. */
  lemma {:induction false} IndexOfSnoc<T>(s: seq<T>, x: T)
    ensures forall y :: y in s ==> IndexOf(s + [x], y) == IndexOf(s, y)
    ensures x !in s ==> IndexOf(s + [x], x) == |s|
  {
    if s != [] {
      assert (s + [x])[0] == s[0] && (s + [x])[1..] == s[1..] + [x];
      IndexOfSnoc(s[1..], x);
      assert forall y :: y in s && y != s[0] ==> y in s[1..];
    }
  }

  /** The distinct elements of `s` in first-occurrence order: the key order of `Counter(s)`. */
  function Dedup<T(==,!new)>(s: seq<T>): (r: seq<T>)
    ensures forall x :: x in r <==> x in s
    ensures Distinct(r)
    ensures InFirstOccurrenceOrder(r, s)
  {
    if s == [] then []
    else
      var init, x := s[..|s| - 1], s[|s| - 1];
      var d := Dedup(init);
      assert s == init + [x];
      assert forall y :: y in s <==> y in init || y == x;
      IndexOfSnoc(init, x);
      if x in d then d else d + [x]
  }

  /** `{k: v for (k, v) in Counter(children).items() if k in blocks and v > 1}`, over the keys `ks`. */
  function OverParented(ks: seq<Uid>, children: seq<Uid>, blocks: seq<Uid>): (r: seq<(Uid, nat)>)
    ensures forall p :: p in r ==> p.0 in ks && p.0 in blocks && p.1 == Count(children, p.0) && p.1 > 1
    ensures forall u :: u in ks && u in blocks && Count(children, u) > 1 ==> (u, Count(children, u)) in r
  {
    if ks == [] then []
    else
      var k := ks[0];
      var c := Count(children, k);
      (if k in blocks && c > 1 then [(k, c)] else []) + OverParented(ks[1..], children, blocks)
  }

  /** A key placed before keys that first occur later keeps the list in first-occurrence order. */
  lemma PrependInOrder<T>(k: T, ks: seq<T>, s: seq<T>)
    requires k in s && InFirstOccurrenceOrder(ks, s)
    requires forall j :: 0 <= j < |ks| ==> IndexOf(s, k) < IndexOf(s, ks[j])
    ensures InFirstOccurrenceOrder([k] + ks, s)
  {
    var r := [k] + ks;
    assert forall i :: 0 < i < |r| ==> r[i] == ks[i - 1];
  }

  /** Every key of the over-parented list is one of the keys it is drawn from. */
  lemma OverParentedKeysDrawn(ks: seq<Uid>, children: seq<Uid>, blocks: seq<Uid>)
    ensures var keys := KeysOf(OverParented(ks, children, blocks));
      forall j :: 0 <= j < |keys| ==> keys[j] in ks
  {
    var r := OverParented(ks, children, blocks);
    forall j | 0 <= j < |r| ensures r[j].0 in ks {
      assert r[j] in r;
    }
  }

  /** Dropping the first key keeps a list in first-occurrence order, and that key came first. */
  lemma TailInOrder<T>(ks: seq<T>, s: seq<T>)
    requires ks != [] && InFirstOccurrenceOrder(ks, s)
    ensures InFirstOccurrenceOrder(ks[1..], s)
    ensures forall j :: 0 <= j < |ks[1..]| ==> IndexOf(s, ks[0]) < IndexOf(s, ks[1..][j])
  {
    assert forall j :: 0 <= j < |ks[1..]| ==> ks[1..][j] == ks[j + 1];
  }

  /** One step of `OverParented` on the keys: the first key is listed exactly when it is flagged. */
  lemma OverParentedStep(ks: seq<Uid>, children: seq<Uid>, blocks: seq<Uid>)
    requires ks != []
    ensures KeysOf(OverParented(ks, children, blocks)) ==
      (if ks[0] in blocks && Count(children, ks[0]) > 1 then [ks[0]] else []) + KeysOf(OverParented(ks[1..], children, blocks))
  {
    var rest := OverParented(ks[1..], children, blocks);
    var head := if ks[0] in blocks && Count(children, ks[0]) > 1 then [(ks[0], Count(children, ks[0]))] else [];
    assert OverParented(ks, children, blocks) == head + rest;
    KeysOfAppend(head, rest);
    assert KeysOf(head) == if head == [] then [] else [ks[0]];
  }

  /** The over-parented list keeps the order of the keys it is drawn from. */
  lemma {:induction false} OverParentedInOrder(ks: seq<Uid>, children: seq<Uid>, blocks: seq<Uid>)
    requires InFirstOccurrenceOrder(ks, children)
    ensures InFirstOccurrenceOrder(KeysOf(OverParented(ks, children, blocks)), children)
  {
    if ks != [] {
      var k, tail := ks[0], ks[1..];
      TailInOrder(ks, children);
      OverParentedInOrder(tail, children, blocks);
      OverParentedStep(ks, children, blocks);
      var keys := KeysOf(OverParented(tail, children, blocks));
      if k in blocks && Count(children, k) > 1 {
        OverParentedKeysDrawn(tail, children, blocks);
        forall j | 0 <= j < |keys|
          ensures IndexOf(children, k) < IndexOf(children, keys[j])
        {
          var b :| 0 <= b < |tail| && tail[b] == keys[j];
        }
        PrependInOrder(k, keys, children);
      } else {
        assert [] + keys == keys;
      }
    }
  }

  /** Only the blocks listed more than once make the over-parented list non-empty. */
  lemma OverParentedEmpty(children: seq<Uid>, blocks: seq<Uid>)
    ensures OverParented(Dedup(children), children, blocks) == [] <==>
      forall u :: u in blocks ==> Count(children, u) <= 1
  {
    var invalids := OverParented(Dedup(children), children, blocks);
    if invalids != [] {
      assert invalids[0] in invalids;
    }
  }

  /**
   * No block uid appears in more than one `children` list entry. Blocks appearing in none are not
   * flagged: the counter holds only uids that do appear.
   */
  function ValidateBlockParentsExist(g: Graph): (r: RuleResult)
    ensures r.Ok?
    ensures r == Ok(None) <==>
      forall u :: u in BlockUids(Values(g)) ==> Count(AllLinkedUids(Children, g), u) <= 1
    ensures r.value.Some? ==>
      r.value.value.rule == BlockParentsExistRule && r.value.value.detail.InvalidParentCounts? &&
      forall p :: p in r.value.value.detail.counts ==>
        p.0 in BlockUids(Values(g)) && p.1 == Count(AllLinkedUids(Children, g), p.0) && p.1 > 1
    ensures r.value.Some? ==>
      forall u :: u in BlockUids(Values(g)) && Count(AllLinkedUids(Children, g), u) > 1 ==>
        (u, Count(AllLinkedUids(Children, g), u)) in r.value.value.detail.counts
    ensures r.value.Some? ==>
      r.value.value.detail.InvalidParentCounts? &&
      InFirstOccurrenceOrder(KeysOf(r.value.value.detail.counts), AllLinkedUids(Children, g)) &&
      Distinct(KeysOf(r.value.value.detail.counts))
  {
    var blocks := BlockUids(Values(g));
    if blocks == [] then Ok(None)
    else
      var children := AllLinkedUids(Children, g);
      var invalids := OverParented(Dedup(children), children, blocks);
      OverParentedEmpty(children, blocks);
      OverParentedInOrder(Dedup(children), children, blocks);
      FirstOccurrenceOrderDistinct(KeysOf(invalids), children);
      if invalids == [] then Ok(None)
      else
        Fail(BlockParentsExistRule, InvalidParentCounts(invalids))
  }

  // ---------------------------------------------------------------------------------------------
  // ChildrenVertexTypesRule, PageNodeChildrenRule, BlockHeadingChildrenRule

  /**
   * `[uid for uid in uids if flagged(graph[uid].vertex_type)]`: a `KeyError` at the first uid
   * that is not in the graph.
   */
  function Screen(uids: seq<Uid>, g: Graph, flagged: VertexType -> bool): (r: Result<seq<Uid>, Crash>)
    ensures r.Err? <==> exists u :: u in uids && u !in g.entries
    ensures r.Err? ==> exists i :: (0 <= i < |uids| && r.error == KeyError(uids[i]) &&
      uids[i] !in g.entries && forall j :: 0 <= j < i ==> uids[j] in g.entries)
    ensures r.Ok? ==> forall u :: u in r.value <==> u in uids && flagged(g.entries[u].VertexType())
  {
    if uids == [] then Ok([])
    else if uids[0] !in g.entries then Err(KeyError(uids[0]))
    else
      var rest := Screen(uids[1..], g, flagged);
      assert forall u :: u in uids <==> u == uids[0] || u in uids[1..];
      if rest.Err? then
        var i :| 0 <= i < |uids[1..]| && rest.error == KeyError(uids[1..][i]) &&
          uids[1..][i] !in g.entries && forall j :: 0 <= j < i ==> uids[1..][j] in g.entries;
        assert uids[i + 1] == uids[1..][i];
        rest
      else if flagged(g.entries[uids[0]].VertexType()) then Ok([uids[0]] + rest.value)
      else rest
  }

  /** `[graph[uid] for uid in uids]`: the vertices the uids name, all of them vertices of the graph. */
  function Lookup(uids: seq<Uid>, g: Graph): (r: seq<Vertex>)
    requires forall u :: u in uids ==> u in g.entries
    ensures |r| == |uids| && forall i :: 0 <= i < |uids| ==> r[i] == g.entries[uids[i]]
    ensures forall w :: w in r ==> w in Values(g)
  {
    var r := seq(|uids|, i requires 0 <= i < |uids| => g.entries[uids[i]]);
    LookupInValues(uids, g, r);
    r
  }

  lemma LookupInValues(uids: seq<Uid>, g: Graph, r: seq<Vertex>)
    requires |r| == |uids| && forall i :: 0 <= i < |uids| ==> uids[i] in g.entries && r[i] == g.entries[uids[i]]
    ensures forall w :: w in r ==> w in Values(g)
  {
    forall w | w in r ensures w in Values(g) {
      var i :| 0 <= i < |r| && r[i] == w;
      KeyValueIn(g, uids[i]);
    }
  }

  /** No page and no file is listed as anybody's child; every child must be in the graph. */
  function ValidateChildrenVertexTypes(g: Graph): (r: RuleResult)
    ensures r.Err? <==> exists u :: u in AllLinkedUids(Children, g) && u !in g.entries
    ensures r == Ok(None) <==>
      forall u :: u in AllLinkedUids(Children, g) ==> u in g.entries && !PageOrFile(g.entries[u].VertexType())
    ensures r.Ok? && r.value.Some? ==>
      r.value.value.rule == ChildrenVertexTypesRule && r.value.value.detail.InvalidChildVertices? &&
      forall w :: w in r.value.value.detail.vertices ==> w in Values(g) && (w.Page? || w.File?)
    ensures r.Ok? && r.value.Some? ==>
      forall u :: u in AllLinkedUids(Children, g) && u in g.entries && PageOrFile(g.entries[u].VertexType()) ==>
        g.entries[u] in r.value.value.detail.vertices
  {
    var children := AllLinkedUids(Children, g);
    if children == [] then Ok(None)
    else
      match Screen(children, g, PageOrFile)
      case Err(e) => Err(e)
      case Ok(invalid) =>
        if invalid == [] then Ok(None)
        else
          assert invalid[0] in invalid;
          var vs := Lookup(invalid, g);
          ScreenedVertices(children, g, invalid, vs);
          Fail(ChildrenVertexTypesRule, InvalidChildVertices(vs))
  }

  /** The vertex types the children rule rejects. */
  predicate PageOrFile(t: VertexType)
  {
    t in {RoamPage, RoamFile}
  }

  /**
   * Looking up the screened uids gives exactly the vertices of the flagged children: each is a
   * page or a file, and every page or file child is among them.
   */
  lemma ScreenedVertices(children: seq<Uid>, g: Graph, invalid: seq<Uid>, vs: seq<Vertex>)
    requires forall u :: u in children ==> u in g.entries
    requires forall u :: u in invalid <==> u in children && PageOrFile(g.entries[u].VertexType())
    requires |vs| == |invalid| && forall i :: 0 <= i < |invalid| ==> vs[i] == g.entries[invalid[i]]
    ensures forall w :: w in vs ==> w.Page? || w.File?
    ensures forall u :: u in children && PageOrFile(g.entries[u].VertexType()) ==> g.entries[u] in vs
  {
    forall w | w in vs ensures w.Page? || w.File? {
      var i :| 0 <= i < |vs| && vs[i] == w;
      assert invalid[i] in invalid;
    }
    LookupCovers(invalid, g, vs);
  }

  /** Every uid of `uids` has its vertex among the vertices looked up. */
  lemma LookupCovers(uids: seq<Uid>, g: Graph, vs: seq<Vertex>)
    requires |vs| == |uids| && forall i :: 0 <= i < |uids| ==> uids[i] in g.entries && vs[i] == g.entries[uids[i]]
    ensures forall u :: u in uids ==> g.entries[u] in vs
  {
    forall u | u in uids ensures g.entries[u] in vs {
      var i :| 0 <= i < |uids| && uids[i] == u;
      assert vs[i] == g.entries[u];
    }
  }

  lemma KeyValueIn(g: Graph, k: Uid)
    requires k in g.entries
    ensures g.entries[k] in Values(g)
  {
    var i :| 0 <= i < |g.keys| && g.keys[i] == k;
    assert Values(g)[i] == g.entries[k];
  }

  /** The `children` lists of the vertices of type `t`, concatenated; absent lists contribute nothing. */
  function ChildrenOfType(vs: seq<Vertex>, t: VertexType): (r: seq<Uid>)
    ensures forall u :: u in r <==> exists v :: v in vs && v.VertexType() == t && u in LinksOf(v, Children)
  {
    if vs == [] then []
    else
      assert forall v :: v in vs <==> v == vs[0] || v in vs[1..];
      (if vs[0].VertexType() == t then LinksOf(vs[0], Children) else []) + ChildrenOfType(vs[1..], t)
  }

  /** Every child of every vertex of type `t` is in the graph and has one of the `valid` types. */
  function ValidateNodeChildren(rule: RuleName, t: VertexType, valid: set<VertexType>, g: Graph): (r: RuleResult)
    ensures r.Err? <==> exists u :: u in ChildrenOfType(Values(g), t) && u !in g.entries
    ensures r == Ok(None) <==>
      forall u :: u in ChildrenOfType(Values(g), t) ==> u in g.entries && g.entries[u].VertexType() in valid
    ensures r.Ok? && r.value.Some? ==>
      r.value.value.rule == rule && r.value.value.detail.InvalidChildUids? &&
      forall u :: u in r.value.value.detail.childUids ==> u in g.entries && g.entries[u].VertexType() !in valid
    ensures r.Ok? && r.value.Some? ==>
      forall u :: u in ChildrenOfType(Values(g), t) && u in g.entries && g.entries[u].VertexType() !in valid ==>
        u in r.value.value.detail.childUids
  {
    var children := ChildrenOfType(Values(g), t);
    match Screen(children, g, t => t !in valid)
    case Err(e) => Err(e)
    case Ok(invalid) =>
      if invalid == [] then Ok(None)
      else
        assert invalid[0] in invalid;
        Fail(rule, InvalidChildUids(invalid))
  }

  // ---------------------------------------------------------------------------------------------
  // ChildrenAttributeAppearanceRule, ReferencesAttributeAppearanceRule

  /** `[v for v in vs if has_attribute_value(v, link) and v.vertex_type not in valid]` */
  function InvalidCarriersOf(vs: seq<Vertex>, link: LinkName, valid: set<VertexType>): (r: seq<Vertex>)
    ensures forall v :: v in r <==> v in vs && HasLink(v, link) && v.VertexType() !in valid
  {
    if vs == [] then []
    else
      assert forall v :: v in vs <==> v == vs[0] || v in vs[1..];
      (if HasLink(vs[0], link) && vs[0].VertexType() !in valid then [vs[0]] else [])
        + InvalidCarriersOf(vs[1..], link, valid)
  }

  /** Only vertices of the `valid` types carry a `link` attribute that is not `None`. */
  function ValidateAttributeAppearance(rule: RuleName, link: LinkName, valid: set<VertexType>, g: Graph): (r: RuleResult)
    ensures r.Ok?
    ensures r == Ok(None) <==> forall v :: v in Values(g) && HasLink(v, link) ==> v.VertexType() in valid
    ensures r.value.Some? ==>
      r.value.value.rule == rule && r.value.value.detail.InvalidCarriers? &&
      forall v :: v in r.value.value.detail.carriers <==> v in Values(g) && HasLink(v, link) && v.VertexType() !in valid
  {
    var invalid := InvalidCarriersOf(Values(g), link, valid);
    if invalid == [] then Ok(None)
    else
      assert invalid[0] in invalid;
      Fail(rule, InvalidCarriers(invalid))
  }

  // ---------------------------------------------------------------------------------------------
  // ReferencesAppearInContentRule

  /** `ref` appears in `target` as a page link `[[ref]]`, a block reference `((ref))` or an alias `<<ref>>`. */
  predicate ContentContainsReference(target: string, ref: Uid)
  {
    Contains(target, "[[" + ref + "]]") || Contains(target, "((" + ref + "))") || Contains(target, "<<" + ref + ">>")
  }

  /** Text around a bracketed reference does not matter. */
  lemma ReferenceFormsFound(a: string, ref: Uid, b: string)
    ensures ContentContainsReference(a + "[[" + ref + "]]" + b, ref)
    ensures ContentContainsReference(a + "((" + ref + "))" + b, ref)
    ensures ContentContainsReference(a + "<<" + ref + ">>" + b, ref)
  {
    ContainsMiddle(a, "[[" + ref + "]]", b);
    assert a + "[[" + ref + "]]" + b == a + ("[[" + ref + "]]") + b;
    ContainsMiddle(a, "((" + ref + "))", b);
    assert a + "((" + ref + "))" + b == a + ("((" + ref + "))") + b;
    ContainsMiddle(a, "<<" + ref + ">>", b);
    assert a + "<<" + ref + ">>" + b == a + ("<<" + ref + ">>") + b;
  }

  /** Content without any opening bracket of the three forms mentions no reference at all. */
  lemma NoBracketNoReference(target: string, ref: Uid)
    requires '[' !in target && '(' !in target && '<' !in target
    ensures !ContentContainsReference(target, ref)
  {
    NotContainsMissingChar(target, "[[" + ref + "]]", '[');
    NotContainsMissingChar(target, "((" + ref + "))", '(');
    NotContainsMissingChar(target, "<<" + ref + ">>", '<');
  }

  /** `[r for r in refs if not content_contains_reference(content, r)]` */
  function MissingFromContent(content: string, refs: seq<Uid>): (r: seq<Uid>)
    ensures forall u :: u in r <==> u in refs && !ContentContainsReference(content, u)
  {
    if refs == [] then []
    else
      (if ContentContainsReference(content, refs[0]) then [] else [refs[0]]) + MissingFromContent(content, refs[1..])
  }

  /** A lone reference is kept iff the content does not mention it. */
  lemma MissingFromContentOne(content: string, u: Uid)
    ensures MissingFromContent(content, [u]) == if ContentContainsReference(content, u) then [] else [u]
  {
    assert [u][1..] == [];
  }

  /** Filtering a concatenation keeps its pieces' unmentioned references in order, repeats included. */
  lemma {:induction false} MissingFromContentAppend(content: string, a: seq<Uid>, b: seq<Uid>)
    ensures MissingFromContent(content, a + b) == MissingFromContent(content, a) + MissingFromContent(content, b)
    decreases |a|
  {
    if a == [] {
      assert a + b == b;
    } else {
      var head := if ContentContainsReference(content, a[0]) then [] else [a[0]];
      calc {
        MissingFromContent(content, a + b);
        { assert (a + b)[0] == a[0] && (a + b)[1..] == a[1..] + b; }
        head + MissingFromContent(content, a[1..] + b);
        { MissingFromContentAppend(content, a[1..], b); }
        head + (MissingFromContent(content, a[1..]) + MissingFromContent(content, b));
        (head + MissingFromContent(content, a[1..])) + MissingFromContent(content, b);
      }
    }
  }

  /** Reading the references of `v` would need a `content` attribute that `v` lacks. */
  predicate ReadsMissingContent(v: Vertex)
  {
    v.IsNode() && LinksOf(v, References) != [] && !v.BlockContent?
  }

  /** Every reference of `v` is mentioned in its text (vacuous when it has none). */
  predicate MentionsReferences(v: Vertex)
  {
    LinksOf(v, References) == [] ||
    (v.BlockContent? && forall u :: u in LinksOf(v, References) ==> ContentContainsReference(v.content, u))
  }

  /**
   * `dangling_references(v)`: the references of a content block that its text does not mention.
   * Reading `references` of a file, or `content` of a page or heading with references, raises
   * `AttributeError`.
   */
  function DanglingReferences(v: Vertex): (r: Result<Option<seq<Uid>>, Crash>)
    ensures r.Err? <==> v.File? || ReadsMissingContent(v)
    ensures r == Ok(None) <==> !v.File? && MentionsReferences(v)
    ensures r.Ok? && r.value.Some? ==>
      v.BlockContent? && r.value.value != [] &&
      forall u :: u in r.value.value <==> u in LinksOf(v, References) && !ContentContainsReference(v.content, u)
    ensures r.Ok? && r.value.Some? ==> v.BlockContent? && r.value.value == MissingFromContent(v.content, LinksOf(v, References))
  {
    if v.File? then Err(AttributeError(v.uid))
    else
      var refs := LinksOf(v, References);
      if refs == [] then Ok(None)
      else if !v.BlockContent? then Err(AttributeError(v.uid))
      else
        var dangling := MissingFromContent(v.content, refs);
        if dangling == [] then Ok(None)
        else
          assert dangling[0] in dangling;
          Ok(Some(dangling))
  }

  /**
   * `{v.uid: dangling_references(v) for v in vs if dangling_references(v) is not None}`, added to
   * `acc` in order; the first vertex whose check raises aborts.
   */
  function CollectDanglers(vs: seq<Vertex>, acc: OMap<Uid, seq<Uid>>): (r: Result<OMap<Uid, seq<Uid>>, Crash>)
    ensures r.Err? <==> exists v :: v in vs && DanglingReferences(v).Err?
    ensures r.Ok? ==> forall k :: k in r.value.entries <==>
      k in acc.entries || exists v :: v in vs && v.uid == k && DanglingReferences(v).value.Some?
    ensures r.Ok? ==> (|r.value.keys| == 0 <==>
      |acc.keys| == 0 && forall v :: v in vs ==> DanglingReferences(v) == Ok(None))
    ensures r.Ok? ==> forall k :: k in r.value.entries ==>
      (k in acc.entries && r.value.entries[k] == acc.entries[k]) ||
      exists v :: v in vs && v.uid == k && DanglingReferences(v) == Ok(Some(r.value.entries[k]))
  {
    if vs == [] then Ok(acc)
    else
      assert forall v :: v in vs <==> v == vs[0] || v in vs[1..];
      match DanglingReferences(vs[0])
      case Err(e) => Err(e)
      case Ok(None) => CollectDanglers(vs[1..], acc)
      case Ok(Some(d)) => CollectDanglers(vs[1..], Put(acc, vs[0].uid, d))
  }

  /** `[v for v in vs if has_attribute_value(v, link)]` */
  function Carriers(vs: seq<Vertex>, link: LinkName): (r: seq<Vertex>)
    ensures forall v :: v in r <==> v in vs && HasLink(v, link)
  {
    if vs == [] then []
    else
      assert forall v :: v in vs <==> v == vs[0] || v in vs[1..];
      (if HasLink(vs[0], link) then [vs[0]] else []) + Carriers(vs[1..], link)
  }

  /**
   * Every reference of every content block appears in its text. A page or heading whose references
   * are not empty makes the rule raise.
   */
  function ValidateReferencesAppearInContent(g: Graph): (r: RuleResult)
    ensures r.Err? <==> exists v :: v in Values(g) && ReadsMissingContent(v)
    ensures r == Ok(None) <==> forall v :: v in Values(g) && HasLink(v, References) ==> MentionsReferences(v)
    ensures r.Ok? && r.value.Some? ==>
      r.value.value.rule == ReferencesAppearInContentRule && r.value.value.detail.Danglers? &&
      forall k :: k in r.value.value.detail.danglers.entries <==>
        exists v :: v in Values(g) && HasLink(v, References) && v.uid == k && !MentionsReferences(v)
    ensures r.Ok? && r.value.Some? ==>
      r.value.value.detail.Danglers? &&
      forall k :: k in r.value.value.detail.danglers.entries ==>
        exists v :: v in Values(g) && v.uid == k && DanglingReferences(v) == Ok(Some(r.value.value.detail.danglers.entries[k]))
  {
    var referencing := Carriers(Values(g), References);
    assert forall v :: v in Values(g) && ReadsMissingContent(v) ==> v in referencing;
    assert forall v :: v in referencing ==>
      (DanglingReferences(v).Err? <==> ReadsMissingContent(v)) &&
      (DanglingReferences(v) == Ok(None) <==> MentionsReferences(v)) &&
      (DanglingReferences(v).Ok? ==> (DanglingReferences(v).value.Some? <==> !MentionsReferences(v)));
    if referencing == [] then Ok(None)
    else ReportDanglers(referencing)
  }

  /** The rule's verdict over the reference carriers: each carrier with unmentioned references is reported under its uid. */
  function ReportDanglers(referencing: seq<Vertex>): (r: RuleResult)
    ensures r.Err? <==> exists v :: v in referencing && DanglingReferences(v).Err?
    ensures r == Ok(None) <==> forall v :: v in referencing ==> DanglingReferences(v) == Ok(None)
    ensures r.Ok? && r.value.Some? ==>
      r.value.value.rule == ReferencesAppearInContentRule && r.value.value.detail.Danglers? &&
      forall k :: k in r.value.value.detail.danglers.entries <==>
        exists v :: v in referencing && v.uid == k && DanglingReferences(v).value.Some?
    ensures r.Ok? && r.value.Some? ==>
      r.value.value.detail.Danglers? &&
      forall k :: k in r.value.value.detail.danglers.entries ==>
        exists v :: v in referencing && v.uid == k && DanglingReferences(v) == Ok(Some(r.value.value.detail.danglers.entries[k]))
  {
    match CollectDanglers(referencing, Empty())
    case Err(e) => Err(e)
    case Ok(danglers) =>
      if |danglers.keys| == 0 then Ok(None)
      else Fail(ReferencesAppearInContentRule, Danglers(danglers))
  }

  /** In a graph whose vertices sit under their own uids, each vertex is found under its uid. */
  lemma UnderOwnUid(g: Graph, v: Vertex)
    requires forall k :: k in g.entries ==> g.entries[k].uid == k
    requires v in Values(g)
    ensures v.uid in g.entries && g.entries[v.uid] == v
  {
    var i :| 0 <= i < |Values(g)| && Values(g)[i] == v;
    assert g.entries[g.keys[i]] == v;
  }

  /**
   * In a graph whose vertices sit under their own uids, as `create_vertex_map` builds it, each
   * reported uid maps to exactly that vertex's unmentioned references.
   */
  lemma DanglersOfKeyedGraph(g: Graph)
    requires forall k :: k in g.entries ==> g.entries[k].uid == k
    ensures var r := ValidateReferencesAppearInContent(g);
      r.Ok? && r.value.Some? ==>
        r.value.value.detail.Danglers? &&
        forall k :: k in r.value.value.detail.danglers.entries ==>
          k in g.entries && DanglingReferences(g.entries[k]) == Ok(Some(r.value.value.detail.danglers.entries[k]))
  {
    var r := ValidateReferencesAppearInContent(g);
    if r.Ok? && r.value.Some? {
      var danglers := r.value.value.detail.danglers;
      forall k | k in danglers.entries
        ensures k in g.entries && DanglingReferences(g.entries[k]) == Ok(Some(danglers.entries[k]))
      {
        var v :| v in Values(g) && v.uid == k && DanglingReferences(v) == Ok(Some(danglers.entries[k]));
        UnderOwnUid(g, v);
      }
    }
  }

  // ---------------------------------------------------------------------------------------------
  // validate

  /** `rule.validate(graph)` for each entry of `ALL_RULES`. */
  function ApplyRule(rule: RuleName, g: Graph): (r: RuleResult)
    ensures r.Ok? && r.value.Some? ==> r.value.value.rule == rule
  {
    match rule
    case RootPageRule => ValidateRootPage(g)
    case ChildrenExistRule => ValidateLinksExist(ChildrenExistRule, Children, g)
    case ReferencesExistRule => ValidateLinksExist(ReferencesExistRule, References, g)
    case BlockParentsExistRule => ValidateBlockParentsExist(g)
    case ChildrenVertexTypesRule => ValidateChildrenVertexTypes(g)
    case PageNodeChildrenRule =>
      ValidateNodeChildren(PageNodeChildrenRule, RoamPage, {RoamBlockContent, RoamBlockHeading}, g)
    case BlockHeadingChildrenRule =>
      ValidateNodeChildren(BlockHeadingChildrenRule, RoamBlockHeading, {RoamBlockContent, RoamBlockHeading}, g)
    case ChildrenAttributeAppearanceRule =>
      ValidateAttributeAppearance(ChildrenAttributeAppearanceRule, Children,
        {RoamPage, RoamBlockContent, RoamBlockHeading}, g)
    case ReferencesAttributeAppearanceRule =>
      ValidateAttributeAppearance(ReferencesAttributeAppearanceRule, References, {RoamBlockContent}, g)
    case ReferencesAppearInContentRule => ValidateReferencesAppearInContent(g)
  }

  /**
   * The results of `rules` listed in order, concatenated: the failures in order, or the first
   * exception raised, which aborts the run.
   */
  function Collect(rs: seq<RuleResult>): (r: Result<seq<Failure>, Crash>)
    ensures r.Err? <==> exists i :: 0 <= i < |rs| && rs[i].Err?
    ensures r.Err? ==> exists i :: (0 <= i < |rs| && rs[i] == Err(r.error) &&
      forall j :: 0 <= j < i ==> rs[j].Ok?)
    ensures r.Ok? ==> forall f :: f in r.value <==> exists i :: 0 <= i < |rs| && rs[i] == Ok(Some(f))
  {
    if rs == [] then Ok([])
    else
      var rest := Collect(rs[1..]);
      assert forall i :: 0 <= i < |rs[1..]| ==> rs[1..][i] == rs[i + 1];
      if rs[0].Err? then Err(rs[0].error)
      else if rest.Err? then
        var i :| 0 <= i < |rs[1..]| && rs[1..][i] == Err(rest.error) && forall j :: 0 <= j < i ==> rs[1..][j].Ok?;
        assert forall j :: 0 <= j < i + 1 ==> rs[j].Ok? by {
          forall j | 0 <= j < i + 1 ensures rs[j].Ok? {
            if j > 0 { assert rs[j] == rs[1..][j - 1]; }
          }
        }
        rest
      else
        assert forall f :: (exists i :: 0 <= i < |rs| && rs[i] == Ok(Some(f))) ==>
          rs[0] == Ok(Some(f)) || exists i :: 0 <= i < |rs[1..]| && rs[1..][i] == Ok(Some(f)) by {
          forall f | exists i :: 0 <= i < |rs| && rs[i] == Ok(Some(f))
            ensures rs[0] == Ok(Some(f)) || exists i :: 0 <= i < |rs[1..]| && rs[1..][i] == Ok(Some(f)) {
            var i :| 0 <= i < |rs| && rs[i] == Ok(Some(f));
            if i > 0 { assert rs[1..][i - 1] == rs[i]; }
          }
        }
        Ok((if rs[0].value.Some? then [rs[0].value.value] else []) + rest.value)
  }

  /** `[rule.validate(graph) for rule in ALL_RULES]` */
  function RuleResults(g: Graph): (r: seq<RuleResult>)
    ensures |r| == |AllRules| && forall i :: 0 <= i < |AllRules| ==> r[i] == ApplyRule(AllRules[i], g)
  {
    seq(|AllRules|, i requires 0 <= i < |AllRules| => ApplyRule(AllRules[i], g))
  }

  /** Speaking of the positions of `rs` is speaking of the rules of `AllRules`. */
  lemma ResultsOfAllRules(g: Graph, rs: seq<RuleResult>)
    requires |rs| == |AllRules| && forall i :: 0 <= i < |AllRules| ==> rs[i] == ApplyRule(AllRules[i], g)
    ensures (exists i :: 0 <= i < |rs| && rs[i].Err?) <==> exists rule :: rule in AllRules && ApplyRule(rule, g).Err?
    ensures (forall i :: 0 <= i < |rs| ==> rs[i] == Ok(None)) <==>
      forall rule :: rule in AllRules ==> ApplyRule(rule, g) == Ok(None)
    ensures forall f :: (exists i :: 0 <= i < |rs| && rs[i] == Ok(Some(f))) <==>
      exists rule :: rule in AllRules && ApplyRule(rule, g) == Ok(Some(f))
  {
    assert forall rule :: rule in AllRules <==> exists i :: 0 <= i < |AllRules| && AllRules[i] == rule;
  }

  /**
   * `validate(graph)`: `Ok(None)` when no rule fails, otherwise the failures of all rules in
   * `ALL_RULES` order; the first rule that raises aborts validation.
   */
  function Validate(g: Graph): (r: Result<Option<seq<Failure>>, Crash>)
    ensures r.Err? <==> exists rule :: rule in AllRules && ApplyRule(rule, g).Err?
    ensures r == Ok(None) <==> forall rule :: rule in AllRules ==> ApplyRule(rule, g) == Ok(None)
    ensures r.Ok? && r.value.Some? ==> (r.value.value != [] &&
      forall f :: f in r.value.value <==> exists rule :: rule in AllRules && ApplyRule(rule, g) == Ok(Some(f)))
  {
    var rs := RuleResults(g);
    ResultsOfAllRules(g, rs);
    Summarize(rs)
  }

  /** The collected rule results as `validate` returns them: `None` for no failure. */
  function Summarize(rs: seq<RuleResult>): (r: Result<Option<seq<Failure>>, Crash>)
    ensures r.Err? <==> exists i :: 0 <= i < |rs| && rs[i].Err?
    ensures r == Ok(None) <==> forall i :: 0 <= i < |rs| ==> rs[i] == Ok(None)
    ensures r.Ok? && r.value.Some? ==> (r.value.value != [] &&
      forall f :: f in r.value.value <==> exists i :: 0 <= i < |rs| && rs[i] == Ok(Some(f)))
  {
    match Collect(rs)
    case Err(e) => Err(e)
    case Ok(fs) =>
      if fs == [] then
        assert forall i :: 0 <= i < |rs| ==> rs[i] == Ok(None) by {
          forall i | 0 <= i < |rs| ensures rs[i] == Ok(None) {
            if rs[i].value.Some? { assert false; }
          }
        }
        Ok(None)
      else
        assert fs[0] in fs;
        Ok(Some(fs))
  }

  predicate FailuresInRuleOrder(fs: seq<Failure>)
  {
    forall a, b :: 0 <= a < b < |fs| ==> RuleIndex(fs[a].rule) < RuleIndex(fs[b].rule)
  }

  /**
   * When the result at position `i` can only report the rule of index `lo + i`, the collected
   * failures come in rule order, all at index `lo` or later.
   */
  lemma {:induction false} CollectOrdered(rs: seq<RuleResult>, lo: nat)
    requires forall i :: 0 <= i < |rs| && rs[i].Ok? && rs[i].value.Some? ==> RuleIndex(rs[i].value.value.rule) == lo + i
    ensures Collect(rs).Ok? ==> FailuresInRuleOrder(Collect(rs).value)
    ensures Collect(rs).Ok? ==> forall f :: f in Collect(rs).value ==> lo <= RuleIndex(f.rule)
  {
    if rs != [] && Collect(rs).Ok? {
      var rest := Collect(rs[1..]);
      assert forall i :: 0 <= i < |rs[1..]| ==> rs[1..][i] == rs[i + 1];
      CollectOrdered(rs[1..], lo + 1);
      var fs := Collect(rs).value;
      if rs[0].value.Some? {
        assert fs == [rs[0].value.value] + rest.value;
        forall a, b | 0 <= a < b < |fs| ensures RuleIndex(fs[a].rule) < RuleIndex(fs[b].rule) {
          if a == 0 {
            assert fs[b] in rest.value;
          } else {
            assert fs[a] == rest.value[a - 1] && fs[b] == rest.value[b - 1];
          }
        }
      } else {
        assert fs == rest.value;
      }
    }
  }

  /** The reported failures follow the order of `ALL_RULES`, at most one per rule. */
  lemma ValidateFailureOrder(g: Graph)
    ensures Validate(g).Ok? && Validate(g).value.Some? ==> FailuresInRuleOrder(Validate(g).value.value)
  {
    var rs := RuleResults(g);
    assert forall i :: 0 <= i < |AllRules| ==> RuleIndex(AllRules[i]) == i;
    CollectOrdered(rs, 0);
  }

  /** An empty graph has no first vertex: `validate` raises `IndexError` instead of passing. */
  lemma EmptyGraphCrashes(g: Graph)
    requires |g.keys| == 0
    ensures Validate(g) == Err(IndexError)
  {
    assert ApplyRule(AllRules[0], g) == Err(IndexError);
  }

  /**
   * Every `RoamNode` type may carry `children`, and a file has no such attribute, so the
   * children-attribute rule never reports a failure.
   */
  lemma {:induction false} ChildrenAttributeNeverFails(g: Graph)
    ensures ApplyRule(ChildrenAttributeAppearanceRule, g) == Ok(None)
  {
    forall v | v in Values(g) && HasLink(v, Children)
      ensures v.VertexType() in {RoamPage, RoamBlockContent, RoamBlockHeading}
    {
      match v
      case Page(_, _, _, _, _) =>
      case BlockHeading(_, _, _, _, _, _) =>
      case BlockContent(_, _, _, _, _) =>
    }
  }

  /**
   * A page built with the constructor's default `references=[]` carries a `references` value that
   * is not `None`, so the references-attribute rule reports it and validation cannot pass.
   */
  lemma DefaultPageFlagged(g: Graph, uid: Uid, m: MediaType, title: string)
    requires NewPage(uid, m, title) in Values(g)
    ensures ApplyRule(ReferencesAttributeAppearanceRule, g).value.Some?
    ensures Validate(g) != Ok(None)
  {
    assert ApplyRule(ReferencesAttributeAppearanceRule, g) != Ok(None);
    assert AllRules[8] == ReferencesAttributeAppearanceRule;
  }

  /**
   * A page or heading with a non-empty `references` list has no `content` to search, so validation
   * raises rather than returning failures.
   */
  lemma ReferencesOnNonContentCrash(g: Graph, v: Vertex)
    requires v in Values(g) && !v.File? && !v.BlockContent? && v.references.Some? && v.references.value != []
    ensures Validate(g).Err?
  {
    assert ReadsMissingContent(v);
    assert ApplyRule(AllRules[9], g).Err?;
  }

  predicate IsPageWithOneBlock(g: Graph)
  {
    g.keys == ["p", "c"] &&
    g.entries == map["p" := Page("p", TextMarkdown, "Title", Some(["c"]), None),
                     "c" := BlockContent("c", TextMarkdown, "text", None, None)]
  }

  lemma PageWithOneBlockFacts(g: Graph)
    requires IsPageWithOneBlock(g)
    ensures forall v :: v in Values(g) ==> v.Page? || v.BlockContent?
    ensures AllLinkedUids(Children, g) == ["c"] && Count(["c"], "c") == 1
    ensures ChildrenOfType(Values(g), RoamPage) == ["c"] && ChildrenOfType(Values(g), RoamBlockHeading) == []
  {
    var p := g.entries["p"];
    var c := g.entries["c"];
    assert Values(g) == [p, c];
    assert ConcatLinks(Children, [c]) == [];
    assert ChildrenOfType([c], RoamPage) == [];
    assert ChildrenOfType([c], RoamBlockHeading) == [];
  }

  lemma PageWithOneBlockPassesLinkRules(g: Graph)
    requires IsPageWithOneBlock(g)
    ensures ApplyRule(RootPageRule, g) == Ok(None)
    ensures ApplyRule(ChildrenExistRule, g) == Ok(None)
    ensures ApplyRule(ReferencesExistRule, g) == Ok(None)
    ensures ApplyRule(BlockParentsExistRule, g) == Ok(None)
  {
    PageWithOneBlockLinksExist(g);
    PageWithOneBlockFacts(g);
  }

  lemma PageWithOneBlockLinksExist(g: Graph)
    requires IsPageWithOneBlock(g)
    ensures ApplyRule(ChildrenExistRule, g) == Ok(None)
    ensures ApplyRule(ReferencesExistRule, g) == Ok(None)
  {
    var p, c := g.entries["p"], g.entries["c"];
    assert Values(g) == [p, c];
    forall v, u | v in Values(g) && u in LinksOf(v, Children) ensures u in g.entries {
      assert v == p || v == c;
    }
    assert LinksOf(p, References) == [] && LinksOf(c, References) == [];
  }

  lemma PageWithOneBlockPassesTypeRules(g: Graph)
    requires IsPageWithOneBlock(g)
    ensures ApplyRule(ChildrenVertexTypesRule, g) == Ok(None)
    ensures ApplyRule(PageNodeChildrenRule, g) == Ok(None)
    ensures ApplyRule(BlockHeadingChildrenRule, g) == Ok(None)
  {
    PageWithOneBlockChildIsContent(g);
    PageWithOneBlockPageChildren(g);
    PageWithOneBlockHeadingChildren(g);
  }

  lemma PageWithOneBlockHeadingChildren(g: Graph)
    requires IsPageWithOneBlock(g)
    ensures ApplyRule(BlockHeadingChildrenRule, g) == Ok(None)
  {
    PageWithOneBlockFacts(g);
  }

  lemma PageWithOneBlockChildIsContent(g: Graph)
    requires IsPageWithOneBlock(g)
    ensures ValidateChildrenVertexTypes(g) == Ok(None)
  {
    PageWithOneBlockFacts(g);
    assert !PageOrFile(g.entries["c"].VertexType());
  }

  lemma PageWithOneBlockPageChildren(g: Graph)
    requires IsPageWithOneBlock(g)
    ensures ValidateNodeChildren(PageNodeChildrenRule, RoamPage, {RoamBlockContent, RoamBlockHeading}, g) == Ok(None)
  {
    PageWithOneBlockFacts(g);
    assert g.entries["c"].VertexType() == RoamBlockContent;
  }

  lemma PageWithOneBlockPassesAttributeRules(g: Graph)
    requires IsPageWithOneBlock(g)
    ensures ApplyRule(ReferencesAttributeAppearanceRule, g) == Ok(None)
    ensures ApplyRule(ReferencesAppearInContentRule, g) == Ok(None)
  {
    PageWithOneBlockCarriesNoReferences(g);
  }

  lemma PageWithOneBlockCarriesNoReferences(g: Graph)
    requires IsPageWithOneBlock(g)
    ensures forall v :: v in Values(g) ==> !HasLink(v, References) && !ReadsMissingContent(v)
  {
    var p, c := g.entries["p"], g.entries["c"];
    assert Values(g) == [p, c];
    assert !HasLink(p, References) && !HasLink(c, References);
    assert LinksOf(p, References) == [] && LinksOf(c, References) == [];
  }

  /** A page whose one child is a plain content block, neither carrying references, passes every rule. */
  lemma PageWithOneBlockValidates(g: Graph)
    requires IsPageWithOneBlock(g)
    ensures Validate(g) == Ok(None)
  {
    PageWithOneBlockPassesLinkRules(g);
    PageWithOneBlockPassesTypeRules(g);
    ChildrenAttributeNeverFails(g);
    PageWithOneBlockPassesAttributeRules(g);
    EveryRulePasses(g);
  }

  /** A graph that passes each of the ten rules, one by one, passes `validate`. */
  lemma EveryRulePasses(g: Graph)
    requires ApplyRule(RootPageRule, g) == Ok(None) && ApplyRule(ChildrenExistRule, g) == Ok(None)
    requires ApplyRule(ReferencesExistRule, g) == Ok(None) && ApplyRule(BlockParentsExistRule, g) == Ok(None)
    requires ApplyRule(ChildrenVertexTypesRule, g) == Ok(None) && ApplyRule(PageNodeChildrenRule, g) == Ok(None)
    requires ApplyRule(BlockHeadingChildrenRule, g) == Ok(None)
    requires ApplyRule(ChildrenAttributeAppearanceRule, g) == Ok(None)
    requires ApplyRule(ReferencesAttributeAppearanceRule, g) == Ok(None)
    requires ApplyRule(ReferencesAppearInContentRule, g) == Ok(None)
    ensures Validate(g) == Ok(None)
  {
    assert forall rule :: rule in AllRules ==> ApplyRule(rule, g) == Ok(None);
  }
}

=== FILE: walk.dfy ===
/**
 * What the export and tokenize walkers have in common: the children they follow, the exceptions
 * they raise, and the order in which they visit a tree. `Preorder` is the reference reading of that
 * order, against which both walkers are proved.
 *
 * Python recurses without a bound and without cycle detection; the walkers of this model thread a
 * `fuel` depth bound through the recursion and report `DepthExceeded` when a node with children is
 * reached with no fuel left.
 */
module Walk {
  import opened Wrappers
  import opened RoamModel

  /**
   * What the walkers raise: `TypeError` for a vertex of the wrong class (a `File` is not a
   * `RoamNode`), `KeyError` for a child uid missing from the graph, and `DepthExceeded` when the
   * model's depth bound runs out (where Python would recurse on).
   */
  datatype WalkError = TypeError(uid: Uid) | KeyError(uid: Uid) | DepthExceeded

  /** The children of a node in list order; none for an absent or empty list (`not node.children`). */
  function ChildUids(v: Vertex): seq<Uid>
  {
    LinksOf(v, Children)
  }

  /**
   * The nodes of the tree below `v` in depth-first pre-order, `v` first, failing where the walkers
   * fail: `TypeError` at a `File`, `KeyError` at a missing child, `DepthExceeded` at the bound.
   */
  function Preorder(v: Vertex, g: Graph, fuel: nat): (r: Result<seq<Vertex>, WalkError>)
    ensures r.Ok? ==> r.value != [] && r.value[0] == v && AllNodes(r.value)
    ensures r.Ok? && ChildUids(v) == [] ==> r.value == [v]
    decreases fuel, 1
  {
    if v.File? then Err(TypeError(v.uid))
    else if ChildUids(v) == [] then Ok([v])
    else if fuel == 0 then Err(DepthExceeded)
    else
      match PreorderChildren(ChildUids(v), g, fuel - 1)
      case Err(e) => Err(e)
      case Ok(vs) => Ok([v] + vs)
  }

  /** The pre-orders of the children, concatenated in child order. */
  function PreorderChildren(cs: seq<Uid>, g: Graph, fuel: nat): (r: Result<seq<Vertex>, WalkError>)
    ensures r.Ok? ==> AllNodes(r.value) && (r.value == [] <==> cs == [])
    ensures r.Ok? ==> forall i :: 0 <= i < |cs| ==> cs[i] in g.entries
    decreases fuel, 2, |cs|
  {
    if cs == [] then Ok([])
    else if cs[0] !in g.entries then Err(KeyError(cs[0]))
    else
      match Preorder(g.entries[cs[0]], g, fuel)
      case Err(e) => Err(e)
      case Ok(xs) =>
        match PreorderChildren(cs[1..], g, fuel)
        case Err(e) => Err(e)
        case Ok(ys) => Ok(xs + ys)
  }

  /** Every vertex listed is a node, never a `File`. */
  predicate AllNodes(vs: seq<Vertex>)
  {
    forall i :: 0 <= i < |vs| ==> !vs[i].File?
  }

  /** Two walks raise the same exception, or both succeed. */
  predicate SameOutcome<A, B>(r: Result<A, WalkError>, p: Result<B, WalkError>)
  {
    && (r.Err? <==> p.Err?)
    && (r.Err? ==> r.error == p.error)
  }
}

=== FILE: wrappers.dfy ===
/** Option and Result: the model's stand-ins for Python's `None` and for raised exceptions. */
module Wrappers {

  datatype Option<+T> = None | Some(value: T)

  /** `Err` carries the exception the source would raise; `Ok` carries the returned value. */
  datatype Result<+T, +E> = Ok(value: T) | Err(error: E) {
    predicate IsFailure() {
      Err?
    }

    function PropagateFailure<U>(): Result<U, E>
      requires Err?
    {
      Err(error)
    }

    function Extract(): T
      requires Ok?
    {
      value
    }
  }

  /** The list a Python `Optional[list]` holds, with `None` read as the empty list. */
  function OrEmpty<T>(o: Option<seq<T>>): seq<T>
  {
    match o
    case None => []
    case Some(s) => s
  }
}
